=== FILE: README.md ===
# CodeScroll core, modelled in Dafny

CodeScroll is a micro-learning site. A Next.js client shows a feed of
short technical posts. Signed-in readers like, dislike, bookmark and comment
on posts. Authors write posts with an AI title assistant and an inline
grammar checker. Administrators moderate posts, comments and users. A Spring
backend stores posts, comments and users, and handles registration, login,
profile edits and password changes.

This project models the logic of that core, one Dafny module per source file:

- `GrammarChecker`: the inline grammar checker.
- `SavedPosts`: the bookmark hook.
- `Auth`: the session helpers.
- `AuthContext`: the auth context.
- `PostCard`: the post card.
- `CommentSection`: the comment section.
- `PostFeed`: the feed.
- `AdminUsersTab`: the users tab of the admin dashboard.
- `AdminCommentsTab`: the comments tab of the admin dashboard.
- `AdminDashboard`: the admin dashboard page.
- `CreatePost`: the create-post page.
- `RegisterPage`: the registration page.
- `ProfileEdit`: the profile-edit page.
- `PostController`: the posts REST controller.
- `PostService`: the post service.
- `UserService`: the user service.
- `AuthService`: the authentication service.

Support modules:

- `Common`: sequences, strings, JavaScript `indexOf`/`trim`/`toLowerCase`, and Java `String.valueOf`.
- `Types`: the client's data types.
- `Storage`: `localStorage` and JSON as a codec.
- `Repository`: the Spring Data tables, keyed by generated ids.

How the source maps into Dafny:

- **React components and hooks** are classes. Their state variables are fields, and their handlers and effects are methods. What the browser or the server answers is a parameter: the fetched posts, the server reply, the AI result and the upload URL. What the component derives from its state is a function.
- **Backend services and the controller** are classes over tables.
- **Pure mappings** are functions. Their promises are ensures clauses and lemmas: the DTO builders, the form rules and the error-message choices.

Hashing is an abstract encoder pair `encode`/`matches`. The JWT is `sign(id, email)`, a parameter. A Java `Integer` counter is a 32-bit value that wraps on overflow.

## Model

| member | source | states |
|---|---|---|
| GrammarChecker.GrammarCheckAllowedIff | studio/src/components/inline-grammar-checker.tsx:27 | the check is allowed exactly when the text has at least 20 characters (the empty text included in the refusal) |
| GrammarChecker.InlineGrammarChecker.HandleCheckGrammar | studio/src/components/inline-grammar-checker.tsx:26-46 | the model is called iff the text is long enough; a returned result becomes `results`, a failed call keeps the old one |
| GrammarChecker.InlineGrammarChecker.OnValueChange | studio/src/components/inline-grammar-checker.tsx:48-51 | editing the text clears the results |
| GrammarChecker.SortByFirstOccurrence | studio/src/components/inline-grammar-checker.tsx:63-67 | the corrections sorted by the index of their phrase's first occurrence in the text (-1 when absent), built by inserting each before the first element whose key is not smaller, so equal keys keep their order |
| GrammarChecker.SortOrdersAndPermutes | studio/src/components/inline-grammar-checker.tsx:63-67 | the sorted corrections are ordered by first occurrence (absent phrases, key -1, first) and are a permutation of the input, same length |
| GrammarChecker.SortIsStable | studio/src/components/inline-grammar-checker.tsx:63-67 | corrections with equal first occurrence keep their input order |
| GrammarChecker.Scan | studio/src/components/inline-grammar-checker.tsx:69-96 | for each correction in turn: when its phrase occurs at or after the cursor, the plain slice up to it and the annotated match, with the cursor moved past the match; otherwise nothing; at the end, the plain rest of the text |
| GrammarChecker.Advanced | studio/src/components/inline-grammar-checker.tsx:70-91 | the cursor never moves backwards and stays within the text |
| GrammarChecker.Render | studio/src/components/inline-grammar-checker.tsx:73-96 | the text the pieces display left to right: a plain piece shows its slice, an annotated one its original phrase |
| GrammarChecker.ScanReproducesText | studio/src/components/inline-grammar-checker.tsx:69-96 | reading the pieces left to right gives back exactly the text from the cursor on |
| GrammarChecker.ScanShape | studio/src/components/inline-grammar-checker.tsx:73-96 | the piece list has odd length, at most 2·(corrections)+1 pieces, and alternates plain slice / annotated match, ending with a plain slice |
| GrammarChecker.ScanAnnotatesGivenCorrections | studio/src/components/inline-grammar-checker.tsx:76-89 | every annotated piece carries one of the corrections given |
| GrammarChecker.SkippedCorrection | studio/src/components/inline-grammar-checker.tsx:70-71 | a correction whose phrase does not occur after the cursor adds nothing and leaves the cursor |
| GrammarChecker.PieceAtOffset | studio/src/components/inline-grammar-checker.tsx:73-96 | each piece shows the slice of the text at its own offset, so a highlighted match sits exactly where its phrase occurs |
| GrammarChecker.ScanSorted | studio/src/components/inline-grammar-checker.tsx:59-96 | the `forEach` loop with its `lastIndex` cursor builds exactly the scan of the sorted corrections |
| GrammarChecker.HighlightedText | studio/src/components/inline-grammar-checker.tsx:54-99 | no result or no corrections gives the text itself; otherwise pieces that render back to the text, odd in number, alternating, bounded by 2·corrections+1, annotating only given corrections |
| GrammarChecker.TehCatSat | studio/src/components/inline-grammar-checker.tsx:69-96 | "Teh cat sat." with a correction of "Teh" yields an empty slice, the match and " cat sat." |
| SavedPosts.LoadSavedIds | studio/src/hooks/use-saved-posts.ts:7-14 | the initial list is the parsed stored array, or empty without a window, without the key, for an empty value or when parsing fails |
| SavedPosts.Toggled | studio/src/hooks/use-saved-posts.ts:25-28 | the id is in the new list iff it was not before; every other id keeps its membership and its number of copies; an absent id is appended; a present one is removed (every copy) leaving a shorter order-preserving sub-sequence |
| SavedPosts.ToggledKeepsDistinct | studio/src/hooks/use-saved-posts.ts:26-28 | a list without repeats stays without repeats |
| SavedPosts.ToggleTwiceRestores | studio/src/hooks/use-saved-posts.ts:26-28 | toggling an absent id twice restores the exact list |
| SavedPosts.ToggleTwiceMovesToEnd | studio/src/hooks/use-saved-posts.ts:26-28 | toggling a present id twice moves it to the end |
| SavedPosts.SavedPostsHook.constructor | studio/src/hooks/use-saved-posts.ts:7-14 | the hook starts from what `LoadSavedIds` reads from storage |
| SavedPosts.SavedPostsHook.Persist | studio/src/hooks/use-saved-posts.ts:17-21 | with a window and a working store the array is written under `savedPostIds`; otherwise storage is unchanged |
| SavedPosts.SavedPostsHook.ToggleSavedPost | studio/src/hooks/use-saved-posts.ts:23-43 | `wasSaved` is the old membership; the state becomes the toggled list, which is also what is written; when the write fails or there is no window, storage is unchanged but the list still changes |
| SavedPosts.LoadAfterPersist | studio/src/hooks/use-saved-posts.ts:7-21 | what a successful persist wrote is what the next load reads |
| Auth.SaveAuthData | studio/src/lib/auth.ts:74-79 | both keys are overwritten, the user as JSON; without a window nothing changes |
| Auth.Logout | studio/src/lib/auth.ts:66-71 | both keys are removed; without a window nothing changes; the token reads null afterwards |
| Auth.GetAuthToken | studio/src/lib/auth.ts:81-86 | the stored token, null without a window |
| Auth.GetAuthUser | studio/src/lib/auth.ts:88-100 | the parsed user; null without a window, for a missing or empty value, and when parsing fails |
| Auth.IsAuthenticated | studio/src/lib/auth.ts:102-104 | authenticated exactly when a non-empty token is stored |
| Auth.IsAdmin | studio/src/lib/auth.ts:106-109 | admin exactly when the stored user passes the admin policy (the well-known address or the admin role) |
| Auth.SavedSessionReadsBack | studio/src/lib/auth.ts:74-109 | after saving, the getters return the saved token and user; authenticated iff the token is not empty; admin iff the user passes the admin policy |
| Auth.NoSessionAfterLogout | studio/src/lib/auth.ts:66-109 | with neither key stored, both getters are null and neither check holds |
| Auth.FailureMessage | studio/src/lib/auth.ts:31-61 | the body's `error`, else its `message`, else the default; a body that is not JSON yields its raw text |
| Auth.FailureMessageNotEmpty | studio/src/lib/auth.ts:35-56 | a parsed error body always gives a non-empty message |
| Auth.Login | studio/src/lib/auth.ts:24-43 | an accepted reply is returned as is; a refused one fails with the message chosen with default "Login failed" |
| Auth.Register | studio/src/lib/auth.ts:45-64 | the same with default "Registration failed" |
| Types.AdminPolicy | studio/src/lib/auth.ts:106-109 | admin for the well-known address whatever the role, for the admin role whatever the address, never without a user |
| AuthContext.AuthProvider.IsAuthenticated | studio/src/lib/auth-context.tsx:58 | authenticated exactly when the token is non-empty and a user is present |
| AuthContext.AuthProvider.IsAdmin | studio/src/lib/auth-context.tsx:59 | admin exactly when the current user has the well-known address or the admin role, whatever the token |
| AuthContext.AuthProvider.constructor | studio/src/lib/auth-context.tsx:21-23 | no token, no user, loading |
| AuthContext.AuthProvider.Init | studio/src/lib/auth-context.tsx:25-36 | the stored token and user are adopted only when both are there; loading ends either way; from a fresh provider the state then mirrors storage |
| AuthContext.AuthProvider.Login | studio/src/lib/auth-context.tsx:38-45 | with a non-empty token and a user, both are published, the visitor is authenticated, and with a window exactly the two session keys are written (storage untouched without one); otherwise state and storage are unchanged |
| AuthContext.AuthProvider.UpdateUser | studio/src/lib/auth-context.tsx:47-50 | the user is replaced and stored beside the current token (the text "null" when there is none); without a window storage is untouched |
| AuthContext.AuthProvider.Logout | studio/src/lib/auth-context.tsx:52-59 | both keys removed (storage untouched without a window), token and user cleared, neither authenticated nor admin afterwards |
| AuthContext.SessionAcrossReloads | studio/src/lib/auth-context.tsx:25-56 | a provider started after login finds the user; one started after logout finds nobody |
| PostCard.InitialInteractions | studio/src/components/post-card.tsx:35-39 | the counters start at the post's likes and dislikes with no vote |
| PostCard.AfterLike | studio/src/components/post-card.tsx:67-75 | a repeated like changes nothing; otherwise one more like, one dislike fewer if the vote was a dislike, vote becomes like |
| PostCard.AfterDislike | studio/src/components/post-card.tsx:90-98 | the mirror image on dislikes |
| PostCard.ClicksKeepBalance | studio/src/components/post-card.tsx:56-100 | a like or a dislike keeps the shown counters equal to the post's plus the one current vote |
| PostCard.ReplayBalanced | studio/src/components/post-card.tsx:56-100 | after any sequence of clicks the counters are the post's plus the final vote, and the vote is the last click's |
| PostCard.FreshCardBounds | studio/src/components/post-card.tsx:35-100 | from a fresh card the counters never drop below the post's and grow by at most one in total |
| PostCard.DisplayContent | studio/src/components/post-card.tsx:42-46 | content over 200 characters, not expanded, shows its first 200 characters and "..."; otherwise the full content |
| PostCard.DisplayContentBounds | studio/src/components/post-card.tsx:42-46 | the preview has at most 203 characters and the expanded view is the content |
| PostCard.SaveToggleFlips | studio/src/components/post-card.tsx:41-49 | a bookmark click flips `isSaved` |
| PostCard.PostCardState.HandleLike | studio/src/components/post-card.tsx:56-77 | signed out: sent to login, nothing changes; a repeated like is ignored; otherwise a request is sent and the counters become `AfterLike` |
| PostCard.PostCardState.HandleDislike | studio/src/components/post-card.tsx:79-100 | the mirror image |
| PostCard.PostCardState.Shown | studio/src/components/post-card.tsx:42-46 | the shown text is `DisplayContent` of the content: at most three characters longer than the content, and the content itself once expanded |
| CommentSection.CanDelete | studio/src/components/comment-section.tsx:144 | the delete button shows exactly when the visitor is authenticated, a user is present, and the user's email equals the comment author's email (a missing email equals a missing email) |
| CommentSection.CanDeleteOneAuthor | studio/src/components/comment-section.tsx:144 | signed out (or with no user) no delete button shows; signed in, the buttons show only on comments whose author email is the signed-in user's, so all deletable comments share one author email |
| CommentSection.WithoutComment | studio/src/components/comment-section.tsx:71 | removes every comment with that id and keeps each other comment with its number of copies, in order |
| CommentSection.WithoutCommentIdempotent | studio/src/components/comment-section.tsx:71 | deleting twice is deleting once |
| CommentSection.CommentSectionState.HandleAddComment | studio/src/components/comment-section.tsx:34-64 | signed out or without a user: login required, nothing changes; a blank draft sends nothing; otherwise the trimmed draft (non-empty, no outer spaces) is sent, and on success appended with the draft cleared, on failure nothing changes |
| CommentSection.CommentSectionState.HandleDeleteComment | studio/src/components/comment-section.tsx:66-71 | the list loses exactly that id's comments; the draft stays |
| PostFeed.Topics | studio/src/components/post-feed.tsx:29-31 | "All Topics" followed by the posts' topics with repeats dropped, in first-appearance order |
| PostFeed.TopicsContents | studio/src/components/post-feed.tsx:29-31 | the menu is "All Topics" then each topic of the feed once, and no other |
| PostFeed.TopicsInFirstAppearanceOrder | studio/src/components/post-feed.tsx:29-31 | topics appear in the order their first post appears |
| PostFeed.FilteredPosts | studio/src/components/post-feed.tsx:33-41 | an order-preserving sub-sequence of the feed holding exactly the posts of the selected topic (or any for "All Topics") whose lower-cased title or content contains the lower-cased term |
| PostFeed.UnfilteredFeedShowsAll | studio/src/components/post-feed.tsx:36-39 | an empty term with "All Topics" shows every post |
| PostFeed.SearchIgnoresCase | studio/src/components/post-feed.tsx:39 | a term and its lower-cased form select the same posts |
| PostFeed.PostFeedState.OnPostsLoaded | studio/src/components/post-feed.tsx:21-27 | the fetched posts become the feed and loading ends |
| PostFeed.PostFeedState.Shown | studio/src/components/post-feed.tsx:33-49 | nothing while loading; otherwise exactly `FilteredPosts` of the feed, the posts passing both filters |
| AdminUsersTab.UserIdOf | studio/src/app/admin/_components/admin-users-tab.tsx:61 | the id is the email with every non-alphanumeric character removed: each letter and digit keeps its number of occurrences, in order |
| AdminUsersTab.Aggregate | studio/src/app/admin/_components/admin-users-tab.tsx:57-78 | the map after the posts in order: a new author email gets a row from that post (id from the email, count 1, its date); a known one gets one more post and the later of the two dates |
| AdminUsersTab.AggregateKeys | studio/src/app/admin/_components/admin-users-tab.tsx:57-78 | one entry per distinct author email and no other |
| AdminUsersTab.AggregateEntry | studio/src/app/admin/_components/admin-users-tab.tsx:62-76 | an author's entry has the id from the email, name and avatar of their first post, and counts their posts |
| AdminUsersTab.AggregateCount | studio/src/app/admin/_components/admin-users-tab.tsx:62-76 | an author's post count is the number of posts with their email |
| AdminUsersTab.AggregateLatest | studio/src/app/admin/_components/admin-users-tab.tsx:65-75 | the last post date is one of the author's dates and no date of theirs compares greater |
| AdminUsersTab.UsersListCountsPosts | studio/src/app/admin/_components/admin-users-tab.tsx:60-92 | the post counts of the list add up to the number of posts |
| AdminUsersTab.CurrentUserRow | studio/src/app/admin/_components/admin-users-tab.tsx:82-89 | the signed-in user's row: 0 posts, "Never", name or "User", photo or the placeholder |
| AdminUsersTab.UsersList | studio/src/app/admin/_components/admin-users-tab.tsx:80-92 | the authors' entries in first-insertion order, then the signed-in user when their email is non-empty and not yet a key |
| AdminUsersTab.UsersListDistinctEmails | studio/src/app/admin/_components/admin-users-tab.tsx:58-81 | no email appears in two rows |
| AdminUsersTab.WithoutUser | studio/src/app/admin/_components/admin-users-tab.tsx:111 | removes every row with that id and keeps each other row with its number of copies, in order |
| AdminUsersTab.SharedIdDeletesBoth | studio/src/app/admin/_components/admin-users-tab.tsx:61-111 | two emails stripping to the same id ("a.b", "ab") are both deleted by one click |
| AdminUsersTab.GroupByAuthor | studio/src/app/admin/_components/admin-users-tab.tsx:58-78 | the `forEach` loop runs to the end exactly when every post has an author email, and then yields the aggregated map and its key insertion order |
| AdminUsersTab.AdminUsersTabState.FetchUsers | studio/src/app/admin/_components/admin-users-tab.tsx:49-106 | when both requests succeed and every post has an author email, the list is the users list of approved ++ pending; a failed request or a post without an author email (the loop throws) keeps the list; loading ends |
| AdminUsersTab.AdminUsersTabState.HandleDeleteUser | studio/src/app/admin/_components/admin-users-tab.tsx:108-118 | the rows with that id leave the list |
| AdminCommentsTab.RowOf | studio/src/app/admin/_components/admin-comments-tab.tsx:57-61 | a row is the comment's fields plus its post's title and id |
| AdminCommentsTab.Flatten | studio/src/app/admin/_components/admin-comments-tab.tsx:55-63 | the rows of all posts, post by post, each post contributing one row per comment in comment order |
| AdminCommentsTab.FlattenRowOrigin | studio/src/app/admin/_components/admin-comments-tab.tsx:55-63 | every row is a comment of one of the posts, labelled with that post |
| AdminCommentsTab.FlattenHasEveryComment | studio/src/app/admin/_components/admin-comments-tab.tsx:55-63 | every comment of every post has its row |
| AdminCommentsTab.CollectRows | studio/src/app/admin/_components/admin-comments-tab.tsx:53-63 | the nested loops push the rows post by post, comment by comment |
| AdminCommentsTab.WithoutComment | studio/src/app/admin/_components/admin-comments-tab.tsx:84 | removes every row with that comment id and keeps each other row with its number of copies, in order |
| AdminCommentsTab.AdminCommentsTabState.FetchComments | studio/src/app/admin/_components/admin-comments-tab.tsx:44-79 | on success the rows of approved ++ pending; on failure unchanged; loading ends |
| AdminCommentsTab.AdminCommentsTabState.HandleDeleteComment | studio/src/app/admin/_components/admin-comments-tab.tsx:81-91 | the rows with that id leave the list |
| AdminDashboard.RedirectTarget | studio/src/app/admin/page.tsx:34-42 | once auth has loaded: signed out goes to /login, a non-admin to /, an admin stays |
| AdminDashboard.ShouldFetchStats | studio/src/app/admin/page.tsx:68-70 | the statistics are requested exactly when the visitor is authenticated and an admin |
| AdminDashboard.RendersDashboard | studio/src/app/admin/page.tsx:74 | the dashboard renders (instead of the spinner) exactly when auth has loaded and the visitor is an authenticated admin |
| AdminDashboard.GatesAgree | studio/src/app/admin/page.tsx:34-80 | the dashboard renders exactly when auth has loaded and nobody is redirected, and then the statistics were requested |
| AdminDashboard.TotalComments | studio/src/app/admin/page.tsx:53 | the sum of the posts' comment counts, 0 for no posts |
| AdminDashboard.TotalCommentsAppend | studio/src/app/admin/page.tsx:53 | the comment sum over approved ++ pending is the sum of the two sums |
| AdminDashboard.TotalCommentsMatchesCommentsTab | studio/src/app/admin/page.tsx:53 | the dashboard's comment count equals the number of rows of the comments tab |
| AdminDashboard.ComputeStats | studio/src/app/admin/page.tsx:53-60 | total posts is the approved count, pending the pending count, users always 1, comments the sum over both lists |
| AdminDashboard.AdminDashboardState.RunStatsEffect | studio/src/app/admin/page.tsx:44-71 | without a signed-in admin nothing happens; otherwise loading ends and a successful fetch sets the statistics |
| CreatePost.Validate | studio/src/app/create/page.tsx:24-29 | each field errs, with its own message, exactly when shorter than 5 (title), 2 (topic), 50 (content) |
| CreatePost.ValidateIff | studio/src/app/create/page.tsx:24-29 | a form passes iff all three lengths are met, and a passing form has enough content for the assistant |
| CreatePost.ClassifyMedia | studio/src/app/create/page.tsx:92-101 | "image/" prefix gives an image, else "video/" a video, else unsupported |
| CreatePost.BuildPayload | studio/src/app/create/page.tsx:146-153 | title, content, topic copied; the image URL is the preview or the placeholder with the encoded title; the chosen file, if any, is attached |
| CreatePost.CreatePostState.HandleFileChange | studio/src/app/create/page.tsx:89-105 | a supported file becomes the media with a preview; an unsupported one clears preview and file type but leaves earlier media; no file changes nothing |
| CreatePost.CreatePostState.HandleAiAssist | studio/src/app/create/page.tsx:107-131 | the flow is asked iff the content has at least 20 characters; returned titles become the suggestions, otherwise none; generating ends |
| CreatePost.CreatePostState.HandleSelectSuggestion | studio/src/app/create/page.tsx:133-139 | while suggestions are open the choice becomes the title; suggestions close either way |
| CreatePost.CreatePostState.Submit | studio/src/app/create/page.tsx:141-170 | nothing is sent while a rule fails; otherwise the payload is sent and submitting ends |
| CreatePost.ChooseImageThenOther | studio/src/app/create/page.tsx:92-153 | an image followed by an unsupported file submits the image with the placeholder URL |
| RegisterPage.RegisterValidation | studio/src/app/register/page.tsx:32-40 | a mismatch is reported before length; no error iff the passwords match and have at least 6 characters |
| RegisterPage.RegisterErrorMessage | studio/src/app/register/page.tsx:55-59 | a message mentioning "already exists" or "409" becomes the duplicate-account message; an empty one the fallback; any other is shown as is |
| RegisterPage.DuplicateEmailShownVerbatim | studio/src/app/register/page.tsx:55-59 | the backend's "Email already registered" reaches the page and is shown verbatim, not as the duplicate-account message |
| RegisterPage.RegisterPageState.HandleSubmit | studio/src/app/register/page.tsx:27-63 | a failed check shows its message and sends nothing; an accepted reply goes home, and with a non-empty token the context holds exactly the returned token and user, written to the two session keys when there is a window; in every other case the context's session and storage are unchanged; the context's loading flag never changes; a refused reply shows the mapped message |
| ProfileEdit.InitialProfileForm | studio/src/app/profile/edit/page.tsx:43-51 | name and photo URL are the user's, or "" when missing or empty |
| ProfileEdit.PasswordChangeProblem | studio/src/app/profile/edit/page.tsx:156-172 | a mismatch is reported before length; no problem iff the new passwords match and have at least 6 characters |
| ProfileEdit.Authorization | studio/src/app/profile/edit/page.tsx:111-116 | "Bearer " and the stored token, or "Bearer null" without one |
| ProfileEdit.ProfileEditState.OnUserChange | studio/src/app/profile/edit/page.tsx:43-51 | a present user refills the form and the preview |
| ProfileEdit.ProfileEditState.HandleImageChange | studio/src/app/profile/edit/page.tsx:53-63 | a chosen file is kept and previewed |
| ProfileEdit.ProfileEditState.HandleProfileUpdate | studio/src/app/profile/edit/page.tsx:65-150 | no user, or a chosen image whose upload gives no URL: no request; otherwise the form's name and the uploaded or form photo URL are sent; success hands the returned user to the context, which writes it beside the token ("null" without one) when there is a window; failure shows the error or the default and leaves storage unchanged; the context's token and loading flag never change |
| ProfileEdit.ProfileEditState.HandlePasswordChange | studio/src/app/profile/edit/page.tsx:152-215 | without a user nothing happens; a failed check is reported and nothing is sent; otherwise the user's id, the bearer header and both passwords are sent, success clears all three fields and a failure shows the error or the default |
| PostService.NewPost | studio/backend/src/main/java/com/example/backend/service/PostService.java:22 | a new entity has zero counters and status "approved" before the controller sets its fields |
| PostService.ToCommentDto | studio/backend/src/main/java/com/example/backend/service/PostService.java:53-60 | the id as decimal text that parses back to the row id, no avatar, name, email and content copied |
| PostService.PostDtoOf | studio/backend/src/main/java/com/example/backend/service/PostService.java:62-76 | null counters become 0, author columns become the author object, other columns copied, comments mapped one by one |
| PostService.DtoIdsDistinct | studio/backend/src/main/java/com/example/backend/service/PostService.java:64 | distinct rows get distinct DTO ids |
| PostService.PostService.Create | studio/backend/src/main/java/com/example/backend/service/PostService.java:22 | a post without a title, likes or dislikes breaks a NOT NULL column and nothing is stored; otherwise it is saved under its own id when stored, else under a new id; only that row changes, comments untouched |
| PostService.PostService.Get | studio/backend/src/main/java/com/example/backend/service/PostService.java:24 | the stored post, or none exactly when the id is unknown |
| PostService.PostService.Search | studio/backend/src/main/java/com/example/backend/service/PostService.java:26 | exactly the stored posts whose title contains the term ignoring case, as a sub-sequence of all posts |
| PostService.PostService.ListAll | studio/backend/src/main/java/com/example/backend/service/PostService.java:28 | every stored post once, in ascending id order |
| PostService.PostService.CommentsFor | studio/backend/src/main/java/com/example/backend/service/PostService.java:74 | exactly the stored comments of that post, in id order |
| PostService.PostService.ToPostDto | studio/backend/src/main/java/com/example/backend/service/PostService.java:62-76 | the DTO carries exactly the post's stored comments, mapped |
| PostService.PostService.ToPostDtos | studio/backend/src/main/java/com/example/backend/web/PostController.java:38 | one DTO per row, in row order |
| PostService.PostService.AddCommentToPost | studio/backend/src/main/java/com/example/backend/service/PostService.java:30-37 | a new comment row under a fresh id, linked to the post, with exactly the given author fields and content |
| PostService.PostService.UpdateStatus | studio/backend/src/main/java/com/example/backend/service/PostService.java:39-46 | a stored post gets only its status changed and is returned; an unknown id changes nothing |
| PostService.PostService.Delete | studio/backend/src/main/java/com/example/backend/service/PostService.java:48-50 | the post row is removed; comments are untouched |
| PostService.NewPostHasNoComments | studio/backend/src/main/java/com/example/backend/service/PostService.java:74 | a post under a newly generated id has no comments |
| PostController.EffectiveStatus | studio/backend/src/main/java/com/example/backend/web/PostController.java:30-33 | a missing or empty filter means "approved" |
| PostController.CreatedEntity | studio/backend/src/main/java/com/example/backend/web/PostController.java:49-63 | status defaults to "pending"; without an author the name is "Anonymous"; other fields copied; counters 0 |
| PostController.UnmoderatedPostHidden | studio/backend/src/main/java/com/example/backend/web/PostController.java:30-63 | a post created without status is not in the public feed but is in the pending list |
| PostController.Bumped | studio/backend/src/main/java/com/example/backend/web/PostController.java:89-98 | null becomes 1; otherwise plus one as a 32-bit int, wrapping at the top |
| PostController.BumpedShowsOneMore | studio/backend/src/main/java/com/example/backend/web/PostController.java:89-98 | below the top, a vote shows one more than before (null shown as 0) |
| PostController.Listed | studio/backend/src/main/java/com/example/backend/web/PostController.java:27-36 | a post is listed exactly when its status equals the effective filter and, when a non-empty q is given, its title contains q ignoring case |
| PostController.PostController.ListedRows | studio/backend/src/main/java/com/example/backend/web/PostController.java:27-36 | exactly the stored posts with the effective status that, when `q` is non-empty, match the title search, in id order |
| PostController.PostController.List | studio/backend/src/main/java/com/example/backend/web/PostController.java:22-39 | the DTOs of the listed rows, each with the effective status |
| PostController.PostController.Create | studio/backend/src/main/java/com/example/backend/web/PostController.java:46-67 | without a title nothing is stored and the answer is 500 with no post; otherwise 201 with the DTO of the created entity stored under a new id, with no comments |
| PostController.PostController.UpdateStatus | studio/backend/src/main/java/com/example/backend/web/PostController.java:69-84 | a status other than "approved"/"pending" gives 400 before lookup; an unknown id 404; otherwise only that status changes and 200 carries the DTO |
| PostController.PostController.Like | studio/backend/src/main/java/com/example/backend/web/PostController.java:86-93 | 404 for an unknown id; otherwise only the likes counter is bumped and 200 carries the DTO |
| PostController.PostController.Dislike | studio/backend/src/main/java/com/example/backend/web/PostController.java:95-102 | the same on dislikes, likes untouched |
| PostController.PostController.AddComment | studio/backend/src/main/java/com/example/backend/web/PostController.java:104-112 | missing, null or empty content: 400 "content required", nothing stored; unknown post: 404; otherwise 201 and a new comment under a fresh id with that content, the body's name and email ("Anonymous" and "" when the key is absent) and its DTO |
| PostController.PostController.Delete | studio/backend/src/main/java/com/example/backend/web/PostController.java:114-125 | 404 with no change for an unknown id; otherwise the post is removed and 204 returned |
| Repository.Table.FindAll | studio/backend/src/main/java/com/example/backend/service/PostService.java:28 | every stored row once, in ascending id order |
| Repository.Table.FindById | studio/backend/src/main/java/com/example/backend/service/PostService.java:24 | the stored row, or none exactly when the id is unknown |
| Repository.Table.Save | studio/backend/src/main/java/com/example/backend/service/PostService.java:22 | a stored id is overwritten in place; anything else is inserted under the next, never used, id |
| Repository.Table.DeleteById | studio/backend/src/main/java/com/example/backend/service/PostService.java:48-50 | only that row is removed and ids are not reused |
| UserService.ProfileUpdated | studio/backend/src/main/java/com/example/backend/service/UserService.java:23-29 | the name changes only to a non-null, non-blank value; the photo to any non-null value; nothing else changes |
| UserService.ProfileUpdateIdempotent | studio/backend/src/main/java/com/example/backend/service/UserService.java:23-29 | applying the same update twice is applying it once |
| UserService.ProfilePageRequestEffect | studio/backend/src/main/java/com/example/backend/service/UserService.java:23-29 | the profile page's request always replaces the photo (even by ""), and a blank name keeps the stored one |
| UserService.PageCheckImpliesServerCheck | studio/backend/src/main/java/com/example/backend/service/UserService.java:44 | a new password the page accepts passes the server's length check |
| UserService.UserService.GetUserById | studio/backend/src/main/java/com/example/backend/service/UserService.java:53-56 | the stored user, or "User not found" |
| UserService.UserService.UpdateProfile | studio/backend/src/main/java/com/example/backend/service/UserService.java:19-32 | "User not found" for an unknown id; otherwise the updated user is saved and returned |
| UserService.UserService.ChangePassword | studio/backend/src/main/java/com/example/backend/service/UserService.java:34-51 | unknown user, then wrong current password, then a null or short new password fail in that order, changing nothing; success stores the hash of the new password |
| UserService.NewPasswordMatches | studio/backend/src/main/java/com/example/backend/service/UserService.java:49 | after a change the new password matches and, with an exact encoder, the old one no longer does |
| AuthService.BuildUserDto | studio/backend/src/main/java/com/example/backend/service/AuthService.java:78-96 | role "admin" iff some role name equals "ADMIN" ignoring case, "user" otherwise; the stored fields copied |
| AuthService.ClientAdminIffServerAdmin | studio/backend/src/main/java/com/example/backend/service/AuthService.java:78-96 | the client treats the logged-in account as admin iff it has an ADMIN role or the well-known address |
| AuthService.NewUser | studio/backend/src/main/java/com/example/backend/service/AuthService.java:46-56 | the request's email and name, the password's hash, and the USER role when it exists |
| AuthService.NewUserIsNotAdmin | studio/backend/src/main/java/com/example/backend/service/AuthService.java:46-87 | a freshly registered account gets the role "user"; the client still treats it as admin when its email is the well-known address (see ClientAdminIffServerAdmin) |
| AuthService.AuthService.FindByEmail | studio/backend/src/main/java/com/example/backend/service/AuthService.java:42-66 | a stored user with that email, or none exactly when no user has it |
| AuthService.AuthService.Register | studio/backend/src/main/java/com/example/backend/service/AuthService.java:41-63 | a taken email gives "Email already registered" and stores nothing; otherwise the new user is stored under a new id, emails stay unique, and the answer carries its token and DTO |
| AuthService.AuthService.Login | studio/backend/src/main/java/com/example/backend/service/AuthService.java:65-76 | an unknown email and a wrong password both give "Invalid credentials"; success only for a stored email whose hash matches, with that user's token and DTO |
| AuthService.RegisterThenLogin | studio/backend/src/main/java/com/example/backend/service/AuthService.java:41-76 | logging in right after registering with the same credentials succeeds with the same answer |
| AuthService.WrongPasswordRejected | studio/backend/src/main/java/com/example/backend/service/AuthService.java:69-71 | with an exact encoder any password other than the registered one is refused with "Invalid credentials" |

## Left out

- Rendering, toasts, routing side effects, `console` logging and server logging are not modelled. A navigation appears only as a returned flag where the source decides on it.
- The network is not modelled. Every server answer, AI-flow result, upload result, `FileReader` data URL and `URL.createObjectURL` value is a parameter of the handler that receives it.
- The AI flows themselves (`checkGrammar`, `generatePostAssist`) are inputs only.
- `startTransition`, `useMemo`, `useEffect` scheduling and the asynchrony of requests are not modelled. Each handler runs to completion in one step.
- The stub `deleteUser` and `deleteComment` of the admin tabs only wait on a timer, so they are not modelled. The local list update follows them.
- JSON parsing and serialisation form an abstract codec that round-trips what it writes. Malformed stored text is whatever the codec's `decode` refuses.
- Strings are sequences of characters. Lower-casing covers ASCII letters, not Unicode case mapping. `trim` uses a fixed set of JavaScript whitespace characters, and Java `trim()` uses characters up to U+0020. Lengths count characters, whereas JavaScript's `.length` (the form's minimum lengths, the 20-character gates, the content preview) counts UTF-16 code units, so a character outside the Basic Multilingual Plane counts as two there and as one in the model.
- The database's case-insensitive title search is modelled with the same ASCII lower-casing.
- `createdAt` values are opaque strings compared lexicographically. The backend's `Instant.now()` and `Instant.toString()` are a `now` text supplied by the caller.
- Token signing (HS256 with the configured key and expiry) is the `sign(id, email)` parameter. BCrypt salting is left to the abstract encoder.
- The User and Role entity classes are not part of this model. A user's roles are the set of their role names.
- The database foreign key from comments to posts is not modelled. `PostService.Delete` removes only the post row, exactly as the service code does.
- PostController.PostController.Delete: with the schema the entities declare (a non-null `post_id` join column and no cascade), deleting a post that has comments would be refused by the database, and the endpoint would answer 500 and change nothing. The model answers 204 and leaves the comments behind.
- Row order from `findAll` and the derived queries is taken to be ascending id order.
- The `GET /api/posts/{id}` endpoint is not modelled separately. `PostService.PostService.Get` models `get`.
- A post's comments are always a list, so the `comments?.length || 0` default for a missing list never applies.
- A `null` current password in a change-password request is not modelled: `currentPassword` is a plain string.
- The login page and its demo fallback are not part of this model. Only the `login` helper of `lib/auth.ts` is modelled.
- `AuthContext.AuthProvider.Login`: the `credentials` argument is ignored by the code and is not a parameter of the model. Nothing is committed unless both a token and a user are given.
- `Types.Author`: the author name and avatar URL are plain strings. Only the e-mail is optional, because the backend sends `null` for a post created without an author; a `null` name is not modelled.
- PostService.PostService.Create: when the database refuses a row, the model leaves open whether the generated-id counter advanced.
- GrammarChecker.ScanShape: states an odd count of at most 2·(corrections)+1, alternating between plain and annotated pieces, rather than "2·(located corrections)+1". With `Alternates`, the number of annotated pieces is (count−1)/2, one per located correction.
- Behaviour that looks unintended but is what the code does, and what the model does:
  - `updateUser` stores the text "null" as the token when there is none.
  - The login and register helpers read `res.text()` after a failed `res.json()`, and that yields an already-consumed body.
  - Choosing an unsupported file on the create page keeps the media chosen before.

=== FILE: admin_comments_tab.dfy ===
/** `AdminCommentsTab` (`app/admin/_components/admin-comments-tab.tsx`): every
    comment of the approved and pending posts, flattened into one table whose
    rows also carry the post's title and id; delete works on the local list. */
module AdminCommentsTab {
  import opened Common
  import opened Types

  /** `CommentRowData`: the comment's fields, then `postTitle` and `postId`. */
  datatype CommentRow = CommentRow(
    id: string, author: Author, content: string, createdAt: string, postTitle: string, postId: string)

  /** `{...comment, postTitle: post.title, postId: post.id}`. */
  function RowOf(c: Comment, post: Post): (r: CommentRow)
    ensures r.id == c.id && r.author == c.author && r.content == c.content && r.createdAt == c.createdAt
    ensures r.postTitle == post.title && r.postId == post.id
  {
    CommentRow(c.id, c.author, c.content, c.createdAt, post.title, post.id)
  }

  /** The rows one post contributes, in comment order. */
  function RowsOf(post: Post): (r: seq<CommentRow>)
    ensures |r| == |post.comments|
    ensures forall j :: 0 <= j < |r| ==> r[j] == RowOf(post.comments[j], post)
  {
    seq(|post.comments|, j requires 0 <= j < |post.comments| => RowOf(post.comments[j], post))
  }

  /** The rows of all posts, post by post. */
  function Flatten(posts: seq<Post>): seq<CommentRow> {
    if posts == [] then [] else Flatten(posts[..|posts| - 1]) + RowsOf(posts[|posts| - 1])
  }

  /** Every row is a comment of one of the posts, labelled with that post. */
  lemma {:induction false} FlattenRowOrigin(posts: seq<Post>, k: nat)
    requires k < |Flatten(posts)|
    ensures exists i, j :: 0 <= i < |posts| && 0 <= j < |posts[i].comments| &&
              Flatten(posts)[k] == RowOf(posts[i].comments[j], posts[i])
  {
    var n := |posts|;
    var init := posts[..n - 1];
    if k < |Flatten(init)| {
      FlattenRowOrigin(init, k);
      var i, j :| 0 <= i < |init| && 0 <= j < |init[i].comments| && Flatten(init)[k] == RowOf(init[i].comments[j], init[i]);
      assert posts[i] == init[i];
    } else {
      var j := k - |Flatten(init)|;
      assert Flatten(posts)[k] == RowsOf(posts[n - 1])[j];
    }
  }

  /** Every comment of every post has its row. */
  lemma {:induction false} FlattenHasEveryComment(posts: seq<Post>, i: nat, j: nat)
    requires i < |posts| && j < |posts[i].comments|
    ensures RowOf(posts[i].comments[j], posts[i]) in Flatten(posts)
  {
    var n := |posts|;
    var init := posts[..n - 1];
    if i < n - 1 {
      assert init[i] == posts[i];
      FlattenHasEveryComment(init, i, j);
    } else {
      assert RowsOf(posts[n - 1])[j] == RowOf(posts[i].comments[j], posts[i]);
      assert Flatten(posts)[|Flatten(init)| + j] == RowsOf(posts[n - 1])[j];
    }
  }

  /** The list after deleting `commentId`. */
  function WithoutComment(rows: seq<CommentRow>, commentId: string): (r: seq<CommentRow>)
    ensures forall c :: c in r <==> c in rows && c.id != commentId
    ensures forall c :: Count(r, c) == if c.id != commentId then Count(rows, c) else 0
    ensures IsSubseq(r, rows)
  {
    FilterIsSubseq(rows, (c: CommentRow) => c.id != commentId);
    Filter(rows, (c: CommentRow) => c.id != commentId)
  }

  /** The nested `forEach` that pushes one row per comment. */
  method CollectRows(posts: seq<Post>) returns (allComments: seq<CommentRow>)
    ensures allComments == Flatten(posts)
  {
    allComments := [];
    var i := 0;
    while i < |posts|
      invariant 0 <= i <= |posts|
      invariant allComments == Flatten(posts[..i])
    {
      var post := posts[i];
      var j := 0;
      while j < |post.comments|
        invariant 0 <= j <= |post.comments|
        invariant allComments == Flatten(posts[..i]) + RowsOf(post)[..j]
      {
        assert RowsOf(post)[..j + 1] == RowsOf(post)[..j] + [RowOf(post.comments[j], post)];
        allComments := allComments + [RowOf(post.comments[j], post)];
        j := j + 1;
      }
      assert RowsOf(post)[..j] == RowsOf(post);
      assert posts[..i + 1][..i] == posts[..i];
      i := i + 1;
    }
    assert posts[..i] == posts;
  }

  class AdminCommentsTabState {
    var comments: seq<CommentRow>
    var isLoading: bool

    constructor ()
      ensures comments == [] && isLoading
    {
      comments := [];
      isLoading := true;
    }

    /** The `fetchComments` effect; `fetched` is `None` when a request failed. */
    method FetchComments(fetched: Option<PostLists>)
      modifies this
      ensures !isLoading
      ensures fetched.None? ==> comments == old(comments)
      ensures fetched.Some? ==> comments == Flatten(fetched.value.approved + fetched.value.pending)
    {
      if fetched.Some? {
        comments := CollectRows(fetched.value.approved + fetched.value.pending);
      }
      isLoading := false;
    }

    /** `handleDeleteComment(commentId)`. */
    method HandleDeleteComment(commentId: string)
      modifies this
      ensures comments == WithoutComment(old(comments), commentId)
      ensures isLoading == old(isLoading)
    {
      comments := WithoutComment(comments, commentId);
    }
  }
}

=== FILE: admin_dashboard.dfy ===
/** `AdminDashboardPage` (`app/admin/page.tsx`): who is sent away, when the
    statistics are fetched, what they are, and when the dashboard is shown. */
module AdminDashboard {
  import opened Common
  import opened Types
  import AdminCommentsTab

  const LOGIN_PATH := "/login"
  const HOME_PATH := "/"

  datatype DashboardStats = DashboardStats(totalPosts: int, pendingPosts: int, totalUsers: int, totalComments: int)

  /** The auth-check effect: once auth has loaded, a visitor who is not
      signed in goes to the login page and a non-admin to the home page. */
  function RedirectTarget(authLoading: bool, isAuthenticated: bool, isAdmin: bool): (r: Option<string>)
    ensures authLoading ==> r == None
    ensures !authLoading && !isAuthenticated ==> r == Some(LOGIN_PATH)
    ensures !authLoading && isAuthenticated && !isAdmin ==> r == Some(HOME_PATH)
    ensures !authLoading && isAuthenticated && isAdmin ==> r == None
  {
    if authLoading then None
    else if !isAuthenticated then Some(LOGIN_PATH)
    else if !isAdmin then Some(HOME_PATH)
    else None
  }

  /** The statistics effect runs its fetch only for a signed-in admin. */
  predicate ShouldFetchStats(isAuthenticated: bool, isAdmin: bool) {
    isAuthenticated && isAdmin
  }

  /** The page renders the dashboard (rather than the spinner) only when auth
      has loaded and the visitor is a signed-in admin. */
  predicate RendersDashboard(authLoading: bool, isAuthenticated: bool, isAdmin: bool) {
    !(authLoading || !isAuthenticated || !isAdmin)
  }

  /** The three gates agree: the dashboard shows exactly when auth has loaded
      and nobody is redirected, and whenever it shows the statistics were
      requested. */
  lemma GatesAgree(authLoading: bool, isAuthenticated: bool, isAdmin: bool)
    ensures RendersDashboard(authLoading, isAuthenticated, isAdmin) <==>
              !authLoading && RedirectTarget(authLoading, isAuthenticated, isAdmin).None?
    ensures RendersDashboard(authLoading, isAuthenticated, isAdmin) ==> ShouldFetchStats(isAuthenticated, isAdmin)
  {
  }

  /** `reduce((sum, post) => sum + post.comments.length, 0)`. */
  function TotalComments(posts: seq<Post>): (r: nat)
    ensures posts == [] ==> r == 0
  {
    if posts == [] then 0 else TotalComments(posts[..|posts| - 1]) + |posts[|posts| - 1].comments|
  }

  /** The sum splits over the approved and the pending list. */
  lemma {:induction false} TotalCommentsAppend(a: seq<Post>, b: seq<Post>)
    ensures TotalComments(a + b) == TotalComments(a) + TotalComments(b)
    decreases |b|
  {
    if b == [] {
      assert a + b == a;
    } else {
      var n := |b|;
      assert (a + b)[..|a + b| - 1] == a + b[..n - 1];
      assert (a + b)[|a + b| - 1] == b[n - 1];
      TotalCommentsAppend(a, b[..n - 1]);
    }
  }

  /** The dashboard's comment count is the number of rows in the comments tab. */
  lemma {:induction false} TotalCommentsMatchesCommentsTab(posts: seq<Post>)
    ensures TotalComments(posts) == |AdminCommentsTab.Flatten(posts)|
  {
    if posts != [] {
      TotalCommentsMatchesCommentsTab(posts[..|posts| - 1]);
    }
  }

  /** The statistics set after a successful fetch; the user count is a fixed 1. */
  function ComputeStats(lists: PostLists): (r: DashboardStats)
    ensures r.totalPosts == |lists.approved| && r.pendingPosts == |lists.pending| && r.totalUsers == 1
    ensures r.totalComments == TotalComments(lists.approved) + TotalComments(lists.pending)
  {
    TotalCommentsAppend(lists.approved, lists.pending);
    DashboardStats(|lists.approved|, |lists.pending|, 1, TotalComments(lists.approved + lists.pending))
  }

  class AdminDashboardState {
    var stats: DashboardStats
    var isLoading: bool

    constructor ()
      ensures stats == DashboardStats(0, 0, 0, 0) && isLoading
    {
      stats := DashboardStats(0, 0, 0, 0);
      isLoading := true;
    }

    /** The statistics effect. Without a signed-in admin nothing happens (and
        loading never ends); otherwise the fetch runs, sets the statistics when
        it succeeds (`fetched` is `None` when it failed), and loading ends. */
    method RunStatsEffect(isAuthenticated: bool, isAdmin: bool, fetched: Option<PostLists>)
      modifies this
      ensures !ShouldFetchStats(isAuthenticated, isAdmin) ==> stats == old(stats) && isLoading == old(isLoading)
      ensures ShouldFetchStats(isAuthenticated, isAdmin) ==> !isLoading
      ensures ShouldFetchStats(isAuthenticated, isAdmin) && fetched.Some? ==> stats == ComputeStats(fetched.value)
      ensures fetched.None? ==> stats == old(stats)
    {
      if isAuthenticated && isAdmin {
        if fetched.Some? {
          stats := ComputeStats(fetched.value);
        }
        isLoading := false;
      }
    }
  }
}

=== FILE: admin_users_tab.dfy ===
/** `AdminUsersTab` (`app/admin/_components/admin-users-tab.tsx`): the user
    table of the admin dashboard, derived from the approved and pending posts.
    Authors are grouped by e-mail in a JavaScript `Map` (insertion order),
    counting posts and keeping the latest `createdAt` by string comparison;
    the signed-in user is added when absent; delete works on the local list. */
module AdminUsersTab {
  import opened Common
  import opened Types

  const DEFAULT_NAME := "User"
  const DEFAULT_AVATAR := "https://placehold.co/40x40"
  const NEVER := "Never"

  datatype UserData = UserData(
    id: string, name: string, email: string, avatarUrl: string, postCount: int, lastPostDate: string)

  /** `email.replace(/[^a-zA-Z0-9]/g, '')`. */
  function UserIdOf(email: string): (r: string)
    ensures forall c :: c in r <==> c in email && IsAsciiAlphanumeric(c)
    ensures forall c :: Count(r, c) == if IsAsciiAlphanumeric(c) then Count(email, c) else 0
    ensures IsSubseq(r, email)
  {
    FilterIsSubseq(email, IsAsciiAlphanumeric);
    Filter(email, IsAsciiAlphanumeric)
  }

  /** The key of the `Map`: the author's e-mail. The grouping only runs to
      the end when every post carries one (`EmailsPresent`); the default is
      never used as a key. */
  function AuthorEmail(p: Post): string { p.author.email.GetOr("") }

  /** Every post has an author e-mail; otherwise `.replace` on `null` throws
      inside the `forEach`. */
  predicate EmailsPresent(posts: seq<Post>) {
    forall i :: 0 <= i < |posts| ==> posts[i].author.email.Some?
  }

  function Emails(posts: seq<Post>): seq<string> { Map(posts, AuthorEmail) }

  /** One iteration of the `forEach`: a known author gets one more post and
      the later date; a new author gets a row from this post. */
  function Step(m: map<string, UserData>, post: Post): map<string, UserData> {
    var email := AuthorEmail(post);
    if email in m then
      var d := m[email];
      m[email := d.(postCount := d.postCount + 1,
                    lastPostDate := if LexLess(d.lastPostDate, post.createdAt) then post.createdAt else d.lastPostDate)]
    else
      m[email := UserData(UserIdOf(email), post.author.name, email, post.author.avatarUrl, 1, post.createdAt)]
  }

  /** `Step` on a post by a known author. */
  lemma StepKnown(m: map<string, UserData>, post: Post, d: UserData, lastPostDate: string)
    requires AuthorEmail(post) in m && d == m[AuthorEmail(post)]
    requires lastPostDate == if LexLess(d.lastPostDate, post.createdAt) then post.createdAt else d.lastPostDate
    ensures Step(m, post) == m[AuthorEmail(post) := d.(postCount := d.postCount + 1, lastPostDate := lastPostDate)]
  {
  }

  /** `Step` on a post by a new author. */
  lemma StepNew(m: map<string, UserData>, post: Post)
    requires AuthorEmail(post) !in m
    ensures Step(m, post) == m[AuthorEmail(post) := UserData(UserIdOf(AuthorEmail(post)), post.author.name,
                                 AuthorEmail(post), post.author.avatarUrl, 1, post.createdAt)]
  {
  }

  /** The `usersMap` after the `forEach` over `posts`. */
  function Aggregate(posts: seq<Post>): map<string, UserData> {
    if posts == [] then map[] else Step(Aggregate(posts[..|posts| - 1]), posts[|posts| - 1])
  }

  /** The map has one row per author e-mail and no other. */
  lemma {:induction false} AggregateKeys(posts: seq<Post>)
    ensures forall e :: e in Aggregate(posts) <==> e in Emails(posts)
  {
    if posts != [] {
      var init := posts[..|posts| - 1];
      var last := posts[|posts| - 1];
      assert posts == init + [last];
      MapSnoc(init, last, AuthorEmail);
      AggregateKeys(init);
    }
  }

  /** The row of an author: keyed and identified by the e-mail, named and
      pictured after the author's first post, and counting the author's posts. */
  lemma AggregateEntry(posts: seq<Post>, e: string)
    requires e in Emails(posts)
    ensures e in Aggregate(posts)
    ensures var d := Aggregate(posts)[e]; var k := FirstIndex(Emails(posts), e);
            d.id == UserIdOf(e) && d.email == e &&
            d.name == posts[k].author.name && d.avatarUrl == posts[k].author.avatarUrl &&
            d.postCount == Count(Emails(posts), e)
  {
    AggregateFirstRow(posts, e);
    AggregateCount(posts, e);
  }

  lemma {:induction false} AggregateCount(posts: seq<Post>, e: string)
    requires e in Emails(posts)
    ensures e in Aggregate(posts) && Aggregate(posts)[e].postCount == Count(Emails(posts), e)
  {
    AggregateLast(posts, e);
    var init := posts[..|posts| - 1];
    var last := posts[|posts| - 1];
    StepAt(Aggregate(init), last, e);
    CountSnoc(Emails(init), AuthorEmail(last), e);
    if e in Emails(init) {
      AggregateCount(init, e);
    } else {
      CountZeroIff(Emails(init), e);
    }
  }

  lemma {:induction false} AggregateFirstRow(posts: seq<Post>, e: string)
    requires e in Emails(posts)
    ensures e in Aggregate(posts)
    ensures var d := Aggregate(posts)[e]; var k := FirstIndex(Emails(posts), e);
            d.id == UserIdOf(e) && d.email == e &&
            d.name == posts[k].author.name && d.avatarUrl == posts[k].author.avatarUrl
  {
    AggregateLast(posts, e);
    var init := posts[..|posts| - 1];
    var last := posts[|posts| - 1];
    StepAt(Aggregate(init), last, e);
    var es := Emails(posts);
    assert es[..|es| - 1] == Emails(init);
    FirstIndexPrefix(es, Emails(init));
    if e in Emails(init) {
      AggregateFirstRow(init, e);
      assert posts[FirstIndex(Emails(init), e)] == init[FirstIndex(Emails(init), e)];
    }
  }

  /** The date of a row is the latest `createdAt` among the author's posts
      (no post of the author compares greater) and is one of them. */
  lemma AggregateLatest(posts: seq<Post>, e: string)
    requires e in Emails(posts)
    ensures e in Aggregate(posts)
    ensures forall i :: 0 <= i < |posts| && AuthorEmail(posts[i]) == e ==>
              !LexLess(Aggregate(posts)[e].lastPostDate, posts[i].createdAt)
    ensures exists i :: 0 <= i < |posts| && AuthorEmail(posts[i]) == e &&
              posts[i].createdAt == Aggregate(posts)[e].lastPostDate
  {
    LatestIsMaximal(posts, e);
    LatestIsADate(posts, e);
  }

  /** The split of `posts` into the earlier posts and the last one. */
  lemma AggregateLast(posts: seq<Post>, e: string)
    requires posts != [] && e in Emails(posts)
    ensures var init := posts[..|posts| - 1];
            posts == init + [posts[|posts| - 1]] &&
            Emails(posts) == Emails(init) + [AuthorEmail(posts[|posts| - 1])] &&
            Aggregate(posts) == Step(Aggregate(init), posts[|posts| - 1]) &&
            e in Aggregate(posts) &&
            (e in Emails(init) <==> e in Aggregate(init)) &&
            (e !in Emails(init) ==> AuthorEmail(posts[|posts| - 1]) == e &&
                                    forall i :: 0 <= i < |init| ==> AuthorEmail(posts[i]) != e)
  {
    var init := posts[..|posts| - 1];
    AggregateSplit(posts);
    AggregateKeys(posts);
    AggregateKeys(init);
    if e !in Emails(init) {
      forall i | 0 <= i < |init| ensures AuthorEmail(posts[i]) != e {
        assert Emails(init)[i] == AuthorEmail(posts[i]);
      }
    }
  }

  lemma AggregateSplit(posts: seq<Post>)
    requires posts != []
    ensures var init := posts[..|posts| - 1];
            posts == init + [posts[|posts| - 1]] &&
            Emails(posts) == Emails(init) + [AuthorEmail(posts[|posts| - 1])] &&
            Aggregate(posts) == Step(Aggregate(init), posts[|posts| - 1])
  {
    var init := posts[..|posts| - 1];
    var last := posts[|posts| - 1];
    assert posts == init + [last];
    MapSnoc(init, last, AuthorEmail);
  }

  lemma {:induction false} LatestIsMaximal(posts: seq<Post>, e: string)
    requires e in Emails(posts)
    ensures e in Aggregate(posts)
    ensures forall i :: 0 <= i < |posts| && AuthorEmail(posts[i]) == e ==>
              !LexLess(Aggregate(posts)[e].lastPostDate, posts[i].createdAt)
  {
    AggregateLast(posts, e);
    var n := |posts|;
    var init := posts[..n - 1];
    var last := posts[n - 1];
    StepAt(Aggregate(init), last, e);
    var date := Aggregate(posts)[e].lastPostDate;
    if e in Emails(init) {
      LatestIsMaximal(init, e);
      var was := Aggregate(init)[e].lastPostDate;
      forall i | 0 <= i < n && AuthorEmail(posts[i]) == e ensures !LexLess(date, posts[i].createdAt) {
        if i < n - 1 {
          assert init[i] == posts[i];
          assert !LexLess(was, posts[i].createdAt);
          if date != was {
            assert LexLess(was, date);
            if LexLess(date, posts[i].createdAt) {
              LexLessTransitive(was, date, posts[i].createdAt);
            }
          }
        } else {
          assert posts[i] == last;
          LexLessIrreflexive(date);
        }
      }
    } else {
      LexLessIrreflexive(date);
    }
  }

  lemma {:induction false} LatestIsADate(posts: seq<Post>, e: string)
    requires e in Emails(posts)
    ensures e in Aggregate(posts)
    ensures exists i :: 0 <= i < |posts| && AuthorEmail(posts[i]) == e &&
              posts[i].createdAt == Aggregate(posts)[e].lastPostDate
  {
    AggregateLast(posts, e);
    var n := |posts|;
    var init := posts[..n - 1];
    var last := posts[n - 1];
    StepAt(Aggregate(init), last, e);
    var date := Aggregate(posts)[e].lastPostDate;
    if e in Emails(init) && date == Aggregate(init)[e].lastPostDate {
      LatestIsADate(init, e);
      var j :| 0 <= j < |init| && AuthorEmail(init[j]) == e && init[j].createdAt == date;
      assert posts[j] == init[j];
    } else {
      assert posts[n - 1].createdAt == date;
    }
  }

  /** What one `Step` does to the row of `e`. */
  lemma StepAt(m: map<string, UserData>, post: Post, e: string)
    ensures e in m && AuthorEmail(post) == e ==>
              Step(m, post)[e] == m[e].(postCount := m[e].postCount + 1,
                                        lastPostDate := if LexLess(m[e].lastPostDate, post.createdAt)
                                                        then post.createdAt else m[e].lastPostDate)
    ensures e in m && AuthorEmail(post) != e ==> Step(m, post)[e] == m[e]
    ensures e !in m && AuthorEmail(post) == e ==>
              Step(m, post)[e] == UserData(UserIdOf(e), post.author.name, e, post.author.avatarUrl, 1, post.createdAt)
  {
  }

  /** One more post: the map takes one `Step`, and the key order grows
      exactly when the post's author is new. */
  lemma AggregateSnoc(posts: seq<Post>, i: nat)
    requires i < |posts|
    ensures Aggregate(posts[..i + 1]) == Step(Aggregate(posts[..i]), posts[i])
    ensures Dedup(Emails(posts[..i + 1])) ==
              if AuthorEmail(posts[i]) in Aggregate(posts[..i]) then Dedup(Emails(posts[..i]))
              else Dedup(Emails(posts[..i])) + [AuthorEmail(posts[i])]
  {
    assert posts[..i + 1] == posts[..i] + [posts[i]];
    assert posts[..i + 1][..i] == posts[..i];
    MapSnoc(posts[..i], posts[i], AuthorEmail);
    assert Emails(posts[..i + 1])[..i] == Emails(posts[..i]);
    AggregateKeys(posts[..i]);
  }

  /** The table before `Array.from(usersMap.values())`: the rows and the
      order in which their keys were first set. */
  datatype Table = Table(rows: map<string, UserData>, order: seq<string>)

  /** The row given to the signed-in user when none of the posts is theirs. */
  function CurrentUserRow(email: string, user: User): (r: UserData)
    ensures r.email == email && r.id == UserIdOf(email) && r.postCount == 0 && r.lastPostDate == NEVER
    ensures r.name == OrElse(user.displayName, DEFAULT_NAME) && r.avatarUrl == OrElse(user.photoURL, DEFAULT_AVATAR)
  {
    UserData(UserIdOf(email), OrElse(user.displayName, DEFAULT_NAME), email, OrElse(user.photoURL, DEFAULT_AVATAR), 0, NEVER)
  }

  /** The signed-in user is added when they have a non-empty e-mail that
      none of the posts carries. */
  predicate AddsCurrentUser(posts: seq<Post>, currentUser: Option<User>) {
    currentUser.Some? && Truthy(currentUser.value.email) && currentUser.value.email.value !in Emails(posts)
  }

  /** The rows in key order. */
  function Rows(t: Table): (r: seq<UserData>)
    requires forall e :: e in t.order ==> e in t.rows
    ensures |r| == |t.order|
    ensures forall k :: 0 <= k < |r| ==> r[k] == t.rows[t.order[k]]
  {
    seq(|t.order|, k requires 0 <= k < |t.order| => t.rows[t.order[k]])
  }

  /** The map and its key order once the signed-in user has been considered. */
  function FinalTable(posts: seq<Post>, currentUser: Option<User>): (t: Table)
    ensures forall e :: e in t.order ==> e in t.rows
  {
    AggregateKeys(posts);
    var t := Table(Aggregate(posts), Dedup(Emails(posts)));
    if AddsCurrentUser(posts, currentUser) then
      var email := currentUser.value.email.value;
      Table(t.rows[email := CurrentUserRow(email, currentUser.value)], t.order + [email])
    else t
  }

  /** `allUsers` after a successful fetch: one row per author in order of
      first appearance, then possibly the signed-in user. */
  function UsersList(posts: seq<Post>, currentUser: Option<User>): (r: seq<UserData>)
    ensures var authors := Dedup(Emails(posts));
            |r| == |authors| + (if AddsCurrentUser(posts, currentUser) then 1 else 0) &&
            (forall k :: 0 <= k < |authors| ==> authors[k] in Aggregate(posts) && r[k] == Aggregate(posts)[authors[k]]) &&
            (AddsCurrentUser(posts, currentUser) ==>
               r[|r| - 1] == CurrentUserRow(currentUser.value.email.value, currentUser.value))
  {
    AggregateKeys(posts);
    Rows(FinalTable(posts, currentUser))
  }

  /** No e-mail appears in two rows. */
  lemma UsersListDistinctEmails(posts: seq<Post>, currentUser: Option<User>, i: nat, j: nat)
    requires i < j < |UsersList(posts, currentUser)|
    ensures UsersList(posts, currentUser)[i].email != UsersList(posts, currentUser)[j].email
  {
    var authors := Dedup(Emails(posts));
    var r := UsersList(posts, currentUser);
    DedupDistinct(Emails(posts));
    AggregateEntry(posts, authors[i]);
    if j < |authors| {
      AggregateEntry(posts, authors[j]);
    } else {
      assert authors[i] in Emails(posts);
    }
  }

  /** The post counts of the rows of `order`, added up. */
  function CountsAt(m: map<string, UserData>, order: seq<string>): int
    requires forall e :: e in order ==> e in m
  {
    if order == [] then 0 else CountsAt(m, order[..|order| - 1]) + m[order[|order| - 1]].postCount
  }

  /** Changing the row of a key outside `order` leaves its total alone. */
  lemma {:induction false} CountsAtOther(m: map<string, UserData>, order: seq<string>, e: string, d: UserData)
    requires forall k :: k in order ==> k in m
    requires e !in order
    ensures CountsAt(m[e := d], order) == CountsAt(m, order)
  {
    if order != [] {
      var init := order[..|order| - 1];
      assert forall k :: k in init ==> k in order;
      CountsAtOther(m, init, e, d);
    }
  }

  /** Changing the row of a key listed once in `order` changes the total by
      the change of that row's count. */
  lemma {:induction false} CountsAtUpdate(m: map<string, UserData>, order: seq<string>, e: string, d: UserData)
    requires forall k :: k in order ==> k in m
    requires e in order && NoDuplicates(order)
    ensures CountsAt(m[e := d], order) == CountsAt(m, order) + d.postCount - m[e].postCount
  {
    var n := |order|;
    var init := order[..n - 1];
    assert forall k :: k in init ==> k in order;
    if order[n - 1] == e {
      assert e !in init by {
        forall i | 0 <= i < |init| ensures init[i] != e {
          assert init[i] == order[i];
        }
      }
      CountsAtOther(m, init, e, d);
    } else {
      assert e in init by {
        var i :| 0 <= i < n && order[i] == e;
        assert init[i] == e;
      }
      CountsAtUpdate(m, init, e, d);
    }
  }

  /** One `Step` adds one to the total of the rows, whether the author is
      known or new. */
  lemma CountsStep(m: map<string, UserData>, order: seq<string>, post: Post)
    requires forall k :: k in order ==> k in m
    requires NoDuplicates(order)
    requires AuthorEmail(post) in m <==> AuthorEmail(post) in order
    ensures var e := AuthorEmail(post); var order' := if e in m then order else order + [e];
            (forall k :: k in order' ==> k in Step(m, post)) &&
            CountsAt(Step(m, post), order') == CountsAt(m, order) + 1
  {
    var e := AuthorEmail(post);
    var m' := Step(m, post);
    assert m' == m[e := m'[e]];
    if e in m {
      CountsAtUpdate(m, order, e, m'[e]);
    } else {
      CountsAtOther(m, order, e, m'[e]);
      assert (order + [e])[..|order|] == order;
    }
  }

  /** The rows grouped from the posts count every post exactly once. */
  lemma {:induction false} AggregateCountsSum(posts: seq<Post>)
    ensures forall e :: e in Dedup(Emails(posts)) ==> e in Aggregate(posts)
    ensures CountsAt(Aggregate(posts), Dedup(Emails(posts))) == |posts|
  {
    AggregateKeys(posts);
    if posts != [] {
      var n := |posts|;
      var init := posts[..n - 1];
      AggregateSnoc(posts, n - 1);
      assert posts[..n] == posts;
      AggregateCountsSum(init);
      AggregateKeys(init);
      DedupDistinct(Emails(init));
      CountsStep(Aggregate(init), Dedup(Emails(init)), posts[n - 1]);
    }
  }

  /** The post counts of a list of rows, added up. */
  function TotalPosts(users: seq<UserData>): int {
    if users == [] then 0 else TotalPosts(users[..|users| - 1]) + users[|users| - 1].postCount
  }

  lemma {:induction false} TotalPostsRows(t: Table)
    requires forall e :: e in t.order ==> e in t.rows
    ensures TotalPosts(Rows(t)) == CountsAt(t.rows, t.order)
    decreases |t.order|
  {
    if t.order != [] {
      var init := Table(t.rows, t.order[..|t.order| - 1]);
      assert forall e :: e in init.order ==> e in t.order;
      TotalPostsRows(init);
      assert Rows(t)[..|Rows(t)| - 1] == Rows(init);
    }
  }

  /** Every fetched post is counted once: the post counts of the user list
      add up to the number of posts (the signed-in user's added row counts 0). */
  lemma UsersListCountsPosts(posts: seq<Post>, currentUser: Option<User>)
    ensures TotalPosts(UsersList(posts, currentUser)) == |posts|
  {
    AggregateCountsSum(posts);
    var t := FinalTable(posts, currentUser);
    TotalPostsRows(t);
    if AddsCurrentUser(posts, currentUser) {
      var email := currentUser.value.email.value;
      var order := Dedup(Emails(posts));
      CountsAtOther(Aggregate(posts), order, email, CurrentUserRow(email, currentUser.value));
      assert t.order[..|t.order| - 1] == order;
    }
  }

  /** The list after deleting the rows whose id is `userId`. */
  function WithoutUser(users: seq<UserData>, userId: string): (r: seq<UserData>)
    ensures forall u :: u in r <==> u in users && u.id != userId
    ensures forall u :: Count(r, u) == if u.id != userId then Count(users, u) else 0
    ensures IsSubseq(r, users)
  {
    FilterIsSubseq(users, (u: UserData) => u.id != userId);
    Filter(users, (u: UserData) => u.id != userId)
  }

  /** "a.b" and "ab" strip to the same id. */
  lemma DottedIdDropsDot()
    ensures UserIdOf("a.b") == "ab" && UserIdOf("ab") == "ab"
  {
    assert Filter("b", IsAsciiAlphanumeric) == "b";
    assert Filter(".b", IsAsciiAlphanumeric) == "b";
  }

  /** Ids are e-mails stripped of punctuation, so two authors can share one:
      deleting one of them removes both rows. */
  lemma SharedIdDeletesBoth(a: UserData, b: UserData)
    requires a.email == "a.b" && b.email == "ab"
    requires a.id == UserIdOf(a.email) && b.id == UserIdOf(b.email)
    ensures a.email != b.email && a.id == b.id
    ensures WithoutUser([a, b], a.id) == []
  {
    DottedIdDropsDot();
    assert a.id == "ab" == b.id;
    var keep := (u: UserData) => u.id != a.id;
    assert [a, b][1..] == [b] && [b][1..] == [];
    assert Filter([a, b], keep) == Filter([b], keep) == Filter([], keep);
  }

  /** The `posts.forEach` loop over a JavaScript `Map`: the map, and its
      keys in insertion order. */
  method GroupByAuthor(posts: seq<Post>)
    returns (completed: bool, usersMap: map<string, UserData>, order: seq<string>)
    ensures completed <==> EmailsPresent(posts)
    ensures completed ==> usersMap == Aggregate(posts) && order == Dedup(Emails(posts))
  {
    usersMap, order := map[], [];
    var i := 0;
    while i < |posts|
      invariant 0 <= i <= |posts|
      invariant EmailsPresent(posts[..i])
      invariant usersMap == Aggregate(posts[..i])
      invariant order == Dedup(Emails(posts[..i]))
    {
      var post := posts[i];
      if post.author.email.None? {
        EmailMissing(posts, i);
        return false, usersMap, order;
      }
      var email := post.author.email.value;
      assert email == AuthorEmail(post);
      ghost var (m, o) := (usersMap, order);
      if email in usersMap {
        var userData := usersMap[email];
        var lastPostDate := if LexLess(userData.lastPostDate, post.createdAt) then post.createdAt else userData.lastPostDate;
        StepKnown(usersMap, post, userData, lastPostDate);
        usersMap := usersMap[email := userData.(postCount := userData.postCount + 1, lastPostDate := lastPostDate)];
      } else {
        StepNew(usersMap, post);
        usersMap := usersMap[email := UserData(UserIdOf(email), post.author.name, email, post.author.avatarUrl, 1, post.createdAt)];
        order := order + [email];
      }
      GroupStep(posts, i, m, o, usersMap, order);
      EmailsPresentStep(posts, i);
      i := i + 1;
    }
    assert posts[..i] == posts;
    completed := true;
  }

  /** A post without an author e-mail makes the whole list fail. */
  lemma EmailMissing(posts: seq<Post>, i: nat)
    requires i < |posts| && posts[i].author.email.None?
    ensures !EmailsPresent(posts)
  {
  }

  /** A post with an author e-mail extends the prefix that has them. */
  lemma EmailsPresentStep(posts: seq<Post>, i: nat)
    requires i < |posts| && EmailsPresent(posts[..i]) && posts[i].author.email.Some?
    ensures EmailsPresent(posts[..i + 1])
  {
    assert forall k | 0 <= k < i + 1 :: posts[..i + 1][k] == posts[k];
  }

  /** One iteration keeps the loop's invariant: the map and its key order
      are those of the posts seen so far. */
  lemma GroupStep(posts: seq<Post>, i: nat, m: map<string, UserData>, order: seq<string>,
                  m': map<string, UserData>, order': seq<string>)
    requires i < |posts| && m == Aggregate(posts[..i]) && order == Dedup(Emails(posts[..i]))
    requires m' == Step(m, posts[i])
    requires order' == if AuthorEmail(posts[i]) in m then order else order + [AuthorEmail(posts[i])]
    ensures m' == Aggregate(posts[..i + 1]) && order' == Dedup(Emails(posts[..i + 1]))
  {
    AggregateSnoc(posts, i);
  }

  class AdminUsersTabState {
    var allUsers: seq<UserData>
    var isLoading: bool

    constructor ()
      ensures allUsers == [] && isLoading
    {
      allUsers := [];
      isLoading := true;
    }

    /** The `fetchUsers` effect; `fetched` is `None` when a request failed.
        A failed request, or a post without an author e-mail (the `forEach`
        throws), ends in the error toast with the list as it was. */
    method FetchUsers(fetched: Option<PostLists>, currentUser: Option<User>)
      modifies this
      ensures !isLoading
      ensures fetched.None? ==> allUsers == old(allUsers)
      ensures fetched.Some? && !EmailsPresent(fetched.value.approved + fetched.value.pending) ==>
                allUsers == old(allUsers)
      ensures fetched.Some? && EmailsPresent(fetched.value.approved + fetched.value.pending) ==>
                allUsers == UsersList(fetched.value.approved + fetched.value.pending, currentUser)
    {
      if fetched.Some? {
        var posts := fetched.value.approved + fetched.value.pending;
        var completed, usersMap, order := GroupByAuthor(posts);
        if !completed {
          isLoading := false;
          return;
        }
        AggregateKeys(posts);
        if currentUser.Some? && Truthy(currentUser.value.email) && currentUser.value.email.value !in usersMap {
          var email := currentUser.value.email.value;
          usersMap := usersMap[email := CurrentUserRow(email, currentUser.value)];
          order := order + [email];
        }
        assert Table(usersMap, order) == FinalTable(posts, currentUser);
        allUsers := Rows(Table(usersMap, order));
      }
      isLoading := false;
    }

    /** `handleDeleteUser(userId)`: every row with that id leaves the list. */
    method HandleDeleteUser(userId: string)
      modifies this
      ensures allUsers == WithoutUser(old(allUsers), userId)
      ensures isLoading == old(isLoading)
    {
      allUsers := WithoutUser(allUsers, userId);
    }
  }
}

=== FILE: auth.dfy ===
/** The session helpers of `lib/auth.ts`: the token and the serialised user kept
    under two `localStorage` keys, the derived checks, and the choice of the
    error message when login or registration is refused. The HTTP round trip is
    an input (`AuthReply`). */
module Auth {
  import opened Common
  import opened Types
  import opened Storage

  const TOKEN_KEY := "auth_token"
  const USER_KEY := "auth_user"
  const LOGIN_FAILED := "Login failed"
  const REGISTRATION_FAILED := "Registration failed"

  /** `saveAuthData(token, user)`: overwrites both keys; without a window it does nothing. */
  method SaveAuthData(store: LocalStorage, codec: Codec<User>, token: string, user: User)
    modifies store
    ensures store.hasWindow ==> store.items == old(store.items)[TOKEN_KEY := token][USER_KEY := codec.encode(user)]
    ensures !store.hasWindow ==> store.items == old(store.items)
  {
    if store.hasWindow {
      store.SetItem(TOKEN_KEY, token);
      store.SetItem(USER_KEY, codec.encode(user));
    }
  }

  /** `logout()`: removes both keys; without a window it does nothing. */
  method Logout(store: LocalStorage)
    modifies store
    ensures store.hasWindow ==> store.items == old(store.items) - {TOKEN_KEY, USER_KEY}
    ensures !store.hasWindow ==> store.items == old(store.items)
    ensures GetAuthToken(store) == None
  {
    if store.hasWindow {
      store.RemoveItem(TOKEN_KEY);
      store.RemoveItem(USER_KEY);
    }
  }

  /** `getAuthToken()`. */
  function GetAuthToken(store: LocalStorage): (r: Option<string>)
    reads store
    ensures !store.hasWindow ==> r == None
    ensures store.hasWindow ==> r == store.GetItem(TOKEN_KEY)
  {
    if store.hasWindow then store.GetItem(TOKEN_KEY) else None
  }

  /** `getAuthUser()`: null when there is no window, when the key is absent or
      empty, and when parsing throws. */
  function GetAuthUser(store: LocalStorage, codec: Codec<User>): (r: Option<User>)
    reads store
    ensures !store.hasWindow || USER_KEY !in store.items || store.items[USER_KEY] == "" ==> r == None
    ensures store.hasWindow && USER_KEY in store.items && store.items[USER_KEY] != "" ==>
              r == codec.decode(store.items[USER_KEY])
  {
    if store.hasWindow then
      var userStr := store.GetItem(USER_KEY);
      if userStr.Some? && userStr.value != "" then codec.decode(userStr.value) else None
    else None
  }

  /** `isAuthenticated()`: a non-empty token is stored. */
  predicate IsAuthenticated(store: LocalStorage)
    reads store
  {
    Truthy(GetAuthToken(store))
  }

  /** `isAdmin()`: the stored user passes the admin policy. */
  predicate IsAdmin(store: LocalStorage, codec: Codec<User>)
    reads store
  {
    IsAdminUser(GetAuthUser(store, codec))
  }

  /** After `saveAuthData(t, u)` the getters give back `t` and `u`. */
  lemma SavedSessionReadsBack(store: LocalStorage, codec: Codec<User>, t: string, u: User)
    requires RoundTrips(codec) && store.hasWindow
    requires TOKEN_KEY in store.items && store.items[TOKEN_KEY] == t
    requires USER_KEY in store.items && store.items[USER_KEY] == codec.encode(u)
    ensures GetAuthToken(store) == Some(t)
    ensures GetAuthUser(store, codec) == Some(u)
    ensures IsAuthenticated(store) <==> t != ""
    ensures IsAdmin(store, codec) <==> IsAdminUser(Some(u))
  {
  }

  /** With neither key stored (after `logout()`, or without a window) nobody is
      signed in and nobody is admin. */
  lemma NoSessionAfterLogout(store: LocalStorage, codec: Codec<User>)
    requires !store.hasWindow || (TOKEN_KEY !in store.items && USER_KEY !in store.items)
    ensures GetAuthToken(store) == None && GetAuthUser(store, codec) == None
    ensures !IsAuthenticated(store) && !IsAdmin(store, codec)
  {
  }

  /** The body of a refused login or registration. `Json` is a parsed body with
      its optional `error` and `message` fields; `NonJson` is a body that did
      not parse, with the text `res.text()` then yields (`None` when that
      rejects). */
  datatype ErrorBody = Json(error: Option<string>, message: Option<string>) | NonJson(text: Option<string>)

  /** `errorData.error || errorData.message || fallback`, or the raw text for a
      body that is not JSON. */
  function FailureMessage(body: ErrorBody, fallback: string): (r: string)
    ensures body.Json? && Truthy(body.error) ==> r == body.error.value
    ensures body.Json? && !Truthy(body.error) && Truthy(body.message) ==> r == body.message.value
    ensures body.Json? && !Truthy(body.error) && !Truthy(body.message) ==> r == fallback
    ensures body.NonJson? ==> r == body.text.GetOr(fallback)
  {
    match body
    case Json(error, message) => OrElse(error, OrElse(message, fallback))
    case NonJson(text) => text.GetOr(fallback)
  }

  /** A JSON body never yields an empty message when the fallback is not empty. */
  lemma FailureMessageNotEmpty(body: ErrorBody, fallback: string)
    requires body.Json? && fallback != ""
    ensures FailureMessage(body, fallback) != ""
  {
  }

  /** What the server answered to a login or registration request. */
  datatype AuthReply = Accepted(response: AuthResponse) | Refused(body: ErrorBody)

  /** `login(credentials)`: the response, or the error it throws. */
  function Login(reply: AuthReply): (r: Result<AuthResponse>)
    ensures reply.Accepted? <==> r.Ok?
    ensures reply.Accepted? ==> r.value == reply.response
    ensures reply.Refused? ==> r.message == FailureMessage(reply.body, LOGIN_FAILED)
  {
    match reply
    case Accepted(resp) => Ok(resp)
    case Refused(body) => Err(FailureMessage(body, LOGIN_FAILED))
  }

  /** `register(data)`: the response, or the error it throws. */
  function Register(reply: AuthReply): (r: Result<AuthResponse>)
    ensures reply.Accepted? <==> r.Ok?
    ensures reply.Accepted? ==> r.value == reply.response
    ensures reply.Refused? ==> r.message == FailureMessage(reply.body, REGISTRATION_FAILED)
  {
    match reply
    case Accepted(resp) => Ok(resp)
    case Refused(body) => Err(FailureMessage(body, REGISTRATION_FAILED))
  }
}

=== FILE: auth_context.dfy ===
/** `AuthProvider` (`lib/auth-context.tsx`): the reactive session state (token,
    user, loading flag) mirrored in `localStorage` through the helpers of
    `lib/auth.ts`, and the derived `isAuthenticated` / `isAdmin` flags. */
module AuthContext {
  import opened Common
  import opened Types
  import opened Storage
  import Auth

  class AuthProvider {
    const store: LocalStorage
    const codec: Codec<User>
    var user: Option<User>
    var token: Option<string>
    var isLoading: bool

    /** The initial state, before the start-up effect has run. */
    constructor (store: LocalStorage, codec: Codec<User>)
      ensures this.store == store && this.codec == codec
      ensures user == None && token == None && isLoading
    {
      this.store := store;
      this.codec := codec;
      user := None;
      token := None;
      isLoading := true;
    }

    /** `isAuthenticated = !!token && !!user`. */
    predicate IsAuthenticated()
      reads this
    {
      Truthy(token) && user.Some?
    }

    /** `isAdmin`: the admin policy applied to the current user, whatever the token. */
    predicate IsAdmin()
      reads this
    {
      IsAdminUser(user)
    }

    /** The state and the storage agree: a published session is the stored one. */
    ghost predicate Mirrored()
      reads this, store
    {
      store.hasWindow && token.Some? && user.Some? ==>
        Auth.GetAuthToken(store) == token && Auth.GetAuthUser(store, codec) == user
    }

    /** The start-up effect: the stored token and user are adopted only when
        both are there; loading ends either way. */
    method Init()
      modifies this
      ensures var t := Auth.GetAuthToken(store); var u := Auth.GetAuthUser(store, codec);
              if Truthy(t) && u.Some? then token == t && user == u
              else token == old(token) && user == old(user)
      ensures !isLoading
      ensures old(token) == None && old(user) == None ==> Mirrored()
    {
      var storedToken := Auth.GetAuthToken(store);
      var storedUser := Auth.GetAuthUser(store, codec);
      if Truthy(storedToken) && storedUser.Some? {
        token := storedToken;
        user := storedUser;
      }
      isLoading := false;
    }

    /** `login(credentials?, newToken?, newUser?)`: commits only when both a
        non-empty token and a user are given; otherwise nothing changes. */
    method Login(newToken: Option<string>, newUser: Option<User>)
      requires RoundTrips(codec)
      modifies this, store
      ensures Truthy(newToken) && newUser.Some? ==>
                token == newToken && user == newUser && IsAuthenticated() && Mirrored()
      ensures Truthy(newToken) && newUser.Some? && store.hasWindow ==>
                store.items == old(store.items)[Auth.TOKEN_KEY := newToken.value]
                                               [Auth.USER_KEY := codec.encode(newUser.value)]
      ensures Truthy(newToken) && newUser.Some? && !store.hasWindow ==> store.items == old(store.items)
      ensures !(Truthy(newToken) && newUser.Some?) ==>
                token == old(token) && user == old(user) && store.items == old(store.items)
      ensures isLoading == old(isLoading)
    {
      if Truthy(newToken) && newUser.Some? {
        Auth.SaveAuthData(store, codec, newToken.value, newUser.value);
        token := newToken;
        user := newUser;
      }
    }

    /** `updateUser(u)`: the user is replaced and stored with the current token.
        `token!` does not check anything at run time: with no token the stored
        token becomes the string "null". */
    method UpdateUser(updatedUser: User)
      requires RoundTrips(codec)
      modifies this, store
      ensures user == Some(updatedUser) && token == old(token) && isLoading == old(isLoading)
      ensures store.hasWindow ==>
                store.items == old(store.items)[Auth.TOKEN_KEY := old(token).GetOr("null")]
                                               [Auth.USER_KEY := codec.encode(updatedUser)]
      ensures !store.hasWindow ==> store.items == old(store.items)
      ensures old(token).Some? ==> Mirrored()
    {
      Auth.SaveAuthData(store, codec, token.GetOr("null"), updatedUser);
      user := Some(updatedUser);
    }

    /** `logout()`: both keys removed, both fields cleared. */
    method Logout()
      modifies this, store
      ensures token == None && user == None && isLoading == old(isLoading)
      ensures store.hasWindow ==> store.items == old(store.items) - {Auth.TOKEN_KEY, Auth.USER_KEY}
      ensures !store.hasWindow ==> store.items == old(store.items)
      ensures !IsAuthenticated() && !IsAdmin()
      ensures Auth.GetAuthToken(store) == None && Auth.GetAuthUser(store, codec) == None
    {
      Auth.Logout(store);
      token := None;
      user := None;
    }
  }

  /** A session outlives a page reload until the user logs out: a provider
      started after `login` finds the user in storage, one started after
      `logout` finds nobody. */
  method SessionAcrossReloads(store: LocalStorage, codec: Codec<User>, t: string, u: User)
    returns (afterLogin: Option<User>, afterLogout: Option<User>)
    requires RoundTrips(codec) && t != "" && store.hasWindow
    modifies store
    ensures afterLogin == Some(u) && afterLogout == None
  {
    var ctx := new AuthProvider(store, codec);
    ctx.Init();
    ctx.Login(Some(t), Some(u));
    var reloaded := new AuthProvider(store, codec);
    reloaded.Init();
    afterLogin := reloaded.user;
    ctx.Logout();
    var reloadedAgain := new AuthProvider(store, codec);
    reloadedAgain.Init();
    afterLogout := reloadedAgain.user;
  }
}

=== FILE: auth_service.dfy ===
/** `AuthService` (`service/AuthService.java`): registering an account,
    logging in and the user object sent back with the token. The JWT is
    made by `sign(id, email)`, a parameter standing for the signing with
    the configured key and the current time; hashing is the abstract
    encoder of `UserService`. */
module AuthService {
  import opened Common
  import opened Repository
  import opened UserService
  import Types

  const EMAIL_TAKEN := "Email already registered"
  const INVALID_CREDENTIALS := "Invalid credentials"
  const USER_ROLE := "USER"
  const ADMIN_ROLE := "ADMIN"

  datatype RegisterRequest = RegisterRequest(fullName: Option<string>, email: string, password: string)
  datatype LoginRequest = LoginRequest(email: string, password: string)

  /** `AuthResponse.UserDto`. */
  datatype UserDto = UserDto(id: nat, email: string, displayName: Option<string>, photoURL: Option<string>, role: string)
  datatype AuthResponse = AuthResponse(token: string, user: UserDto)

  /** `String.equalsIgnoreCase`, for ASCII letters. */
  predicate EqualsIgnoreCase(a: string, b: string) {
    Lower(a) == Lower(b)
  }

  /** Some role is called "ADMIN" in any letter case. */
  predicate HasAdminRole(roles: set<string>) {
    exists r | r in roles :: EqualsIgnoreCase(r, ADMIN_ROLE)
  }

  /** `buildUserDto`: the stored fields unchanged, and the role "admin" when
      some role name equals "ADMIN" ignoring case, "user" otherwise (also
      for no roles). */
  function BuildUserDto(id: nat, u: UserEntity): (r: UserDto)
    ensures r.role == "admin" <==> HasAdminRole(u.roles)
    ensures r.role == "user" <==> !HasAdminRole(u.roles)
    ensures r.id == id && r.email == u.email && r.displayName == u.fullName && r.photoURL == u.photoUrl
  {
    UserDto(id, u.email, u.fullName, u.photoUrl, if HasAdminRole(u.roles) then "admin" else "user")
  }

  /** The user object as the client reads it from the JSON. */
  function ToClientUser(dto: UserDto): (r: Types.User)
    ensures r.role == Some(Types.AdminRole) <==> dto.role == "admin"
    ensures r.email == Some(dto.email) && r.id == Some(dto.id as int)
  {
    Types.User(Some(dto.id), Some(dto.email), dto.displayName, dto.photoURL,
               if dto.role == "admin" then Some(Types.AdminRole)
               else if dto.role == "user" then Some(Types.UserRole) else None)
  }

  /** The client treats a logged-in account as an administrator exactly when
      the server gave it an ADMIN role or it has the well-known address. */
  lemma ClientAdminIffServerAdmin(id: nat, u: UserEntity)
    ensures Types.IsAdminUser(Some(ToClientUser(BuildUserDto(id, u)))) <==>
            HasAdminRole(u.roles) || u.email == Types.ADMIN_EMAIL
  {
  }

  /** Some stored user has this email. */
  predicate EmailTaken(rows: map<nat, UserEntity>, email: string) {
    exists id | id in rows :: rows[id].email == email
  }

  /** No two stored users share an email. */
  predicate UniqueEmails(rows: map<nat, UserEntity>) {
    forall a, b | a in rows && b in rows && rows[a].email == rows[b].email :: a == b
  }

  /** Storing a user under a new id keeps the emails unique when the
      user's email is not taken yet. */
  lemma UniqueEmailsInsert(rows: map<nat, UserEntity>, id: nat, u: UserEntity)
    requires UniqueEmails(rows) && !EmailTaken(rows, u.email) && id !in rows
    ensures UniqueEmails(rows[id := u]) && EmailTaken(rows[id := u], u.email)
  {
    assert id in rows[id := u] && rows[id := u][id].email == u.email;
  }

  /** The user `register` stores: the request's email and full name, the
      password's hash, no photo, and exactly the USER role when that role
      exists (no role otherwise). */
  function NewUser(req: RegisterRequest, encoder: PasswordEncoder, roleNames: set<string>): (u: UserEntity)
    ensures u.email == req.email && u.fullName == req.fullName && u.passwordHash == encoder.encode(req.password)
    ensures u.photoUrl.None?
    ensures USER_ROLE in roleNames ==> u.roles == {USER_ROLE}
    ensures USER_ROLE !in roleNames ==> u.roles == {}
  {
    UserEntity(req.email, encoder.encode(req.password), req.fullName, None,
               if USER_ROLE in roleNames then {USER_ROLE} else {})
  }

  /** A freshly registered account is never an administrator. */
  lemma {:induction false} NewUserIsNotAdmin(req: RegisterRequest, encoder: PasswordEncoder, roleNames: set<string>, id: nat)
    ensures BuildUserDto(id, NewUser(req, encoder, roleNames)).role == "user"
  {
    var roles := NewUser(req, encoder, roleNames).roles;
    forall r | r in roles ensures !EqualsIgnoreCase(r, ADMIN_ROLE) {
      assert |Lower(r)| == 4 && |Lower(ADMIN_ROLE)| == 5;
    }
  }

  class AuthService {
    const users: Table<UserEntity>
    /** The names in the role table. */
    const roleNames: set<string>
    const encoder: PasswordEncoder
    const sign: (nat, string) -> string

    constructor (users: Table<UserEntity>, roleNames: set<string>, encoder: PasswordEncoder, sign: (nat, string) -> string)
      ensures this.users == users && this.roleNames == roleNames && this.encoder == encoder && this.sign == sign
    {
      this.users := users;
      this.roleNames := roleNames;
      this.encoder := encoder;
      this.sign := sign;
    }

    /** `findByEmail`: the stored user with that email, if any. */
    function FindByEmail(email: string): (r: Option<Row<UserEntity>>)
      requires users.Valid()
      reads users
      ensures r.Some? ==> r.value.id in users.rows && users.rows[r.value.id] == r.value.value && r.value.value.email == email
      ensures r.None? <==> !EmailTaken(users.rows, email)
    {
      var all := users.FindAll();
      var keep := (row: Row<UserEntity>) => row.value.email == email;
      var matches := Filter(all, keep);
      if matches == [] then
        assert forall id | id in users.rows :: users.rows[id].email != email by {
          forall id | id in users.rows ensures users.rows[id].email != email {
            assert Row(id, users.rows[id]) in all;
          }
        }
        None
      else
        assert matches[0] in matches;
        Some(matches[0])
    }

    /** `register(req)`: an email already stored is refused with "Email
        already registered" and nothing is stored; otherwise `NewUser(…)` is
        stored under a new id and the answer carries its token and DTO. */
    method Register(req: RegisterRequest) returns (r: Result<AuthResponse>)
      requires users.Valid() && UniqueEmails(users.rows)
      modifies users
      ensures users.Valid() && UniqueEmails(users.rows)
      ensures EmailTaken(old(users.rows), req.email) ==> r == Err(EMAIL_TAKEN) && users.rows == old(users.rows)
      ensures !EmailTaken(old(users.rows), req.email) ==>
                r.Ok? && r.value.user.id !in old(users.rows) &&
                users.rows == old(users.rows)[r.value.user.id := NewUser(req, encoder, roleNames)] &&
                r.value == AuthResponse(sign(r.value.user.id, req.email),
                                        BuildUserDto(r.value.user.id, NewUser(req, encoder, roleNames)))
    {
      if FindByEmail(req.email).Some? {
        return Err(EMAIL_TAKEN);
      }
      var user := NewUser(req, encoder, roleNames);
      ghost var before := users.rows;
      var id := users.Save(None, user);
      UniqueEmailsInsert(before, id, user);
      r := Ok(AuthResponse(sign(id, user.email), BuildUserDto(id, user)));
    }

    /** `login(req)`: an unknown email and a wrong password fail alike with
        "Invalid credentials"; otherwise the answer carries the stored user's
        token and DTO. */
    function Login(req: LoginRequest): (r: Result<AuthResponse>)
      requires users.Valid()
      reads users
      ensures r.Err? ==> r == Err(INVALID_CREDENTIALS)
      ensures !EmailTaken(users.rows, req.email) ==> r.Err?
      ensures r.Ok? ==> exists id | id in users.rows ::
                users.rows[id].email == req.email && encoder.matches(req.password, users.rows[id].passwordHash) &&
                r.value == AuthResponse(sign(id, req.email), BuildUserDto(id, users.rows[id]))
      ensures UniqueEmails(users.rows) ==>
                forall id | id in users.rows && users.rows[id].email == req.email ::
                  r.Ok? <==> encoder.matches(req.password, users.rows[id].passwordHash)
    {
      match FindByEmail(req.email)
      case None => Err(INVALID_CREDENTIALS)
      case Some(row) =>
        if !encoder.matches(req.password, row.value.passwordHash) then Err(INVALID_CREDENTIALS)
        else Ok(AuthResponse(sign(row.id, row.value.email), BuildUserDto(row.id, row.value)))
    }
  }

  /** Logging in right after registering, with the same email and password,
      succeeds and returns the same user. */
  method RegisterThenLogin(svc: AuthService, req: RegisterRequest)
    returns (registered: Result<AuthResponse>, loggedIn: Result<AuthResponse>)
    requires svc.users.Valid() && UniqueEmails(svc.users.rows) && Sound(svc.encoder)
    requires !EmailTaken(svc.users.rows, req.email)
    modifies svc.users
    ensures registered.Ok? && loggedIn == registered
  {
    registered := svc.Register(req);
    loggedIn := svc.Login(LoginRequest(req.email, req.password));
    var id := registered.value.user.id;
    assert svc.users.rows[id].email == req.email;
  }

  /** With an exact encoder, only the registered password logs in. */
  lemma WrongPasswordRejected(svc: AuthService, id: nat, password: string, attempt: string)
    requires svc.users.Valid() && UniqueEmails(svc.users.rows) && Exact(svc.encoder)
    requires id in svc.users.rows && svc.users.rows[id].passwordHash == svc.encoder.encode(password)
    requires attempt != password
    ensures svc.Login(LoginRequest(svc.users.rows[id].email, attempt)) == Err(INVALID_CREDENTIALS)
  {
  }
}

=== FILE: comment_section.dfy ===
/** `CommentSection` (`components/comment-section.tsx`): the comment list of a
    post card, the draft, posting a comment and the client-side delete. The
    request's answer is an input: the created comment, or `None` when the
    request failed. */
module CommentSection {
  import opened Common
  import opened Types

  /** What a click on "Post Comment" did. */
  datatype AddOutcome = LoginRequired | NothingToSend | Requested(content: string)

  /** The delete button is shown to the signed-in author of the comment. */
  predicate CanDelete(isAuthenticated: bool, user: Option<User>, comment: Comment) {
    isAuthenticated && user.Some? && user.value.email == comment.author.email
  }

  /** Signed out, no delete button is shown; signed in, it is shown on the
      comments of one author only. */
  lemma CanDeleteOneAuthor(isAuthenticated: bool, user: Option<User>, c: Comment, other: Comment)
    ensures !isAuthenticated || user.None? ==> !CanDelete(isAuthenticated, user, c)
    ensures CanDelete(isAuthenticated, user, c) && CanDelete(isAuthenticated, user, other) ==>
              c.author.email == other.author.email
  {
  }

  /** The list after deleting `commentId`. */
  function WithoutComment(comments: seq<Comment>, commentId: string): (r: seq<Comment>)
    ensures forall c :: c in r <==> c in comments && c.id != commentId
    ensures forall c :: Count(r, c) == if c.id != commentId then Count(comments, c) else 0
    ensures IsSubseq(r, comments)
  {
    FilterIsSubseq(comments, (c: Comment) => c.id != commentId);
    Filter(comments, (c: Comment) => c.id != commentId)
  }

  /** Deleting the same id twice is deleting it once. */
  lemma WithoutCommentIdempotent(comments: seq<Comment>, commentId: string)
    ensures WithoutComment(WithoutComment(comments, commentId), commentId) == WithoutComment(comments, commentId)
  {
    FilterAll(WithoutComment(comments, commentId), (c: Comment) => c.id != commentId);
  }

  class CommentSectionState {
    const postId: string
    var comments: seq<Comment>
    var newComment: string

    constructor (postId: string, initialComments: seq<Comment>)
      ensures this.postId == postId && comments == initialComments && newComment == ""
    {
      this.postId := postId;
      comments := initialComments;
      newComment := "";
    }

    /** Typing in the text area. */
    method OnDraftChange(text: string)
      modifies this
      ensures newComment == text && comments == old(comments)
    {
      newComment := text;
    }

    /** `handleAddComment`: without a session the visitor is sent to log in;
        a draft that is only whitespace sends nothing; otherwise the trimmed
        draft is sent, and on success the answer is appended and the draft
        cleared (on failure only an error toast appears). */
    method HandleAddComment(isAuthenticated: bool, user: Option<User>, added: Option<Comment>)
      returns (outcome: AddOutcome)
      modifies this
      ensures !isAuthenticated || user.None? ==>
                outcome == LoginRequired && comments == old(comments) && newComment == old(newComment)
      ensures isAuthenticated && user.Some? && Trim(old(newComment)) == "" ==>
                outcome == NothingToSend && comments == old(comments) && newComment == old(newComment)
      ensures isAuthenticated && user.Some? && Trim(old(newComment)) != "" ==>
                outcome == Requested(Trim(old(newComment)))
      ensures outcome.Requested? ==>
                outcome.content != "" && !IsJsSpace(outcome.content[0]) &&
                !IsJsSpace(outcome.content[|outcome.content| - 1])
      ensures outcome.Requested? && added.Some? ==> comments == old(comments) + [added.value] && newComment == ""
      ensures outcome.Requested? && added.None? ==> comments == old(comments) && newComment == old(newComment)
    {
      if !isAuthenticated || user.None? {
        return LoginRequired;
      }
      var trimmed := Trim(newComment);
      if trimmed == "" {
        return NothingToSend;
      }
      TrimEnds(newComment);
      outcome := Requested(trimmed);
      if added.Some? {
        comments := comments + [added.value];
        newComment := "";
      }
    }

    /** `handleDeleteComment(commentId)`: only the local list changes. */
    method HandleDeleteComment(commentId: string)
      modifies this
      ensures comments == WithoutComment(old(comments), commentId)
      ensures forall c :: c in comments ==> c.id != commentId
      ensures newComment == old(newComment)
    {
      comments := WithoutComment(comments, commentId);
    }
  }
}

=== FILE: common.dfy ===
/** Shared vocabulary of the model: optional and fallible values, sequence
    helpers that stand for JavaScript's `filter`/`includes`/`Set` idioms, and the
    string primitives (`indexOf`, `includes`, `toLowerCase`, `trim`, string
    comparison) that the client and the backend use. */
module Common {

  datatype Option<T> = None | Some(value: T) {
    /** `x ?? d` in TypeScript, `Optional.orElse` in Java. */
    function GetOr(default: T): T {
      match this
      case Some(v) => v
      case None => default
    }
  }

  /** A value or an error message (a thrown exception in the source). */
  datatype Result<T> = Ok(value: T) | Err(message: string)

  // ---------------------------------------------------------------------------
  // Sequences

  /** `s.filter(keep)`. */
  function Filter<T(!new)>(s: seq<T>, keep: T -> bool): (r: seq<T>)
    ensures |r| <= |s|
    ensures forall x :: x in r <==> x in s && keep(x)
    ensures forall i :: 0 <= i < |r| ==> keep(r[i])
    ensures forall x :: Count(r, x) == if keep(x) then Count(s, x) else 0
  {
    if s == [] then []
    else if keep(s[0]) then
      var rest := Filter(s[1..], keep);
      assert ([s[0]] + rest)[1..] == rest;
      [s[0]] + rest
    else Filter(s[1..], keep)
  }

  /** Number of occurrences of `x` in `s`. */
  function Count<T(==)>(s: seq<T>, x: T): nat {
    if s == [] then 0 else (if s[0] == x then 1 else 0) + Count(s[1..], x)
  }

  lemma {:induction false} CountSnoc<T>(s: seq<T>, x: T, e: T)
    ensures Count(s + [x], e) == Count(s, e) + (if x == e then 1 else 0)
  {
    if s == [] {
      assert s + [x] == [x];
    } else {
      assert (s + [x])[0] == s[0] && (s + [x])[1..] == s[1..] + [x];
      CountSnoc(s[1..], x, e);
    }
  }

  lemma {:induction false} CountZeroIff<T>(s: seq<T>, e: T)
    ensures Count(s, e) == 0 <==> e !in s
  {
    if s != [] {
      CountZeroIff(s[1..], e);
      assert s == [s[0]] + s[1..];
    }
  }

  /** Every sequence is a sub-sequence of itself. */
  lemma {:induction false} SubseqRefl<T>(s: seq<T>)
    ensures IsSubseq(s, s)
  {
    if s != [] {
      SubseqRefl(s[1..]);
    }
  }

  /** `r` can be obtained from `s` by deleting elements (order is kept). */
  predicate IsSubseq<T(==)>(r: seq<T>, s: seq<T>)
    decreases |s|
  {
    if r == [] then true
    else if s == [] then false
    else if r[0] == s[0] then IsSubseq(r[1..], s[1..])
    else IsSubseq(r, s[1..])
  }

  lemma {:induction false} FilterIsSubseq<T(!new)>(s: seq<T>, keep: T -> bool)
    ensures IsSubseq(Filter(s, keep), s)
  {
    if s != [] {
      FilterIsSubseq(s[1..], keep);
    }
  }

  lemma {:induction false} FilterAppend<T(!new)>(a: seq<T>, b: seq<T>, keep: T -> bool)
    ensures Filter(a + b, keep) == Filter(a, keep) + Filter(b, keep)
  {
    if a != [] {
      assert (a + b)[0] == a[0] && (a + b)[1..] == a[1..] + b;
      FilterAppend(a[1..], b, keep);
      if keep(a[0]) {
        assert Filter(a, keep) == [a[0]] + Filter(a[1..], keep);
      }
    } else {
      assert a + b == b;
    }
  }

  /** Filtering with a predicate that keeps everything is the identity. */
  lemma {:induction false} FilterAll<T(!new)>(s: seq<T>, keep: T -> bool)
    requires forall x :: x in s ==> keep(x)
    ensures Filter(s, keep) == s
  {
    if s != [] {
      FilterAll(s[1..], keep);
    }
  }

  /** Filtering with a predicate that keeps nothing gives the empty sequence. */
  lemma {:induction false} FilterNone<T(!new)>(s: seq<T>, keep: T -> bool)
    requires forall x :: x in s ==> !keep(x)
    ensures Filter(s, keep) == []
  {
    if s != [] {
      assert s[0] in s;
      FilterNone(s[1..], keep);
    }
  }

  /** Two filters in a row are one filter with both conditions. */
  lemma {:induction false} FilterFilter<T(!new)>(s: seq<T>, a: T -> bool, b: T -> bool, both: T -> bool)
    requires forall x :: both(x) == (a(x) && b(x))
    ensures Filter(Filter(s, a), b) == Filter(s, both)
  {
    if s != [] {
      FilterFilter(s[1..], a, b, both);
      if a(s[0]) {
        assert Filter(s, a) == [s[0]] + Filter(s[1..], a);
        assert Filter(s, a)[0] == s[0] && Filter(s, a)[1..] == Filter(s[1..], a);
      }
    }
  }

  /** Filters whose conditions agree on the elements give the same result. */
  lemma {:induction false} FilterSame<T(!new)>(s: seq<T>, a: T -> bool, b: T -> bool)
    requires forall x :: x in s ==> a(x) == b(x)
    ensures Filter(s, a) == Filter(s, b)
  {
    if s != [] {
      FilterSame(s[1..], a, b);
    }
  }

  /** `s.map(f)`. */
  function Map<T, U>(s: seq<T>, f: T -> U): (r: seq<U>)
    ensures |r| == |s|
    ensures forall i :: 0 <= i < |s| ==> r[i] == f(s[i])
  {
    if s == [] then [] else [f(s[0])] + Map(s[1..], f)
  }

  lemma MapSnoc<T, U>(s: seq<T>, x: T, f: T -> U)
    ensures Map(s + [x], f) == Map(s, f) + [f(x)]
  {
    var l, r := Map(s + [x], f), Map(s, f) + [f(x)];
    forall i | 0 <= i < |l| ensures l[i] == r[i] {
      assert (s + [x])[i] == if i < |s| then s[i] else x;
    }
  }

  /** Filtering a sequence without repeats leaves a sequence without repeats. */
  lemma {:induction false} FilterNoDuplicates<T(!new)>(s: seq<T>, keep: T -> bool)
    requires NoDuplicates(s)
    ensures NoDuplicates(Filter(s, keep))
  {
    if s != [] {
      NoDuplicatesTail(s);
      FilterNoDuplicates(s[1..], keep);
      if keep(s[0]) {
        NoDuplicatesCons(s[0], Filter(s[1..], keep));
      }
    }
  }

  lemma NoDuplicatesTail<T>(s: seq<T>)
    requires s != [] && NoDuplicates(s)
    ensures NoDuplicates(s[1..]) && s[0] !in s[1..]
  {
    forall i, j | 0 <= i < j < |s[1..]| ensures s[1..][i] != s[1..][j] {
      assert s[1..][i] == s[i + 1] && s[1..][j] == s[j + 1];
    }
    forall k | 0 <= k < |s[1..]| ensures s[1..][k] != s[0] {
      assert s[1..][k] == s[k + 1];
    }
  }

  lemma NoDuplicatesCons<T>(x: T, t: seq<T>)
    requires x !in t && NoDuplicates(t)
    ensures NoDuplicates([x] + t)
  {
    forall i, j | 0 <= i < j < |[x] + t| ensures ([x] + t)[i] != ([x] + t)[j] {
      assert ([x] + t)[j] == t[j - 1] && t[j - 1] in t;
      if i > 0 {
        assert ([x] + t)[i] == t[i - 1];
      }
    }
  }

  /** The distinct elements of `s` in order of first appearance: what
      `Array.from(new Set(s))` and the insertion order of a JavaScript `Map`
      produce. */
  function Dedup<T(==,!new)>(s: seq<T>): (r: seq<T>)
    ensures forall x :: x in r <==> x in s
    ensures |r| <= |s|
  {
    if s == [] then []
    else
      var d := Dedup(s[..|s| - 1]);
      if s[|s| - 1] in d then d else d + [s[|s| - 1]]
  }

  predicate NoDuplicates<T(==)>(s: seq<T>) {
    forall i, j :: 0 <= i < j < |s| ==> s[i] != s[j]
  }

  lemma {:induction false} DedupDistinct<T(!new)>(s: seq<T>)
    ensures NoDuplicates(Dedup(s))
  {
    if s != [] {
      DedupDistinct(s[..|s| - 1]);
    }
  }

  /** Position of the first occurrence of `x` in `s`. */
  function FirstIndex<T(==)>(s: seq<T>, x: T): (i: nat)
    requires x in s
    ensures i < |s| && s[i] == x
  {
    if s[0] == x then 0 else 1 + FirstIndex(s[1..], x)
  }

  /** No earlier position holds `x`. */
  lemma {:induction false} FirstIndexIsFirst<T>(s: seq<T>, x: T)
    requires x in s
    ensures forall j :: 0 <= j < FirstIndex(s, x) ==> s[j] != x
  {
    if s[0] != x {
      FirstIndexIsFirst(s[1..], x);
      forall j | 0 < j < FirstIndex(s, x) ensures s[j] != x {
        assert s[j] == s[1..][j - 1];
      }
    }
  }

  /** Dedup lists the elements in the order of their first appearance in `s`. */
  lemma {:induction false} DedupFirstAppearanceOrder<T(!new)>(s: seq<T>, i: nat, j: nat)
    requires i < j < |Dedup(s)|
    ensures Dedup(s)[i] in s && Dedup(s)[j] in s
    ensures FirstIndex(s, Dedup(s)[i]) < FirstIndex(s, Dedup(s)[j])
  {
    var init := s[..|s| - 1];
    var d := Dedup(init);
    var x, y := Dedup(s)[i], Dedup(s)[j];
    FirstIndexPrefix(s, init);
    if j < |d| {
      DedupFirstAppearanceOrder(init, i, j);
      assert FirstIndex(s, x) == FirstIndex(init, x);
      assert FirstIndex(s, y) == FirstIndex(init, y);
    } else {
      // y is the last element of s and does not occur earlier
      assert y == s[|s| - 1] && y !in init;
      assert FirstIndex(s, x) == FirstIndex(init, x);
      assert FirstIndex(s, y) == |s| - 1;
    }
  }

  lemma FirstIndexPrefix<T>(s: seq<T>, init: seq<T>)
    requires s != [] && init == s[..|s| - 1]
    ensures forall x :: x in init ==> FirstIndex(s, x) == FirstIndex(init, x)
    ensures s[|s| - 1] !in init ==> FirstIndex(s, s[|s| - 1]) == |s| - 1
  {
    forall x | x in init ensures FirstIndex(s, x) == FirstIndex(init, x) {
      var k := FirstIndex(init, x);
      assert s[k] == x;
      var m := FirstIndex(s, x);
      FirstIndexIsFirst(s, x);
      FirstIndexIsFirst(init, x);
      assert m <= k;
      assert init[m] == x;
    }
    if s[|s| - 1] !in init {
      FirstIndexIsFirst(s, s[|s| - 1]);
    }
  }

  // ---------------------------------------------------------------------------
  // Maps keyed by generated ids

  /** The keys of `m` below `n`, in ascending order: the order in which a
      table with generated ids lists its rows. */
  function KeysBelow<T>(m: map<nat, T>, n: nat): (r: seq<nat>)
    ensures forall k :: k in r <==> k in m && k < n
    ensures forall i, j :: 0 <= i < j < |r| ==> r[i] < r[j]
  {
    if n == 0 then []
    else
      var r := KeysBelow(m, n - 1);
      if n - 1 in m then
        assert forall i | 0 <= i < |r| :: r[i] in r;
        r + [n - 1]
      else r
  }

  // Java's 32-bit int

  const INT32_MIN := -0x8000_0000
  const INT32_MAX := 0x7FFF_FFFF

  newtype int32 = x: int | INT32_MIN <= x <= INT32_MAX

  /** `x + 1` on a Java `int`: wraps from the largest value to the smallest. */
  function Int32Inc(x: int32): (r: int32)
    ensures x < INT32_MAX as int32 ==> r as int == x as int + 1
    ensures x == INT32_MAX as int32 ==> r == INT32_MIN as int32
  {
    if x == INT32_MAX as int32 then INT32_MIN as int32 else x + 1
  }

  // Strings

  /** `s.startsWith(prefix)`. */
  predicate StartsWith(s: string, prefix: string) {
    |prefix| <= |s| && s[..|prefix|] == prefix
  }

  /** `s` has `sub` starting at position `i` (`OccursAtSlice`: the slice of
      `s` there equals `sub`). */
  predicate OccursAt(s: string, sub: string, i: int) {
    0 <= i && i + |sub| <= |s| && MatchesFrom(s, sub, i)
  }

  /** The characters of `sub` are those of `s` from position `i` on. */
  predicate MatchesFrom(s: string, sub: string, i: nat)
    requires i + |sub| <= |s|
    decreases |sub|
  {
    sub == [] || (s[i] == sub[0] && MatchesFrom(s, sub[1..], i + 1))
  }

  lemma {:induction false} MatchesFromSlice(s: string, sub: string, i: nat)
    requires i + |sub| <= |s|
    ensures MatchesFrom(s, sub, i) <==> s[i..i + |sub|] == sub
    decreases |sub|
  {
    if sub != [] {
      MatchesFromSlice(s, sub[1..], i + 1);
      assert s[i..i + |sub|] == [s[i]] + s[i + 1..i + 1 + |sub[1..]|];
      assert sub == [sub[0]] + sub[1..];
    }
  }

  lemma OccursAtSlice(s: string, sub: string, i: int)
    ensures OccursAt(s, sub, i) <==> 0 <= i && i + |sub| <= |s| && s[i..i + |sub|] == sub
  {
    if 0 <= i && i + |sub| <= |s| {
      MatchesFromSlice(s, sub, i);
    }
  }

  /** JavaScript `s.indexOf(sub, from)`: the search starts at `from` clamped to
      [0, |s|]; the result is a position at or after it where `sub` occurs, or
      -1 (`IndexOfIsFirst`: the first such position, and -1 only when there is none). */
  function IndexOf(s: string, sub: string, from: int): (r: int)
    ensures r == -1 || OccursAt(s, sub, r)
    ensures r != -1 ==> r >= (if from > |s| then |s| else from)
  {
    var start := if from < 0 then 0 else if from > |s| then |s| else from;
    SearchFrom(s, sub, start)
  }

  /** First occurrence of `sub` at or after `i` (with `i` already in range). */
  function SearchFrom(s: string, sub: string, i: nat): (r: int)
    requires i <= |s|
    ensures r == -1 || (OccursAt(s, sub, r) && i <= r)
    decreases |s| - i
  {
    if OccursAt(s, sub, i) then i
    else if i == |s| then -1
    else SearchFrom(s, sub, i + 1)
  }

  lemma {:induction false} SearchFromIsFirst(s: string, sub: string, i: nat)
    requires i <= |s|
    ensures SearchFrom(s, sub, i) == -1 ==> forall k :: i <= k <= |s| ==> !OccursAt(s, sub, k)
    ensures SearchFrom(s, sub, i) != -1 ==> forall k :: i <= k < SearchFrom(s, sub, i) ==> !OccursAt(s, sub, k)
    decreases |s| - i
  {
    if !OccursAt(s, sub, i) && i < |s| {
      SearchFromIsFirst(s, sub, i + 1);
    }
  }

  /** `indexOf` finds the first occurrence, and -1 means there is none. */
  lemma IndexOfIsFirst(s: string, sub: string, from: int)
    ensures IndexOf(s, sub, from) == -1 ==> forall i :: from <= i <= |s| ==> !OccursAt(s, sub, i)
    ensures IndexOf(s, sub, from) != -1 ==> forall i :: from <= i < IndexOf(s, sub, from) ==> !OccursAt(s, sub, i)
  {
    var start := if from < 0 then 0 else if from > |s| then |s| else from;
    SearchFromIsFirst(s, sub, start);
  }

  /** JavaScript `s.includes(sub)`. */
  predicate Contains(s: string, sub: string) {
    IndexOf(s, sub, 0) != -1
  }

  lemma ContainsIff(s: string, sub: string)
    ensures Contains(s, sub) <==> exists i :: OccursAt(s, sub, i)
  {
    IndexOfIsFirst(s, sub, 0);
    if exists i :: OccursAt(s, sub, i) {
      var i :| OccursAt(s, sub, i);
      assert 0 <= i <= |s|;
    }
  }

  /** A string lacking one of the characters of `sub` does not include `sub`. */
  lemma MissingCharNotContained(s: string, sub: string, k: nat)
    requires k < |sub| && sub[k] !in s
    ensures !Contains(s, sub)
  {
    ContainsIff(s, sub);
    forall i | 0 <= i && i + |sub| <= |s| ensures !OccursAt(s, sub, i) {
      OccursAtSlice(s, sub, i);
      assert s[i..i + |sub|][k] == s[i + k] && s[i + k] in s;
    }
  }

  /** Every string includes the empty string. */
  lemma {:induction false} ContainsEmpty(s: string)
    ensures Contains(s, "")
  {
    assert OccursAt(s, "", 0);
  }

  function LowerChar(c: char): char {
    if 'A' <= c <= 'Z' then (c as int - 'A' as int + 'a' as int) as char else c
  }

  /** `toLowerCase()` restricted to ASCII letters. */
  function Lower(s: string): (r: string)
    ensures |r| == |s|
    ensures forall i :: 0 <= i < |s| ==> r[i] == LowerChar(s[i])
  {
    if s == [] then [] else [LowerChar(s[0])] + Lower(s[1..])
  }

  predicate IsAsciiAlphanumeric(c: char) {
    ('a' <= c <= 'z') || ('A' <= c <= 'Z') || ('0' <= c <= '9')
  }

  /** Characters removed by JavaScript's `trim()` (the Latin-1 and common
      Unicode white space and line terminators). */
  predicate IsJsSpace(c: char) {
    c == ' ' || c == '\t' || c == '\n' || c == '\r' || c == '\U{B}' || c == '\U{C}'
    || c == '\U{A0}' || c == '\U{FEFF}' || c == '\U{2028}' || c == '\U{2029}'
  }

  function TrimStart(s: string): (r: string)
    ensures |r| <= |s| && r == s[|s| - |r|..]
    ensures r == [] || !IsJsSpace(r[0])
    ensures forall i :: 0 <= i < |s| - |r| ==> IsJsSpace(s[i])
  {
    if s != [] && IsJsSpace(s[0]) then
      var r := TrimStart(s[1..]);
      assert s[1..][|s| - 1 - |r|..] == s[|s| - |r|..];
      assert forall i | 1 <= i < |s| - |r| :: s[i] == s[1..][i - 1];
      r
    else s
  }

  function TrimEnd(s: string): (r: string)
    ensures |r| <= |s| && r == s[..|r|]
    ensures r == [] || !IsJsSpace(r[|r| - 1])
    ensures forall i :: |r| <= i < |s| ==> IsJsSpace(s[i])
  {
    if s != [] && IsJsSpace(s[|s| - 1]) then
      var r := TrimEnd(s[..|s| - 1]);
      assert s[..|s| - 1][..|r|] == s[..|r|];
      assert forall i | |r| <= i < |s| - 1 :: s[i] == s[..|s| - 1][i];
      r
    else s
  }

  /** JavaScript `s.trim()`. */
  function Trim(s: string): (r: string)
  {
    TrimEnd(TrimStart(s))
  }

  /** `trim()` yields the empty string exactly when every character is white space. */
  lemma TrimEmptyIff(s: string)
    ensures Trim(s) == "" <==> forall i :: 0 <= i < |s| ==> IsJsSpace(s[i])
  {
    var t := TrimStart(s);
    assert t == [] || !IsJsSpace(t[0]);
  }

  /** The trimmed string is the piece `s[i..j]` of the original, with only
      white space before `i` and from `j` on. */
  lemma TrimIsInfix(s: string) returns (i: nat, j: nat)
    ensures i <= j <= |s| && Trim(s) == s[i..j]
    ensures forall k | 0 <= k < i :: IsJsSpace(s[k])
    ensures forall k | j <= k < |s| :: IsJsSpace(s[k])
  {
    i, j := SpacesAround(s, TrimStart(s), TrimEnd(TrimStart(s)));
  }

  /** `r` is a prefix of the suffix `t` of `s`, with only white space cut off
      on either side. */
  lemma SpacesAround(s: string, t: string, r: string) returns (i: nat, j: nat)
    requires |t| <= |s| && t == s[|s| - |t|..] && forall k :: 0 <= k < |s| - |t| ==> IsJsSpace(s[k])
    requires |r| <= |t| && r == t[..|r|] && forall k :: |r| <= k < |t| ==> IsJsSpace(t[k])
    ensures i <= j <= |s| && r == s[i..j]
    ensures forall k | 0 <= k < i :: IsJsSpace(s[k])
    ensures forall k | j <= k < |s| :: IsJsSpace(s[k])
  {
    i := |s| - |t|;
    j := i + |r|;
    forall k | 0 <= k < |r| ensures r[k] == s[i..j][k] {
      assert r[k] == t[k] == s[i + k];
    }
    forall k | j <= k < |s| ensures IsJsSpace(s[k]) {
      assert s[k] == t[k - i];
    }
  }

  /** The trimmed string neither starts nor ends with white space. */
  lemma TrimEnds(s: string)
    ensures Trim(s) == [] || (!IsJsSpace(Trim(s)[0]) && !IsJsSpace(Trim(s)[|Trim(s)| - 1]))
  {
    var t := TrimStart(s);
    var r := TrimEnd(t);
    if r != [] {
      assert r[0] == t[0];
    }
  }

  /** Java's `s.trim().isEmpty()`: every character is at most U+0020. */
  predicate IsJavaBlank(s: string) {
    forall i :: 0 <= i < |s| ==> s[i] <= ' '
  }

  /** JavaScript (and Java `compareTo`) string order: lexicographic by code unit. */
  predicate LexLess(a: string, b: string)
    decreases |a|
  {
    if b == [] then false
    else if a == [] then true
    else if a[0] != b[0] then a[0] < b[0]
    else LexLess(a[1..], b[1..])
  }

  lemma {:induction false} LexLessIrreflexive(a: string)
    ensures !LexLess(a, a)
  {
    if a != [] {
      LexLessIrreflexive(a[1..]);
    }
  }

  lemma {:induction false} LexLessTransitive(a: string, b: string, c: string)
    requires LexLess(a, b) && LexLess(b, c)
    ensures LexLess(a, c)
  {
    if a != [] && a[0] == b[0] && b[0] == c[0] {
      LexLessTransitive(a[1..], b[1..], c[1..]);
    }
  }

  lemma {:induction false} LexLessTotal(a: string, b: string)
    ensures a == b || LexLess(a, b) || LexLess(b, a)
  {
    if a != [] && b != [] && a[0] == b[0] {
      LexLessTotal(a[1..], b[1..]);
      if a[1..] == b[1..] {
        assert a == [a[0]] + a[1..] && b == [b[0]] + b[1..];
      }
    }
  }

  /** Decimal digits of a natural number: Java's `String.valueOf(long)` for the
      non-negative identifiers the database generates. */
  /** Only the digits 0 to 9. */
  predicate IsDigits(s: string) {
    forall i | 0 <= i < |s| :: '0' <= s[i] <= '9'
  }

  function NatToString(n: nat): (r: string)
    ensures |r| >= 1
    ensures IsDigits(r)
    ensures |r| > 1 ==> r[0] != '0'
  {
    if n < 10 then [DigitChar(n)] else NatToString(n / 10) + [DigitChar(n % 10)]
  }

  function DigitChar(d: nat): (c: char)
    requires d < 10
    ensures '0' <= c <= '9'
  {
    ('0' as int + d) as char
  }

  /** The value of a string of decimal digits. */
  function ParseNat(s: string): nat
    requires IsDigits(s)
  {
    if s == [] then 0 else ParseNat(s[..|s| - 1]) * 10 + (s[|s| - 1] as int - '0' as int)
  }

  /** The decimal text of a number reads back as that number. */
  lemma {:induction false} ParseNatToString(n: nat)
    ensures ParseNat(NatToString(n)) == n
  {
    if n >= 10 {
      var s := NatToString(n);
      assert s[..|s| - 1] == NatToString(n / 10);
      ParseNatToString(n / 10);
    }
  }

  /** Distinct numbers have distinct decimal texts. */
  lemma NatToStringInjective(m: nat, n: nat)
    requires NatToString(m) == NatToString(n)
    ensures m == n
  {
    ParseNatToString(m);
    ParseNatToString(n);
  }
}

=== FILE: create_post.dfy ===
/** `CreatePostPage` (`app/create/page.tsx`): the form's validation rules, the
    media picker, the AI title assistant, and the payload handed to `addPost`.
    The AI call, `URL.createObjectURL`, `encodeURIComponent` and the request
    are inputs. */
module CreatePost {
  import opened Common
  import opened Types

  const TITLE_MIN := 5
  const TOPIC_MIN := 2
  const CONTENT_MIN := 50
  const TITLE_MESSAGE := "Please enter a title with at least 5 characters."
  const TOPIC_MESSAGE := "Please enter a topic."
  const CONTENT_MESSAGE := "Content must be at least 50 characters."
  const ASSIST_MIN := 20
  const PLACEHOLDER_PREFIX := "https://placehold.co/600x400.png?text="

  datatype FormValues = FormValues(title: string, topic: string, content: string)

  /** The message of each field that fails its rule. */
  datatype FieldErrors = FieldErrors(title: Option<string>, topic: Option<string>, content: Option<string>)

  /** The form schema: minimum lengths 5, 2 and 50. */
  function Validate(v: FormValues): (r: FieldErrors)
    ensures r.title.Some? <==> |v.title| < TITLE_MIN
    ensures r.topic.Some? <==> |v.topic| < TOPIC_MIN
    ensures r.content.Some? <==> |v.content| < CONTENT_MIN
    ensures r.title.Some? ==> r.title.value == TITLE_MESSAGE
    ensures r.topic.Some? ==> r.topic.value == TOPIC_MESSAGE
    ensures r.content.Some? ==> r.content.value == CONTENT_MESSAGE
  {
    FieldErrors(
      if |v.title| < TITLE_MIN then Some(TITLE_MESSAGE) else None,
      if |v.topic| < TOPIC_MIN then Some(TOPIC_MESSAGE) else None,
      if |v.content| < CONTENT_MIN then Some(CONTENT_MESSAGE) else None)
  }

  predicate NoErrors(e: FieldErrors) {
    e.title.None? && e.topic.None? && e.content.None?
  }

  /** A form passes exactly when every field is long enough; a passing form
      also has enough content for the AI assistant. */
  lemma ValidateIff(v: FormValues)
    ensures NoErrors(Validate(v)) <==> |v.title| >= TITLE_MIN && |v.topic| >= TOPIC_MIN && |v.content| >= CONTENT_MIN
    ensures NoErrors(Validate(v)) ==> AssistAllowed(v.content)
  {
  }

  datatype MediaKind = Image | Video

  /** The MIME type check of `handleFileChange`. */
  function ClassifyMedia(mimeType: string): (r: Option<MediaKind>)
    ensures r == Some(Image) <==> StartsWith(mimeType, "image/")
    ensures r == Some(Video) <==> !StartsWith(mimeType, "image/") && StartsWith(mimeType, "video/")
    ensures r.None? <==> !StartsWith(mimeType, "image/") && !StartsWith(mimeType, "video/")
  {
    if StartsWith(mimeType, "image/") then Some(Image)
    else if StartsWith(mimeType, "video/") then Some(Video)
    else None
  }

  /** The assistant needs non-empty content of at least 20 characters. */
  predicate AssistAllowed(content: string) {
    !(content == "" || |content| < ASSIST_MIN)
  }

  /** What the AI title flow answered: a failure (it threw), or a result
      whose `titles` may be missing. */
  datatype AssistReply = AssistFailed | AssistAnswered(titles: Option<seq<string>>)

  /** The object passed to `addPost`. */
  datatype Payload = Payload(title: string, content: string, imageUrl: string, topic: string, imageFile: Option<File>)

  /** `onSubmit`'s payload: the preview as image URL, or a placeholder
      carrying the encoded title; the chosen file, if any, as `imageFile`. */
  function BuildPayload(v: FormValues, preview: Option<string>, media: Option<File>, encode: string -> string): (r: Payload)
    ensures r.title == v.title && r.content == v.content && r.topic == v.topic && r.imageFile == media
    ensures Truthy(preview) ==> r.imageUrl == preview.value
    ensures !Truthy(preview) ==> r.imageUrl == PLACEHOLDER_PREFIX + encode(v.title)
  {
    Payload(v.title, v.content, OrElse(preview, PLACEHOLDER_PREFIX + encode(v.title)), v.topic, media)
  }

  class CreatePostState {
    var values: FormValues
    var media: Option<File>
    var preview: Option<string>
    var fileType: Option<MediaKind>
    var suggestions: Option<seq<string>>
    var isGenerating: bool
    var isSubmitting: bool

    /** A preview is shown exactly when a supported file type was recorded,
        and then a file has been chosen. */
    predicate Valid()
      reads this
    {
      (preview.Some? <==> fileType.Some?) && (preview.Some? ==> media.Some?)
    }

    constructor ()
      ensures Valid()
      ensures values == FormValues("", "", "") && media.None? && preview.None? && fileType.None?
      ensures suggestions.None? && !isGenerating && !isSubmitting
    {
      values := FormValues("", "", "");
      media, preview, fileType, suggestions := None, None, None, None;
      isGenerating, isSubmitting := false, false;
    }

    method OnValuesChange(v: FormValues)
      modifies this
      ensures values == v && media == old(media) && preview == old(preview) && fileType == old(fileType)
      ensures suggestions == old(suggestions) && isGenerating == old(isGenerating) && isSubmitting == old(isSubmitting)
    {
      values := v;
    }

    /** `handleFileChange`: an image or a video becomes the form's `media`
        with a preview (`objectUrl`); any other type clears the preview and
        the recorded type but keeps the `media` chosen earlier. */
    method HandleFileChange(file: Option<File>, objectUrl: string)
      requires Valid()
      modifies this
      ensures Valid()
      ensures file.None? ==> media == old(media) && preview == old(preview) && fileType == old(fileType)
      ensures file.Some? && ClassifyMedia(file.value.mimeType).None? ==>
                fileType.None? && preview.None? && media == old(media)
      ensures file.Some? && ClassifyMedia(file.value.mimeType).Some? ==>
                fileType == ClassifyMedia(file.value.mimeType) && media == file && preview == Some(objectUrl)
      ensures values == old(values) && suggestions == old(suggestions)
      ensures isGenerating == old(isGenerating) && isSubmitting == old(isSubmitting)
    {
      if file.Some? {
        var kind := ClassifyMedia(file.value.mimeType);
        if kind.None? {
          fileType := None;
          preview := None;
          return;
        }
        fileType := kind;
        media := file;
        preview := Some(objectUrl);
      }
    }

    /** `handleAiAssist('title')`: suggestions are cleared; with too little
        content nothing is asked; otherwise the titles the flow returns, if
        any, become the suggestions. `asked` tells whether the flow was called. */
    method HandleAiAssist(reply: AssistReply) returns (asked: bool)
      modifies this
      ensures asked <==> AssistAllowed(values.content)
      ensures asked && reply.AssistAnswered? && reply.titles.Some? ==> suggestions == reply.titles
      ensures !(asked && reply.AssistAnswered? && reply.titles.Some?) ==> suggestions.None?
      ensures !isGenerating
      ensures values == old(values) && media == old(media) && preview == old(preview) && fileType == old(fileType)
      ensures isSubmitting == old(isSubmitting)
    {
      isGenerating := true;
      suggestions := None;
      asked := AssistAllowed(values.content);
      if asked && reply.AssistAnswered? && reply.titles.Some? {
        suggestions := reply.titles;
      }
      isGenerating := false;
    }

    /** `handleSelectSuggestion(s)`: while suggestions are shown, `s` becomes
        the title; the suggestions are closed either way. */
    method HandleSelectSuggestion(suggestion: string)
      modifies this
      ensures old(suggestions).Some? ==> values == old(values).(title := suggestion)
      ensures old(suggestions).None? ==> values == old(values)
      ensures suggestions.None?
      ensures media == old(media) && preview == old(preview) && fileType == old(fileType)
      ensures isGenerating == old(isGenerating) && isSubmitting == old(isSubmitting)
    {
      if suggestions.Some? {
        values := values.(title := suggestion);
      }
      suggestions := None;
    }

    /** `form.handleSubmit(onSubmit)`: nothing is sent while a rule fails;
        otherwise the payload is sent and submitting ends whatever the answer. */
    method Submit(encode: string -> string) returns (sent: Option<Payload>)
      modifies this
      ensures !NoErrors(Validate(values)) ==> sent.None?
      ensures NoErrors(Validate(values)) ==> sent == Some(BuildPayload(values, preview, media, encode))
      ensures isSubmitting == (old(isSubmitting) && !NoErrors(Validate(values)))
      ensures values == old(values) && media == old(media) && preview == old(preview) && fileType == old(fileType)
      ensures suggestions == old(suggestions) && isGenerating == old(isGenerating)
    {
      if !NoErrors(Validate(values)) {
        return None;
      }
      isSubmitting := true;
      sent := Some(BuildPayload(values, preview, media, encode));
      isSubmitting := false;
    }
  }

  /** Choosing an image and then a file of another type leaves no preview
      but still submits the image: the rejected choice does not clear `media`. */
  method ChooseImageThenOther(image: File, other: File, objectUrl: string, v: FormValues, encode: string -> string)
    returns (sent: Option<Payload>)
    requires StartsWith(image.mimeType, "image/")
    requires !StartsWith(other.mimeType, "image/") && !StartsWith(other.mimeType, "video/")
    requires NoErrors(Validate(v))
    ensures sent.Some? && sent.value.imageFile == Some(image)
    ensures sent.value.imageUrl == PLACEHOLDER_PREFIX + encode(v.title)
  {
    var page := new CreatePostState();
    page.OnValuesChange(v);
    page.HandleFileChange(Some(image), objectUrl);
    page.HandleFileChange(Some(other), objectUrl);
    sent := page.Submit(encode);
  }
}

=== FILE: grammar_checker.dfy ===
/** The inline grammar checker (`inline-grammar-checker.tsx`): the length guard
    in front of the grammar-check call, and `highlightedText`, which cuts the
    text into plain slices and annotated matches of the corrections the model
    returned. The model call itself is an input. */
module GrammarChecker {
  import opened Common

  /** One suggestion of the grammar model. */
  datatype Correction = Correction(original: string, corrected: string, explanation: string)

  /** What the grammar-check flow returns. */
  datatype CheckGrammarOutput = CheckGrammarOutput(correctedContent: string, corrections: seq<Correction>)

  /** A rendered piece: a plain slice of the text, or a highlighted match that
      shows `correction.original` with a tooltip carrying `corrected` and
      `explanation`. */
  datatype Piece = Plain(text: string) | Annotated(correction: Correction)

  /** `highlightedText` is either the text itself or the list of pieces. */
  datatype Highlighted = Whole(text: string) | Pieces(parts: seq<Piece>)

  const MIN_CHECK_LENGTH: nat := 20

  function PieceText(p: Piece): string {
    match p
    case Plain(t) => t
    case Annotated(c) => c.original
  }

  /** The text the pieces display, read left to right. */
  function Render(parts: seq<Piece>): string {
    if parts == [] then "" else PieceText(parts[0]) + Render(parts[1..])
  }

  function RenderHighlighted(h: Highlighted): string {
    match h
    case Whole(t) => t
    case Pieces(ps) => Render(ps)
  }

  // ---------------------------------------------------------------------------
  // The length guard of handleCheckGrammar

  /** The check runs only for a non-empty text of at least 20 characters. */
  predicate GrammarCheckAllowed(value: string) {
    !(value == "" || |value| < MIN_CHECK_LENGTH)
  }

  lemma GrammarCheckAllowedIff(value: string)
    ensures GrammarCheckAllowed(value) <==> |value| >= 20
  {
  }

  /** The component's state: the text under edit and the last grammar result. */
  class InlineGrammarChecker {
    var value: string
    var results: Option<CheckGrammarOutput>

    constructor (value: string)
      ensures this.value == value && results == None
    {
      this.value := value;
      results := None;
    }

    /** `handleCheckGrammar`: `response` is what the model call yields
        (`None` when it throws). Returns whether the model was called. */
    method HandleCheckGrammar(response: Option<CheckGrammarOutput>) returns (called: bool)
      modifies this
      ensures called <==> GrammarCheckAllowed(value)
      ensures value == old(value)
      ensures results == if called && response.Some? then response else old(results)
    {
      if value == "" || |value| < MIN_CHECK_LENGTH {
        return false;
      }
      called := true;
      if response.Some? {
        results := response;
      }
    }

    /** Editing the text discards the previous results (the `[value]` effect). */
    method OnValueChange(newValue: string)
      modifies this
      ensures value == newValue && results == None
    {
      value := newValue;
      results := None;
    }
  }

  // ---------------------------------------------------------------------------
  // Ordering the corrections

  /** The sort key: where the correction's phrase first occurs, or -1. */
  function FirstOccurrence(value: string, c: Correction): int {
    IndexOf(value, c.original, 0)
  }

  predicate SortedByFirstOccurrence(value: string, s: seq<Correction>) {
    forall i, j :: 0 <= i < j < |s| ==> FirstOccurrence(value, s[i]) <= FirstOccurrence(value, s[j])
  }

  /** Insert `c` before the first element whose key is not smaller. */
  function InsertByOccurrence(value: string, c: Correction, s: seq<Correction>): seq<Correction> {
    if s == [] || FirstOccurrence(value, s[0]) >= FirstOccurrence(value, c) then [c] + s
    else [s[0]] + InsertByOccurrence(value, c, s[1..])
  }

  /** `[...corrections].sort((a, b) => indexOf(a) - indexOf(b))`; the built-in
      sort is stable, so this is a stable sort by key. */
  function SortByFirstOccurrence(value: string, cs: seq<Correction>): seq<Correction> {
    if cs == [] then [] else InsertByOccurrence(value, cs[0], SortByFirstOccurrence(value, cs[1..]))
  }

  /** The corrections of `s` whose key is `k`, in order. */
  function WithOccurrence(value: string, s: seq<Correction>, k: int): seq<Correction> {
    if s == [] then []
    else (if FirstOccurrence(value, s[0]) == k then [s[0]] else []) + WithOccurrence(value, s[1..], k)
  }

  lemma {:induction false} InsertKeepsOrder(value: string, c: Correction, s: seq<Correction>)
    requires SortedByFirstOccurrence(value, s)
    ensures SortedByFirstOccurrence(value, InsertByOccurrence(value, c, s))
  {
    if s == [] || FirstOccurrence(value, s[0]) >= FirstOccurrence(value, c) {
      SortedCons(value, c, s);
    } else {
      SortedTail(value, s);
      InsertKeepsOrder(value, c, s[1..]);
      InsertLowerBound(value, c, s[1..], FirstOccurrence(value, s[0]));
      SortedCons(value, s[0], InsertByOccurrence(value, c, s[1..]));
    }
  }

  lemma SortedTail(value: string, s: seq<Correction>)
    requires s != [] && SortedByFirstOccurrence(value, s)
    ensures SortedByFirstOccurrence(value, s[1..])
    ensures forall i :: 0 <= i < |s[1..]| ==> FirstOccurrence(value, s[0]) <= FirstOccurrence(value, s[1..][i])
  {
    forall i, j | 0 <= i < j < |s[1..]| ensures FirstOccurrence(value, s[1..][i]) <= FirstOccurrence(value, s[1..][j]) {
      assert s[1..][i] == s[i + 1] && s[1..][j] == s[j + 1];
    }
  }

  /** A key at or below every key of a sorted list can go in front of it. */
  lemma SortedCons(value: string, x: Correction, t: seq<Correction>)
    requires SortedByFirstOccurrence(value, t)
    requires t == [] || FirstOccurrence(value, x) <= FirstOccurrence(value, t[0])
    ensures SortedByFirstOccurrence(value, [x] + t)
  {
    var r := [x] + t;
    forall i, j | 0 <= i < j < |r| ensures FirstOccurrence(value, r[i]) <= FirstOccurrence(value, r[j]) {
      assert r[j] == t[j - 1];
      if i > 0 {
        assert r[i] == t[i - 1];
      } else if j > 1 {
        assert FirstOccurrence(value, t[0]) <= FirstOccurrence(value, t[j - 1]);
      }
    }
  }

  lemma {:induction false} InsertPermutes(value: string, c: Correction, s: seq<Correction>)
    ensures multiset(InsertByOccurrence(value, c, s)) == multiset(s) + multiset{c}
  {
    if s == [] || FirstOccurrence(value, s[0]) >= FirstOccurrence(value, c) {
      assert multiset([c] + s) == multiset{c} + multiset(s);
    } else {
      InsertPermutes(value, c, s[1..]);
      var t := InsertByOccurrence(value, c, s[1..]);
      assert s == [s[0]] + s[1..];
      assert multiset([s[0]] + t) == multiset{s[0]} + multiset(t);
    }
  }

  /** A bound below every key of `s` and of `c` stays below every key after insertion. */
  lemma {:induction false} InsertLowerBound(value: string, c: Correction, s: seq<Correction>, b: int)
    requires forall i :: 0 <= i < |s| ==> b <= FirstOccurrence(value, s[i])
    requires b <= FirstOccurrence(value, c)
    ensures forall i :: 0 <= i < |InsertByOccurrence(value, c, s)| ==>
              b <= FirstOccurrence(value, InsertByOccurrence(value, c, s)[i])
  {
    if s != [] && FirstOccurrence(value, s[0]) < FirstOccurrence(value, c) {
      InsertLowerBound(value, c, s[1..], b);
    }
  }

  lemma {:induction false} InsertWithOccurrence(value: string, c: Correction, s: seq<Correction>, k: int)
    ensures WithOccurrence(value, InsertByOccurrence(value, c, s), k)
         == (if FirstOccurrence(value, c) == k then [c] else []) + WithOccurrence(value, s, k)
  {
    if s == [] || FirstOccurrence(value, s[0]) >= FirstOccurrence(value, c) {
      assert ([c] + s)[1..] == s;
    } else {
      InsertWithOccurrence(value, c, s[1..], k);
      assert ([s[0]] + InsertByOccurrence(value, c, s[1..]))[1..] == InsertByOccurrence(value, c, s[1..]);
    }
  }

  /** The sorted list is ordered by first occurrence (absent phrases, key -1,
      come first) and is a permutation of the input. */
  lemma SortOrdersAndPermutes(value: string, cs: seq<Correction>)
    ensures SortedByFirstOccurrence(value, SortByFirstOccurrence(value, cs))
    ensures multiset(SortByFirstOccurrence(value, cs)) == multiset(cs)
    ensures |SortByFirstOccurrence(value, cs)| == |cs|
  {
    SortOrders(value, cs);
    SortPermutes(value, cs);
    assert |multiset(SortByFirstOccurrence(value, cs))| == |multiset(cs)|;
  }

  lemma {:induction false} SortOrders(value: string, cs: seq<Correction>)
    ensures SortedByFirstOccurrence(value, SortByFirstOccurrence(value, cs))
  {
    if cs != [] {
      SortOrders(value, cs[1..]);
      InsertKeepsOrder(value, cs[0], SortByFirstOccurrence(value, cs[1..]));
    }
  }

  lemma {:induction false} SortPermutes(value: string, cs: seq<Correction>)
    ensures multiset(SortByFirstOccurrence(value, cs)) == multiset(cs)
  {
    if cs != [] {
      SortPermutes(value, cs[1..]);
      InsertPermutes(value, cs[0], SortByFirstOccurrence(value, cs[1..]));
      assert cs == [cs[0]] + cs[1..];
    }
  }

  /** Stability: corrections with the same key keep their input order. */
  lemma {:induction false} SortIsStable(value: string, cs: seq<Correction>, k: int)
    ensures WithOccurrence(value, SortByFirstOccurrence(value, cs), k) == WithOccurrence(value, cs, k)
  {
    if cs != [] {
      SortIsStable(value, cs[1..], k);
      InsertWithOccurrence(value, cs[0], SortByFirstOccurrence(value, cs[1..]), k);
    }
  }

  // ---------------------------------------------------------------------------
  // The cursor scan

  /** The pieces the `forEach` pushes for the corrections `cs` when the cursor
      stands at `cursor`, followed by the trailing slice. */
  function Scan(value: string, cs: seq<Correction>, cursor: nat): seq<Piece>
    requires cursor <= |value|
    decreases |cs|
  {
    if cs == [] then [Plain(value[cursor..])]
    else Emitted(value, cs[0], cursor) + Scan(value, cs[1..], Advanced(value, cs[0], cursor))
  }

  /** What the `forEach` pushes for one correction `c` with the cursor at
      `cursor`: the slice up to the phrase's next occurrence and the match,
      or nothing when the phrase does not occur from the cursor on. */
  function Emitted(value: string, c: Correction, cursor: nat): seq<Piece>
    requires cursor <= |value|
  {
    var index := IndexOf(value, c.original, cursor);
    if index == -1 then [] else [Plain(value[cursor..index]), Annotated(c)]
  }

  /** Where the cursor stands after `c`: just past the match, or where it was. */
  function Advanced(value: string, c: Correction, cursor: nat): (next: nat)
    requires cursor <= |value|
    ensures cursor <= next <= |value|
  {
    var index := IndexOf(value, c.original, cursor);
    if index == -1 then cursor else index + |c.original|
  }

  /** One correction emits nothing, or a plain slice followed by its own match. */
  lemma EmittedShape(value: string, c: Correction, cursor: nat)
    requires cursor <= |value|
    ensures var e := Emitted(value, c, cursor);
            e == [] || (|e| == 2 && e[0].Plain? && e[1] == Annotated(c))
  {
  }

  /** What one correction emits, read in order, is the text it moves the
      cursor over. */
  lemma EmittedRender(value: string, c: Correction, cursor: nat)
    requires cursor <= |value|
    ensures Render(Emitted(value, c, cursor)) + value[Advanced(value, c, cursor)..] == value[cursor..]
  {
    var index := IndexOf(value, c.original, cursor);
    if index != -1 {
      RenderMatch(value[cursor..index], c);
      IndexOfIsFirst(value, c.original, cursor);
      SplitAtOccurrence(value, c.original, cursor, index);
    } else {
      assert Render([]) == [];
    }
  }

  lemma RenderAppend(a: seq<Piece>, b: seq<Piece>)
    ensures Render(a + b) == Render(a) + Render(b)
  {
    if a != [] {
      assert (a + b)[1..] == a[1..] + b;
      RenderAppend(a[1..], b);
    } else {
      assert a + b == b;
    }
  }

  /** The pieces of a scan, read in order, are exactly the rest of the text. */
  lemma {:induction false} ScanReproducesText(value: string, cs: seq<Correction>, cursor: nat)
    requires cursor <= |value|
    ensures Render(Scan(value, cs, cursor)) == value[cursor..]
    decreases |cs|
  {
    if cs == [] {
      assert Render([Plain(value[cursor..])]) == value[cursor..] + Render([]);
    } else {
      var next := Advanced(value, cs[0], cursor);
      ScanReproducesText(value, cs[1..], next);
      RenderAppend(Emitted(value, cs[0], cursor), Scan(value, cs[1..], next));
      EmittedRender(value, cs[0], cursor);
    }
  }

  /** A plain slice followed by a match renders as the slice and the phrase. */
  lemma RenderMatch(before: string, c: Correction)
    ensures Render([Plain(before), Annotated(c)]) == before + c.original
  {
    assert [Plain(before), Annotated(c)][1..] == [Annotated(c)];
    assert Render([Annotated(c)]) == c.original + Render([]);
  }

  /** The text from the cursor is the part before an occurrence, the
      occurrence and the rest. */
  lemma SplitAtOccurrence(value: string, sub: string, cursor: nat, index: int)
    requires cursor <= index && OccursAt(value, sub, index)
    ensures value[cursor..] == value[cursor..index] + sub + value[index + |sub|..]
  {
    OccursAtSlice(value, sub, index);
    assert value[cursor..] == value[cursor..index] + value[index..index + |sub|] + value[index + |sub|..];
  }

  /** Plain slices at the even positions, annotated matches at the odd ones. */
  predicate Alternates(parts: seq<Piece>) {
    forall i :: 0 <= i < |parts| ==> (parts[i].Plain? <==> i % 2 == 0)
  }

  lemma AlternatesPrepend(e: seq<Piece>, rest: seq<Piece>)
    requires e == [] || (|e| == 2 && e[0].Plain? && e[1].Annotated?)
    requires Alternates(rest)
    ensures Alternates(e + rest)
  {
    var all := e + rest;
    forall i | |e| <= i < |all| ensures (all[i].Plain? <==> i % 2 == 0) {
      assert all[i] == rest[i - |e|];
    }
  }

  /** A scan emits an odd number of pieces, at most one annotated piece per
      correction besides the plain slices around them, alternating plain and
      annotated: it starts and ends with a plain slice. */
  lemma ScanShape(value: string, cs: seq<Correction>, cursor: nat)
    requires cursor <= |value|
    ensures |Scan(value, cs, cursor)| % 2 == 1
    ensures |Scan(value, cs, cursor)| <= 2 * |cs| + 1
    ensures Alternates(Scan(value, cs, cursor))
  {
    ScanOdd(value, cs, cursor);
    ScanAtMost(value, cs, cursor);
    ScanAlternates(value, cs, cursor);
  }

  lemma {:induction false} ScanOdd(value: string, cs: seq<Correction>, cursor: nat)
    requires cursor <= |value|
    ensures |Scan(value, cs, cursor)| % 2 == 1
    decreases |cs|
  {
    if cs != [] {
      EmittedShape(value, cs[0], cursor);
      ScanOdd(value, cs[1..], Advanced(value, cs[0], cursor));
    }
  }

  lemma {:induction false} ScanAtMost(value: string, cs: seq<Correction>, cursor: nat)
    requires cursor <= |value|
    ensures |Scan(value, cs, cursor)| <= 2 * |cs| + 1
    decreases |cs|
  {
    if cs != [] {
      EmittedShape(value, cs[0], cursor);
      ScanAtMost(value, cs[1..], Advanced(value, cs[0], cursor));
    }
  }

  lemma {:induction false} ScanAlternates(value: string, cs: seq<Correction>, cursor: nat)
    requires cursor <= |value|
    ensures Alternates(Scan(value, cs, cursor))
    decreases |cs|
  {
    if cs == [] {
      assert Scan(value, cs, cursor)[0].Plain?;
    } else {
      var next := Advanced(value, cs[0], cursor);
      EmittedShape(value, cs[0], cursor);
      ScanAlternates(value, cs[1..], next);
      AlternatesPrepend(Emitted(value, cs[0], cursor), Scan(value, cs[1..], next));
    }
  }

  /** The annotated pieces carry corrections of `cs`. */
  predicate AnnotatesFrom(parts: seq<Piece>, cs: seq<Correction>) {
    forall p :: p in parts && p.Annotated? ==> p.correction in cs
  }

  /** Every annotated piece comes from one of the corrections. */
  lemma {:induction false} ScanAnnotatesGivenCorrections(value: string, cs: seq<Correction>, cursor: nat)
    requires cursor <= |value|
    ensures AnnotatesFrom(Scan(value, cs, cursor), cs)
    decreases |cs|
  {
    if cs != [] {
      var next := Advanced(value, cs[0], cursor);
      EmittedShape(value, cs[0], cursor);
      ScanAnnotatesGivenCorrections(value, cs[1..], next);
      AnnotatesFromTail(Scan(value, cs[1..], next), cs);
      AnnotatesFromPrepend(Emitted(value, cs[0], cursor), Scan(value, cs[1..], next), cs);
    }
  }

  lemma AnnotatesFromTail(parts: seq<Piece>, cs: seq<Correction>)
    requires cs != [] && AnnotatesFrom(parts, cs[1..])
    ensures AnnotatesFrom(parts, cs)
  {
    forall c | c in cs[1..] ensures c in cs {
      var k :| 0 <= k < |cs[1..]| && cs[1..][k] == c;
      assert cs[k + 1] == c;
    }
  }

  lemma AnnotatesFromPrepend(e: seq<Piece>, rest: seq<Piece>, cs: seq<Correction>)
    requires cs != [] && AnnotatesFrom(rest, cs)
    requires e == [] || (|e| == 2 && e[0].Plain? && e[1] == Annotated(cs[0]))
    ensures AnnotatesFrom(e + rest, cs)
  {
    assert cs[0] in cs;
  }

  /** A correction whose phrase does not occur at or after the cursor emits
      nothing and leaves the cursor where it was. */
  lemma SkippedCorrection(value: string, c: Correction, cs: seq<Correction>, cursor: nat)
    requires cursor <= |value|
    requires forall i :: cursor <= i <= |value| ==> !OccursAt(value, c.original, i)
    ensures Scan(value, [c] + cs, cursor) == Scan(value, cs, cursor)
  {
    assert ([c] + cs)[1..] == cs;
  }

  /** Where the j-th piece starts in the rendered text. */
  function Offset(parts: seq<Piece>, j: nat): nat
    requires j <= |parts|
  {
    |Render(parts[..j])|
  }

  /** Each piece shows the slice of the rendered text at its offset; with
      `ScanReproducesText`, an annotated piece shows `value[index..index+|original|]`. */
  lemma {:induction false} PieceAtOffset(parts: seq<Piece>, j: nat)
    requires j < |parts|
    ensures Offset(parts, j) + |PieceText(parts[j])| <= |Render(parts)|
    ensures Render(parts)[Offset(parts, j)..Offset(parts, j) + |PieceText(parts[j])|] == PieceText(parts[j])
  {
    assert parts == parts[..j] + [parts[j]] + parts[j + 1..];
    RenderAppend(parts[..j] + [parts[j]], parts[j + 1..]);
    RenderAppend(parts[..j], [parts[j]]);
    assert Render([parts[j]]) == PieceText(parts[j]) + Render([]);
  }

  /** `highlightedText`: the text itself when there are no corrections,
      otherwise the scan of the corrections sorted by first occurrence; the
      `forEach` becomes the loop of `ScanSorted`. */
  method HighlightedText(value: string, results: Option<CheckGrammarOutput>)
    returns (h: Highlighted)
    ensures results.None? || results.value.corrections == [] ==> h == Whole(value)
    ensures results.Some? && results.value.corrections != [] ==>
              h == Pieces(Scan(value, SortByFirstOccurrence(value, results.value.corrections), 0))
    ensures RenderHighlighted(h) == value
    ensures h.Pieces? ==> |h.parts| % 2 == 1 && |h.parts| <= 2 * |results.value.corrections| + 1
    ensures h.Pieces? ==> Alternates(h.parts)
    ensures h.Pieces? ==> AnnotatesFrom(h.parts, results.value.corrections)
  {
    if results.None? || |results.value.corrections| == 0 {
      return Whole(value);
    }
    var corrections := results.value.corrections;
    SortOrdersAndPermutes(value, corrections);
    var parts := ScanSorted(value, SortByFirstOccurrence(value, corrections));
    h := Pieces(parts);
    ScanFacts(value, corrections);
  }

  /** The `forEach` of `highlightedText` over already sorted corrections:
      `parts` grows by a plain slice and an annotated match for each phrase
      found at or after the cursor `lastIndex`, and the rest of the text
      closes it. `rest` holds the corrections not yet visited. */
  method ScanSorted(value: string, sorted: seq<Correction>) returns (parts: seq<Piece>)
    ensures parts == Scan(value, sorted, 0)
  {
    ghost var whole := Scan(value, sorted, 0);
    var lastIndex := 0;
    var rest := sorted;
    parts := [];
    while rest != []
      invariant 0 <= lastIndex <= |value|
      invariant parts + Scan(value, rest, lastIndex) == whole
      decreases |rest|
    {
      var correction := rest[0];
      var index := IndexOf(value, correction.original, lastIndex);
      if index == -1 {
        ScanSkip(value, rest, lastIndex, parts, whole);
      } else {
        ScanMatch(value, rest, lastIndex, index, parts, whole);
        parts := parts + [Plain(value[lastIndex..index]), Annotated(correction)];
        lastIndex := index + |correction.original|;
      }
      rest := rest[1..];
    }
    parts := parts + [Plain(value[lastIndex..])];
  }

  /** A correction whose phrase is not found from the cursor on emits nothing. */
  lemma ScanSkip(value: string, cs: seq<Correction>, cursor: nat, parts: seq<Piece>, whole: seq<Piece>)
    requires cs != [] && cursor <= |value| && IndexOf(value, cs[0].original, cursor) == -1
    requires parts + Scan(value, cs, cursor) == whole
    ensures parts + Scan(value, cs[1..], cursor) == whole
  {
    var rest := Scan(value, cs[1..], cursor);
    assert Emitted(value, cs[0], cursor) == [] && Advanced(value, cs[0], cursor) == cursor;
    assert Scan(value, cs, cursor) == [] + rest;
    assert [] + rest == rest;
  }

  /** A correction whose phrase is found at `index` emits the slice before it
      and the match, and moves the cursor past the match. */
  lemma ScanMatch(value: string, cs: seq<Correction>, cursor: nat, index: int, parts: seq<Piece>, whole: seq<Piece>)
    requires cs != [] && cursor <= |value| && index == IndexOf(value, cs[0].original, cursor) && index != -1
    requires parts + Scan(value, cs, cursor) == whole
    ensures cursor <= index && index + |cs[0].original| <= |value|
    ensures parts + [Plain(value[cursor..index]), Annotated(cs[0])]
            + Scan(value, cs[1..], index + |cs[0].original|) == whole
  {
    var found := Emitted(value, cs[0], cursor);
    var rest := Scan(value, cs[1..], index + |cs[0].original|);
    assert found == [Plain(value[cursor..index]), Annotated(cs[0])];
    assert parts + found + rest == parts + (found + rest);
  }
  /** What `HighlightedText` promises about the scan of the sorted corrections. */
  lemma ScanFacts(value: string, corrections: seq<Correction>)
    ensures var parts := Scan(value, SortByFirstOccurrence(value, corrections), 0);
            Render(parts) == value &&
            |parts| % 2 == 1 && |parts| <= 2 * |corrections| + 1 &&
            Alternates(parts) &&
            AnnotatesFrom(parts, corrections)
  {
    var sorted := SortByFirstOccurrence(value, corrections);
    SortPermutes(value, corrections);
    ScanReproducesText(value, sorted, 0);
    ScanShape(value, sorted, 0);
    ScanAnnotatesGivenCorrections(value, sorted, 0);
    forall p | p in Scan(value, sorted, 0) && p.Annotated? ensures p.correction in corrections {
      assert p.correction in multiset(sorted);
    }
  }

  /** The worked example: "Teh cat sat." with one correction of "Teh". */
  lemma {:induction false} TehCatSat()
    ensures Scan("Teh cat sat.", [Correction("Teh", "The", "spelling")], 0)
         == [Plain(""), Annotated(Correction("Teh", "The", "spelling")), Plain(" cat sat.")]
  {
    assert OccursAt("Teh cat sat.", "Teh", 0);
  }
}

=== FILE: post_card.dfy ===
/** `PostCard` (`components/post-card.tsx`): the optimistic like/dislike
    counters with the visitor's single vote, the truncated preview of the
    content, and the bookmark flag. The requests to the server and the toasts
    are outputs that are not modelled beyond "was a request sent". */
module PostCard {
  import opened Types
  import SavedPosts

  const MAX_CONTENT_LENGTH := 200
  const ELLIPSIS := "..."

  datatype Vote = NoVote | Liked | Disliked

  /** The card's `interactions` state. */
  datatype Interactions = Interactions(likes: int, dislikes: int, userVote: Vote)

  /** The state the card starts from: the post's own counters, no vote. */
  function InitialInteractions(post: Post): (r: Interactions)
    ensures r.likes == post.likes && r.dislikes == post.dislikes && r.userVote == NoVote
  {
    Interactions(post.likes, post.dislikes, NoVote)
  }

  /** A like click by a signed-in visitor: ignored when the vote already is a
      like; otherwise one more like, one dislike fewer when the vote was a
      dislike, and the vote becomes a like. */
  function AfterLike(s: Interactions): (r: Interactions)
    ensures r.userVote == Liked
    ensures s.userVote == Liked ==> r == s
    ensures s.userVote != Liked ==> r.likes == s.likes + 1
    ensures r.dislikes == (if s.userVote == Disliked then s.dislikes - 1 else s.dislikes)
  {
    if s.userVote == Liked then s
    else Interactions(s.likes + 1, if s.userVote == Disliked then s.dislikes - 1 else s.dislikes, Liked)
  }

  /** The mirror image of `AfterLike`. */
  function AfterDislike(s: Interactions): (r: Interactions)
    ensures r.userVote == Disliked
    ensures s.userVote == Disliked ==> r == s
    ensures s.userVote != Disliked ==> r.dislikes == s.dislikes + 1
    ensures r.likes == (if s.userVote == Liked then s.likes - 1 else s.likes)
  {
    if s.userVote == Disliked then s
    else Interactions(if s.userVote == Liked then s.likes - 1 else s.likes, s.dislikes + 1, Disliked)
  }

  /** The counters on screen are the post's counters plus the visitor's one vote. */
  predicate Balanced(post: Post, s: Interactions) {
    s.likes == post.likes + (if s.userVote == Liked then 1 else 0) &&
    s.dislikes == post.dislikes + (if s.userVote == Disliked then 1 else 0)
  }

  datatype Click = LikeClick | DislikeClick

  /** The state after a sequence of clicks by a signed-in visitor. */
  function Replay(s: Interactions, clicks: seq<Click>): Interactions
    decreases clicks
  {
    if clicks == [] then s
    else Replay(if clicks[0] == LikeClick then AfterLike(s) else AfterDislike(s), clicks[1..])
  }

  /** Both clicks keep the counters balanced. */
  lemma ClicksKeepBalance(post: Post, s: Interactions)
    requires Balanced(post, s)
    ensures Balanced(post, AfterLike(s)) && Balanced(post, AfterDislike(s))
  {
  }

  /** Whatever the clicks, the counters differ from the post's by the final
      vote only: at most one like and one dislike are ever added, never both. */
  lemma {:induction false} ReplayBalanced(post: Post, s: Interactions, clicks: seq<Click>)
    requires Balanced(post, s)
    ensures Balanced(post, Replay(s, clicks))
    ensures clicks != [] ==> Replay(s, clicks).userVote == (if clicks[|clicks| - 1] == LikeClick then Liked else Disliked)
    decreases clicks
  {
    if clicks != [] {
      var next := if clicks[0] == LikeClick then AfterLike(s) else AfterDislike(s);
      ClicksKeepBalance(post, s);
      ReplayBalanced(post, next, clicks[1..]);
      if |clicks| > 1 {
        assert clicks[1..][|clicks[1..]| - 1] == clicks[|clicks| - 1];
      }
    }
  }

  /** Starting from a fresh card the counters are never below the post's and
      exceed them by at most one in total. */
  lemma FreshCardBounds(post: Post, clicks: seq<Click>)
    ensures var r := Replay(InitialInteractions(post), clicks);
            post.likes <= r.likes <= post.likes + 1 && post.dislikes <= r.dislikes <= post.dislikes + 1 &&
            r.likes + r.dislikes <= post.likes + post.dislikes + 1
  {
    ReplayBalanced(post, InitialInteractions(post), clicks);
  }

  /** `displayContent`: content longer than 200 is cut to its first 200
      characters and `...` is added, unless the card is expanded. */
  function DisplayContent(content: string, isExpanded: bool): (r: string)
    ensures |content| <= MAX_CONTENT_LENGTH || isExpanded ==> r == content
    ensures |content| > MAX_CONTENT_LENGTH && !isExpanded ==>
              |r| == MAX_CONTENT_LENGTH + |ELLIPSIS| && r[..MAX_CONTENT_LENGTH] == content[..MAX_CONTENT_LENGTH] &&
              r[MAX_CONTENT_LENGTH..] == ELLIPSIS
  {
    if |content| > MAX_CONTENT_LENGTH && !isExpanded then content[..MAX_CONTENT_LENGTH] + ELLIPSIS else content
  }

  /** The preview never exceeds 203 characters, and expanding shows everything. */
  lemma DisplayContentBounds(content: string)
    ensures |DisplayContent(content, false)| <= MAX_CONTENT_LENGTH + |ELLIPSIS|
    ensures DisplayContent(content, true) == content
  {
  }

  /** `isSaved = savedPostIds.includes(post.id)`; a bookmark click flips it. */
  lemma SaveToggleFlips(savedPostIds: seq<string>, post: Post)
    ensures (post.id in SavedPosts.Toggled(savedPostIds, post.id)) <==> post.id !in savedPostIds
  {
  }

  /** What a click did. */
  datatype ClickOutcome = RedirectedToLogin | Ignored | Sent

  class PostCardState {
    const post: Post
    var interactions: Interactions
    var isExpanded: bool

    constructor (post: Post)
      ensures this.post == post && interactions == InitialInteractions(post) && !isExpanded
    {
      this.post := post;
      interactions := InitialInteractions(post);
      isExpanded := false;
    }

    /** `handleLike`: a visitor who is not signed in is sent to the login
        page; a repeated like does nothing; otherwise `likePost` is sent and
        the counters move. */
    method HandleLike(isAuthenticated: bool) returns (outcome: ClickOutcome)
      modifies this
      ensures !isAuthenticated ==> outcome == RedirectedToLogin && interactions == old(interactions)
      ensures isAuthenticated && old(interactions).userVote == Liked ==> outcome == Ignored && interactions == old(interactions)
      ensures isAuthenticated && old(interactions).userVote != Liked ==> outcome == Sent && interactions == AfterLike(old(interactions))
      ensures isExpanded == old(isExpanded)
    {
      if !isAuthenticated {
        return RedirectedToLogin;
      }
      if interactions.userVote == Liked {
        return Ignored;
      }
      interactions := AfterLike(interactions);
      outcome := Sent;
    }

    /** `handleDislike`: the mirror image of `HandleLike`. */
    method HandleDislike(isAuthenticated: bool) returns (outcome: ClickOutcome)
      modifies this
      ensures !isAuthenticated ==> outcome == RedirectedToLogin && interactions == old(interactions)
      ensures isAuthenticated && old(interactions).userVote == Disliked ==> outcome == Ignored && interactions == old(interactions)
      ensures isAuthenticated && old(interactions).userVote != Disliked ==> outcome == Sent && interactions == AfterDislike(old(interactions))
      ensures isExpanded == old(isExpanded)
    {
      if !isAuthenticated {
        return RedirectedToLogin;
      }
      if interactions.userVote == Disliked {
        return Ignored;
      }
      interactions := AfterDislike(interactions);
      outcome := Sent;
    }

    /** The "Read more" / "Show less" button. */
    method ToggleExpanded()
      modifies this
      ensures isExpanded == !old(isExpanded) && interactions == old(interactions)
    {
      isExpanded := !isExpanded;
    }

    /** The text the card shows now. */
    function Shown(): (r: string)
      reads this
      ensures r == DisplayContent(post.content, isExpanded)
      ensures |r| <= |post.content| + |ELLIPSIS|
      ensures isExpanded ==> r == post.content
    {
      DisplayContent(post.content, isExpanded)
    }
  }
}

=== FILE: post_controller.dfy ===
/** `PostController` (`web/PostController.java`): the `/api/posts` endpoints.
    Each handler returns the HTTP status it answers with and its body. A JSON
    object received as `Map<String, String>` is a map whose values may be
    `null`. Logging is left out. */
module PostController {
  import opened Common
  import opened Repository
  import opened PostService

  const OK := 200
  const CREATED := 201
  const NO_CONTENT := 204
  const BAD_REQUEST := 400
  const NOT_FOUND := 404
  const INTERNAL_SERVER_ERROR := 500

  const PENDING := "pending"
  const ANONYMOUS := "Anonymous"
  const CONTENT_REQUIRED := "content required"

  /** A JSON request body read as `Map<String, String>`. */
  type JsonObject = map<string, Option<string>>

  /** `body.get(key)`: `null` for a missing key and for a `null` value. */
  function BodyGet(body: JsonObject, key: string): (r: Option<string>)
    ensures key !in body ==> r.None?
    ensures key in body ==> r == body[key]
  {
    if key in body then body[key] else None
  }

  /** `body.getOrDefault(key, d)`: the default only for a missing key; a key
      present with a `null` value gives `null`. */
  function BodyGetOrDefault(body: JsonObject, key: string, d: string): (r: Option<string>)
    ensures key !in body ==> r == Some(d)
    ensures key in body ==> r == body[key]
  {
    if key in body then body[key] else Some(d)
  }

  /** The request body of `create`: the fields of the post DTO it reads. */
  datatype PostRequest = PostRequest(
    title: Option<string>,
    content: Option<string>,
    author: Option<AuthorDto>,
    topic: Option<string>,
    imageUrl: Option<string>,
    status: Option<string>)

  /** The status `list` filters by: "approved" when none or an empty one is given. */
  function EffectiveStatus(status: Option<string>): (r: string)
    ensures status.None? || status.value == "" ==> r == DEFAULT_STATUS
    ensures status.Some? && status.value != "" ==> r == status.value
  {
    if status.None? || status.value == "" then DEFAULT_STATUS else status.value
  }

  /** `q` selects the title search when it is given and not empty. */
  predicate Searches(q: Option<string>) {
    q.Some? && q.value != ""
  }

  /** Whether `list(q, status)` returns a stored post. */
  predicate Listed(p: PostEntity, q: Option<string>, status: Option<string>) {
    p.status == Some(EffectiveStatus(status)) && (Searches(q) ==> TitleMatches(p, q.value))
  }

  /** The post `create` stores: a fresh entity with the request's fields; the
      status defaults to "pending", and without an author object the author
      name is "Anonymous" and the other author columns stay null. */
  function CreatedEntity(req: PostRequest, now: string): (e: PostEntity)
    ensures e.status == Some(req.status.GetOr(PENDING))
    ensures req.author.None? ==> e.authorName == Some(ANONYMOUS) && e.authorEmail.None? && e.authorAvatarUrl.None?
    ensures req.author.Some? ==>
              e.authorName == req.author.value.name && e.authorEmail == req.author.value.email &&
              e.authorAvatarUrl == req.author.value.avatarUrl
    ensures e.title == req.title && e.content == req.content && e.topic == req.topic && e.imageUrl == req.imageUrl
    ensures e.likes == Some(0) && e.dislikes == Some(0) && e.createdAt == now
  {
    var p := NewPost(now).(title := req.title, content := req.content);
    var p := if req.author.Some? then
               p.(authorName := req.author.value.name, authorEmail := req.author.value.email,
                  authorAvatarUrl := req.author.value.avatarUrl)
             else p.(authorName := Some(ANONYMOUS));
    p.(topic := req.topic, imageUrl := req.imageUrl, status := Some(if req.status.Some? then req.status.value else PENDING))
  }

  /** A post created without a status waits for moderation: the public feed
      (no status filter) does not list it, the "pending" filter does. */
  lemma UnmoderatedPostHidden(req: PostRequest, now: string, q: Option<string>)
    requires req.status.None?
    ensures !Listed(CreatedEntity(req, now), q, None)
    ensures !Searches(q) ==> Listed(CreatedEntity(req, now), q, Some(PENDING))
  {
  }

  /** `updateStatus` accepts exactly these two values. */
  predicate IsKnownStatus(s: Option<string>) {
    s == Some(DEFAULT_STATUS) || s == Some(PENDING)
  }

  /** The counter after a like or dislike: `null` becomes 1, anything else
      grows by one as a Java `int`. */
  function Bumped(n: Option<int32>): (r: int32)
    ensures n.None? ==> r == 1
    ensures n.Some? && n.value < INT32_MAX as int32 ==> r as int == n.value as int + 1
    ensures n == Some(INT32_MAX as int32) ==> r == INT32_MIN as int32
  {
    if n.None? then 1 else Int32Inc(n.value)
  }

  /** Below the largest `int`, a vote shows one more than before, where a
      `null` counter was shown as 0. */
  lemma BumpedShowsOneMore(n: Option<int32>)
    requires n.None? || n.value < INT32_MAX as int32
    ensures Bumped(n) as int == CountOrZero(n) as int + 1
  {
  }

  /** The body of an `addComment` answer. */
  datatype CommentReply = CommentCreated(dto: CommentDto) | Message(text: string) | NoBody

  class PostController {
    const svc: PostService

    constructor (svc: PostService)
      ensures this.svc == svc
    {
      this.svc := svc;
    }

    /** The rows `list(q, status)` returns: the search or all posts, kept
        when their status equals the effective filter, in id order. */
    function ListedRows(q: Option<string>, status: Option<string>): (r: seq<Row<PostEntity>>)
      requires svc.Valid()
      reads this, svc, svc.posts, svc.comments
      ensures forall row :: row in r <==>
                row.id in svc.posts.rows && svc.posts.rows[row.id] == row.value && Listed(row.value, q, status)
      ensures forall i, j | 0 <= i < j < |r| :: r[i].id < r[j].id
    {
      var all := svc.posts.FindAll();
      var source := if Searches(q) then svc.Search(q.value) else svc.ListAll();
      assert IsSubseq(source, all) by {
        if !Searches(q) {
          SubseqRefl(all);
        }
      }
      SubseqKeepsAscending(source, all);
      var filterStatus := EffectiveStatus(status);
      var keep := (row: Row<PostEntity>) => Some(filterStatus) == row.value.status;
      FilterIsSubseq(source, keep);
      var r := Filter(source, keep);
      SubseqKeepsAscending(r, source);
      r
    }

    /** `list(q, status, userId)`: the DTOs of the listed rows; `userId` is
        not used. */
    function List(q: Option<string>, status: Option<string>): (r: seq<PostDto>)
      requires svc.Valid()
      reads this, svc, svc.posts, svc.comments
      ensures |r| == |ListedRows(q, status)|
      ensures forall i | 0 <= i < |r| :: r[i] == svc.ToPostDto(ListedRows(q, status)[i])
      ensures forall d | d in r :: d.status == Some(EffectiveStatus(status))
    {
      var rows := ListedRows(q, status);
      var r := svc.ToPostDtos(rows);
      assert forall d | d in r :: d.status == Some(EffectiveStatus(status)) by {
        forall d | d in r ensures d.status == Some(EffectiveStatus(status)) {
          var i :| 0 <= i < |r| && r[i] == d;
          assert rows[i] in rows;
        }
      }
      r
    }

    /** `create(dto)`: stores `CreatedEntity(req, now)` under a new id and
        answers 201 with its DTO, which has no comments yet. Without a title
        the insert breaks the NOT NULL column: nothing is stored and, with no
        handler for the exception, the answer is 500 without a post. */
    method Create(req: PostRequest, now: string) returns (status: int, body: Option<PostDto>)
      requires svc.Valid()
      modifies svc.posts
      ensures svc.Valid()
      ensures req.title.None? ==> status == INTERNAL_SERVER_ERROR && body.None? && svc.posts.rows == old(svc.posts.rows)
      ensures req.title.Some? ==>
                status == CREATED && body.Some? && IsDigits(body.value.id) &&
                ParseNat(body.value.id) !in old(svc.posts.rows) &&
                svc.posts.rows == old(svc.posts.rows)[ParseNat(body.value.id) := CreatedEntity(req, now)] &&
                body.value == svc.ToPostDto(Row(ParseNat(body.value.id), CreatedEntity(req, now))) &&
                body.value.comments == []
      ensures svc.comments.rows == old(svc.comments.rows)
    {
      NewPostHasNoComments(svc, svc.posts.nextId);
      var id := svc.Create(None, CreatedEntity(req, now));
      if id.None? {
        return INTERNAL_SERVER_ERROR, None;
      }
      body := Some(svc.ToPostDto(Row(id.value, CreatedEntity(req, now))));
      status := CREATED;
    }

    /** `updateStatus(id, body)`: a status other than "approved" or "pending"
        is refused with 400 before the post is looked up; an unknown id gives
        404; otherwise only that post's status changes and 200 carries its DTO. */
    method UpdateStatus(id: nat, body: JsonObject) returns (status: int, dto: Option<PostDto>)
      requires svc.Valid()
      modifies svc.posts
      ensures svc.Valid()
      ensures var s := BodyGet(body, "status");
              if !IsKnownStatus(s) then
                status == BAD_REQUEST && dto.None? && svc.posts.rows == old(svc.posts.rows)
              else if id !in old(svc.posts.rows) then
                status == NOT_FOUND && dto.None? && svc.posts.rows == old(svc.posts.rows)
              else
                status == OK && svc.posts.rows == old(svc.posts.rows)[id := old(svc.posts.rows)[id].(status := s)] &&
                dto == Some(svc.ToPostDto(Row(id, svc.posts.rows[id])))
      ensures svc.comments.rows == old(svc.comments.rows)
    {
      var s := BodyGet(body, "status");
      if s.None? || (s.value != DEFAULT_STATUS && s.value != PENDING) {
        return BAD_REQUEST, None;
      }
      var updated := svc.UpdateStatus(id, s);
      if updated.None? {
        return NOT_FOUND, None;
      }
      status, dto := OK, Some(svc.ToPostDto(updated.value));
    }

    /** `like(id)`: 404 for an unknown id; otherwise the likes counter is
        bumped, nothing else changes, and 200 carries the DTO. */
    method Like(id: nat) returns (status: int, dto: Option<PostDto>)
      requires svc.Valid()
      modifies svc.posts
      ensures svc.Valid()
      ensures id !in old(svc.posts.rows) ==> status == NOT_FOUND && dto.None? && svc.posts.rows == old(svc.posts.rows)
      ensures id in old(svc.posts.rows) ==>
                var before := old(svc.posts.rows)[id];
                status == OK && svc.posts.rows == old(svc.posts.rows)[id := before.(likes := Some(Bumped(before.likes)))] &&
                dto == Some(svc.ToPostDto(Row(id, svc.posts.rows[id])))
      ensures svc.comments.rows == old(svc.comments.rows)
    {
      var found := svc.Get(id);
      if found.None? {
        return NOT_FOUND, None;
      }
      var post := found.value.(likes := Some(Bumped(found.value.likes)));
      var saved := svc.Create(Some(id), post);
      status, dto := OK, Some(svc.ToPostDto(Row(saved.value, post)));
    }

    /** `dislike(id)`: the mirror image of `Like` on the dislikes counter. */
    method Dislike(id: nat) returns (status: int, dto: Option<PostDto>)
      requires svc.Valid()
      modifies svc.posts
      ensures svc.Valid()
      ensures id !in old(svc.posts.rows) ==> status == NOT_FOUND && dto.None? && svc.posts.rows == old(svc.posts.rows)
      ensures id in old(svc.posts.rows) ==>
                var before := old(svc.posts.rows)[id];
                status == OK && svc.posts.rows == old(svc.posts.rows)[id := before.(dislikes := Some(Bumped(before.dislikes)))] &&
                dto == Some(svc.ToPostDto(Row(id, svc.posts.rows[id])))
      ensures svc.comments.rows == old(svc.comments.rows)
    {
      var found := svc.Get(id);
      if found.None? {
        return NOT_FOUND, None;
      }
      var post := found.value.(dislikes := Some(Bumped(found.value.dislikes)));
      var saved := svc.Create(Some(id), post);
      status, dto := OK, Some(svc.ToPostDto(Row(saved.value, post)));
    }

    /** `addComment(id, body)`: a missing, `null` or empty content is refused
        with 400 "content required" before the post is looked up; an unknown
        post gives 404; otherwise a comment is stored with the author name
        (default "Anonymous") and email (default "") and 201 carries its DTO. */
    method AddComment(id: nat, body: JsonObject, now: string) returns (status: int, reply: CommentReply)
      requires svc.Valid()
      modifies svc.comments
      ensures svc.Valid()
      ensures var content := BodyGet(body, "content");
              if content.None? || content.value == "" then
                status == BAD_REQUEST && reply == Message(CONTENT_REQUIRED) && svc.comments.rows == old(svc.comments.rows)
              else if id !in svc.posts.rows then
                status == NOT_FOUND && reply == NoBody && svc.comments.rows == old(svc.comments.rows)
              else
                status == CREATED && reply.CommentCreated? && IsDigits(reply.dto.id) &&
                var e := CommentEntity(id, BodyGetOrDefault(body, "authorName", ANONYMOUS),
                                       BodyGetOrDefault(body, "authorEmail", ""), content, now);
                var commentId := ParseNat(reply.dto.id);
                commentId !in old(svc.comments.rows) &&
                svc.comments.rows == old(svc.comments.rows)[commentId := e] &&
                reply.dto == ToCommentDto(Row(commentId, e))
      ensures svc.posts.rows == old(svc.posts.rows)
    {
      var content := BodyGet(body, "content");
      if content.None? || content.value == "" {
        return BAD_REQUEST, Message(CONTENT_REQUIRED);
      }
      var found := svc.Get(id);
      if found.None? {
        return NOT_FOUND, NoBody;
      }
      var created := svc.AddCommentToPost(id, BodyGetOrDefault(body, "authorName", ANONYMOUS),
                                          BodyGetOrDefault(body, "authorEmail", ""), content, now);
      status, reply := CREATED, CommentCreated(ToCommentDto(created));
    }

    /** `delete(id)`: 404 for an unknown id; otherwise the post is removed
        and the answer is 204. */
    method Delete(id: nat) returns (status: int)
      requires svc.Valid()
      modifies svc.posts
      ensures svc.Valid()
      ensures id !in old(svc.posts.rows) ==> status == NOT_FOUND && svc.posts.rows == old(svc.posts.rows)
      ensures id in old(svc.posts.rows) ==> status == NO_CONTENT && svc.posts.rows == old(svc.posts.rows) - {id}
      ensures svc.comments.rows == old(svc.comments.rows)
    {
      var found := svc.Get(id);
      if found.None? {
        return NOT_FOUND;
      }
      svc.Delete(id);
      status := NO_CONTENT;
    }
  }
}

=== FILE: post_feed.dfy ===
/** `PostFeed` (`components/post-feed.tsx`): the topic menu built from the
    loaded posts and the list shown for the selected topic and search term. */
module PostFeed {
  import opened Common
  import opened Types

  const ALL_TOPICS := "All Topics"

  function TopicOf(p: Post): string { p.topic }

  /** `[ALL_TOPICS, ...new Set(posts.map(p => p.topic))]`. */
  function Topics(posts: seq<Post>): seq<string> {
    [ALL_TOPICS] + Dedup(Map(posts, TopicOf))
  }

  /** The menu is the catch-all entry, then every topic of the feed once
      and nothing else. */
  lemma TopicsContents(posts: seq<Post>)
    ensures var r := Topics(posts);
            |r| >= 1 && r[0] == ALL_TOPICS && |r| <= |posts| + 1 && NoDuplicates(r[1..]) &&
            forall t :: t in r[1..] <==> exists p :: p in posts && p.topic == t
  {
    var topics := Map(posts, TopicOf);
    var distinct := Dedup(topics);
    DedupDistinct(topics);
    forall t | t in distinct ensures exists p :: p in posts && p.topic == t {
      var i :| 0 <= i < |topics| && topics[i] == t;
      assert posts[i] in posts;
    }
    forall p | p in posts ensures p.topic in distinct {
      var i :| 0 <= i < |posts| && posts[i] == p;
      assert topics[i] == p.topic;
    }
    assert Topics(posts)[1..] == distinct;
  }

  /** Topic entries appear in the order their first post appears. */
  lemma TopicsInFirstAppearanceOrder(posts: seq<Post>, i: nat, j: nat)
    requires 1 <= i < j < |Topics(posts)|
    ensures var topics := Map(posts, TopicOf);
            FirstIndex(topics, Topics(posts)[i]) < FirstIndex(topics, Topics(posts)[j])
  {
    MenuOrder(ALL_TOPICS, Map(posts, TopicOf), i, j);
  }

  /** The same, for a menu of any first entry followed by the distinct items. */
  lemma MenuOrder<T(!new)>(first: T, items: seq<T>, i: nat, j: nat)
    requires 1 <= i < j < |[first] + Dedup(items)|
    ensures var menu := [first] + Dedup(items);
            menu[i] in items && menu[j] in items &&
            FirstIndex(items, menu[i]) < FirstIndex(items, menu[j])
  {
    DedupFirstAppearanceOrder(items, i - 1, j - 1);
    assert ([first] + Dedup(items))[i] == Dedup(items)[i - 1];
    assert ([first] + Dedup(items))[j] == Dedup(items)[j - 1];
  }

  /** The first filter: the selected topic, or every post for `ALL_TOPICS`. */
  predicate MatchesTopic(post: Post, selectedTopic: string) {
    selectedTopic == ALL_TOPICS || post.topic == selectedTopic
  }

  /** The second filter: the term occurs in the title or in the content,
      both lower-cased. */
  predicate MatchesSearch(post: Post, searchTerm: string) {
    Contains(Lower(post.title), Lower(searchTerm)) || Contains(Lower(post.content), Lower(searchTerm))
  }

  /** Both filters at once: the single condition the feed applies. */
  predicate Shows(post: Post, searchTerm: string, selectedTopic: string) {
    MatchesTopic(post, selectedTopic) && MatchesSearch(post, searchTerm)
  }

  /** `filteredPosts`: the topic filter, then the search filter; the result is
      the feed restricted to the posts passing both, in feed order. */
  function FilteredPosts(posts: seq<Post>, searchTerm: string, selectedTopic: string): (r: seq<Post>)
    ensures forall p :: p in r <==> p in posts && Shows(p, searchTerm, selectedTopic)
    ensures IsSubseq(r, posts)
    ensures r == Filter(posts, p => Shows(p, searchTerm, selectedTopic))
  {
    var byTopic := p => MatchesTopic(p, selectedTopic);
    var bySearch := p => MatchesSearch(p, searchTerm);
    var both := p => Shows(p, searchTerm, selectedTopic);
    FilterFilter(posts, byTopic, bySearch, both);
    FilterIsSubseq(posts, both);
    Filter(Filter(posts, byTopic), bySearch)
  }

  /** With no term and the catch-all topic the whole feed is shown. */
  lemma UnfilteredFeedShowsAll(posts: seq<Post>)
    ensures FilteredPosts(posts, "", ALL_TOPICS) == posts
  {
    forall p | p in posts ensures Shows(p, "", ALL_TOPICS) {
      ContainsEmpty(Lower(p.title));
    }
    FilterAll(posts, p => Shows(p, "", ALL_TOPICS));
  }

  /** Search ignores ASCII case: a term and its lower-cased form select the same posts. */
  lemma SearchIgnoresCase(posts: seq<Post>, searchTerm: string, selectedTopic: string)
    ensures FilteredPosts(posts, searchTerm, selectedTopic) == FilteredPosts(posts, Lower(searchTerm), selectedTopic)
  {
    LowerIdempotent(searchTerm);
    FilterSame(posts, p => Shows(p, searchTerm, selectedTopic), p => Shows(p, Lower(searchTerm), selectedTopic));
  }

  lemma LowerIdempotent(s: string)
    ensures Lower(Lower(s)) == Lower(s)
  {
  }

  /** The feed's state: the fetched posts and the two controls. */
  class PostFeedState {
    var posts: seq<Post>
    var isLoading: bool
    var searchTerm: string
    var selectedTopic: string

    constructor ()
      ensures posts == [] && isLoading && searchTerm == "" && selectedTopic == ALL_TOPICS
    {
      posts := [];
      isLoading := true;
      searchTerm := "";
      selectedTopic := ALL_TOPICS;
    }

    /** The fetch effect resolved with `fetched`. */
    method OnPostsLoaded(fetched: seq<Post>)
      modifies this
      ensures posts == fetched && !isLoading
      ensures searchTerm == old(searchTerm) && selectedTopic == old(selectedTopic)
    {
      posts := fetched;
      isLoading := false;
    }

    method OnSearchChange(term: string)
      modifies this
      ensures searchTerm == term && posts == old(posts) && isLoading == old(isLoading) && selectedTopic == old(selectedTopic)
    {
      searchTerm := term;
    }

    method OnTopicSelect(topic: string)
      modifies this
      ensures selectedTopic == topic && posts == old(posts) && isLoading == old(isLoading) && searchTerm == old(searchTerm)
    {
      selectedTopic := topic;
    }

    /** What the feed lists: nothing while loading (a spinner), else the filtered posts. */
    function Shown(): (r: seq<Post>)
      reads this
      ensures isLoading ==> r == []
      ensures !isLoading ==> r == FilteredPosts(posts, searchTerm, selectedTopic)
      ensures forall p :: p in r ==> p in posts && MatchesTopic(p, selectedTopic) && MatchesSearch(p, searchTerm)
    {
      if isLoading then [] else FilteredPosts(posts, searchTerm, selectedTopic)
    }
  }
}

=== FILE: post_service.dfy ===
/** `PostService` (`service/PostService.java`) with the `Post` and `Comment`
    entities it stores and the response DTOs it builds. A Java reference that
    may be `null` is an `Option`; `Instant` values are kept as the text their
    `toString` gives, supplied by the caller as `now`. */
module PostService {
  import opened Common
  import opened Repository

  /** The `posts` table's columns other than the id. */
  datatype PostEntity = PostEntity(
    title: Option<string>,
    content: Option<string>,
    createdAt: string,
    likes: Option<int32>,
    dislikes: Option<int32>,
    authorName: Option<string>,
    authorEmail: Option<string>,
    authorAvatarUrl: Option<string>,
    topic: Option<string>,
    imageUrl: Option<string>,
    status: Option<string>)

  /** The `comments` table's columns other than the id; `postId` is the
      foreign key of the `post` association. */
  datatype CommentEntity = CommentEntity(
    postId: nat,
    authorName: Option<string>,
    authorEmail: Option<string>,
    content: Option<string>,
    createdAt: string)

  datatype AuthorDto = AuthorDto(name: Option<string>, avatarUrl: Option<string>, email: Option<string>)

  datatype CommentDto = CommentDto(id: string, author: AuthorDto, content: Option<string>, createdAt: string)

  datatype PostDto = PostDto(
    id: string,
    author: AuthorDto,
    topic: Option<string>,
    title: Option<string>,
    imageUrl: Option<string>,
    content: Option<string>,
    createdAt: string,
    status: Option<string>,
    likes: int32,
    dislikes: int32,
    comments: seq<CommentDto>)

  const DEFAULT_STATUS := "approved"

  /** `new Post()`: the field initialisers give zero counters, the status
      "approved" and the creation time; every other column is null. */
  function NewPost(now: string): (r: PostEntity)
    ensures r.likes == Some(0) && r.dislikes == Some(0) && r.status == Some(DEFAULT_STATUS)
    ensures r.createdAt == now && r.title.None? && r.authorName.None?
  {
    PostEntity(None, None, now, Some(0), Some(0), None, None, None, None, None, Some(DEFAULT_STATUS))
  }

  /** A Java `Integer` read as an `int` with `null` meaning 0. */
  function CountOrZero(n: Option<int32>): int32 {
    if n.Some? then n.value else 0
  }

  /** `toCommentDto`: the id as decimal text, the author without an avatar. */
  function ToCommentDto(row: Row<CommentEntity>): (r: CommentDto)
    ensures IsDigits(r.id) && ParseNat(r.id) == row.id
    ensures r.author.avatarUrl.None?
    ensures r.author.name == row.value.authorName && r.author.email == row.value.authorEmail
    ensures r.content == row.value.content && r.createdAt == row.value.createdAt
  {
    ParseNatToString(row.id);
    CommentDto(NatToString(row.id), AuthorDto(row.value.authorName, None, row.value.authorEmail),
               row.value.content, row.value.createdAt)
  }

  /** `toPostDto` given the post's comments: null counters read as 0, the
      author columns become the author object, and the other columns are copied. */
  function PostDtoOf(row: Row<PostEntity>, postComments: seq<Row<CommentEntity>>): (r: PostDto)
    ensures IsDigits(r.id) && ParseNat(r.id) == row.id
    ensures row.value.likes.None? ==> r.likes == 0
    ensures row.value.likes.Some? ==> r.likes == row.value.likes.value
    ensures row.value.dislikes.None? ==> r.dislikes == 0
    ensures row.value.dislikes.Some? ==> r.dislikes == row.value.dislikes.value
    ensures r.author == AuthorDto(row.value.authorName, row.value.authorAvatarUrl, row.value.authorEmail)
    ensures r.title == row.value.title && r.content == row.value.content && r.topic == row.value.topic
    ensures r.imageUrl == row.value.imageUrl && r.status == row.value.status && r.createdAt == row.value.createdAt
    ensures |r.comments| == |postComments|
    ensures forall i | 0 <= i < |postComments| :: r.comments[i] == ToCommentDto(postComments[i])
  {
    ParseNatToString(row.id);
    var p := row.value;
    PostDto(NatToString(row.id), AuthorDto(p.authorName, p.authorAvatarUrl, p.authorEmail), p.topic, p.title,
            p.imageUrl, p.content, p.createdAt, p.status, CountOrZero(p.likes), CountOrZero(p.dislikes),
            Map(postComments, ToCommentDto))
  }

  /** Distinct rows get distinct DTO ids. */
  lemma DtoIdsDistinct(a: Row<PostEntity>, b: Row<PostEntity>, ca: seq<Row<CommentEntity>>, cb: seq<Row<CommentEntity>>)
    requires a.id != b.id
    ensures PostDtoOf(a, ca).id != PostDtoOf(b, cb).id
  {
    if PostDtoOf(a, ca).id == PostDtoOf(b, cb).id {
      NatToStringInjective(a.id, b.id);
    }
  }

  /** `findByTitleContainingIgnoreCase(q)`: the title contains `q`, letters
      compared without case; a null title matches nothing. */
  predicate TitleMatches(p: PostEntity, q: string) {
    p.title.Some? && Contains(Lower(p.title.value), Lower(q))
  }

  /** The `posts` columns declared NOT NULL hold a value: the database
      refuses a row without a title, a likes or a dislikes count. */
  predicate Storable(p: PostEntity) {
    p.title.Some? && p.likes.Some? && p.dislikes.Some?
  }

  /** Every stored post satisfies the NOT NULL constraints. */
  predicate AllStorable(rows: map<nat, PostEntity>) {
    forall id | id in rows :: Storable(rows[id])
  }

  class PostService {
    const posts: Table<PostEntity>
    const comments: Table<CommentEntity>

    /** Both tables are consistent, every stored post meets the NOT NULL
        constraints, and every comment belongs to a post id already handed
        out (comments are only ever added to stored posts). */
    predicate Valid()
      reads this, posts, comments
    {
      posts.Valid() && comments.Valid() && AllStorable(posts.rows) &&
      forall id | id in comments.rows :: comments.rows[id].postId < posts.nextId
    }

    constructor (posts: Table<PostEntity>, comments: Table<CommentEntity>)
      requires posts.Valid() && comments.Valid() && AllStorable(posts.rows)
      requires forall id | id in comments.rows :: comments.rows[id].postId < posts.nextId
      ensures this.posts == posts && this.comments == comments && Valid()
    {
      this.posts := posts;
      this.comments := comments;
    }

    /** `create(p)`: `repo.save(p)`, also used to write back an updated post.
        A post that breaks a NOT NULL constraint is refused by the database
        (`None`, the exception) and nothing is stored. */
    method Create(id: Option<nat>, p: PostEntity) returns (savedId: Option<nat>)
      requires Valid()
      modifies posts
      ensures Valid()
      ensures savedId.None? <==> !Storable(p)
      ensures savedId.None? ==> posts.rows == old(posts.rows)
      ensures savedId.Some? ==> posts.rows == old(posts.rows)[savedId.value := p]
      ensures savedId.Some? && id.Some? && id.value in old(posts.rows) ==> savedId.value == id.value
      ensures savedId.Some? && !(id.Some? && id.value in old(posts.rows)) ==>
                savedId.value == old(posts.nextId) && savedId.value !in old(posts.rows)
      ensures comments.rows == old(comments.rows)
    {
      if !Storable(p) {
        return None;
      }
      var saved := posts.Save(id, p);
      savedId := Some(saved);
    }

    /** `get(id)`. */
    function Get(id: nat): (r: Option<PostEntity>)
      reads posts
      ensures r.Some? <==> id in posts.rows
      ensures r.Some? ==> r.value == posts.rows[id]
    {
      posts.FindById(id)
    }

    /** `search(q)`: the stored posts whose title matches, in id order. */
    function Search(q: string): (r: seq<Row<PostEntity>>)
      requires posts.Valid()
      reads posts
      ensures forall row :: row in r <==> row.id in posts.rows && posts.rows[row.id] == row.value && TitleMatches(row.value, q)
      ensures IsSubseq(r, posts.FindAll())
    {
      var all := posts.FindAll();
      FilterIsSubseq(all, (row: Row<PostEntity>) => TitleMatches(row.value, q));
      Filter(all, (row: Row<PostEntity>) => TitleMatches(row.value, q))
    }

    /** `listAll()`: every stored post once, in ascending id order. */
    function ListAll(): (r: seq<Row<PostEntity>>)
      requires posts.Valid()
      reads posts
      ensures forall row :: row in r <==> row.id in posts.rows && posts.rows[row.id] == row.value
      ensures forall i, j | 0 <= i < j < |r| :: r[i].id < r[j].id
    {
      posts.FindAll()
    }

    /** `commentRepo.findByPostId(postId)`: the comments stored for that
        post, in id order. */
    function CommentsFor(postId: nat): (r: seq<Row<CommentEntity>>)
      requires comments.Valid()
      reads comments
      ensures forall c :: c in r <==> c.id in comments.rows && comments.rows[c.id] == c.value && c.value.postId == postId
      ensures forall i, j | 0 <= i < j < |r| :: r[i].id < r[j].id
      ensures (forall id | id in comments.rows :: comments.rows[id].postId != postId) ==> r == []
    {
      var all := comments.FindAll();
      var keep := (c: Row<CommentEntity>) => c.value.postId == postId;
      FilterIsSubseq(all, keep);
      var r := Filter(all, keep);
      SubseqKeepsAscending(r, all);
      if (forall id | id in comments.rows :: comments.rows[id].postId != postId) then
        FilterNone(all, keep);
        r
      else
        r
    }

    /** `toPostDto(p)`: the DTO with the comments stored for the post. */
    function ToPostDto(row: Row<PostEntity>): (r: PostDto)
      requires comments.Valid()
      reads comments
      ensures IsDigits(r.id) && ParseNat(r.id) == row.id
      ensures r.comments == Map(CommentsFor(row.id), ToCommentDto)
    {
      PostDtoOf(row, CommentsFor(row.id))
    }

    /** `toPostDto` applied to each row of a list, in order. */
    function ToPostDtos(rows: seq<Row<PostEntity>>): (r: seq<PostDto>)
      requires comments.Valid()
      reads comments
      ensures |r| == |rows|
      ensures forall i | 0 <= i < |rows| :: r[i] == ToPostDto(rows[i])
    {
      seq(|rows|, i requires 0 <= i < |rows| && comments.Valid() reads comments => ToPostDto(rows[i]))
    }

    /** `addCommentToPost(post, …)`: a new comment row linked to the post,
        holding exactly the given author fields and content. */
    method AddCommentToPost(postId: nat, authorName: Option<string>, authorEmail: Option<string>,
                            content: Option<string>, now: string)
      returns (row: Row<CommentEntity>)
      requires Valid() && postId in posts.rows
      modifies comments
      ensures Valid()
      ensures row.value == CommentEntity(postId, authorName, authorEmail, content, now)
      ensures row.id !in old(comments.rows) && comments.rows == old(comments.rows)[row.id := row.value]
      ensures posts.rows == old(posts.rows)
    {
      var id := comments.Save(None, CommentEntity(postId, authorName, authorEmail, content, now));
      row := Row(id, CommentEntity(postId, authorName, authorEmail, content, now));
    }

    /** `updateStatus(id, status)`: a stored post gets the new status and
        is returned; an unknown id changes nothing. */
    method UpdateStatus(id: nat, status: Option<string>) returns (r: Option<Row<PostEntity>>)
      requires Valid()
      modifies posts
      ensures Valid()
      ensures id !in old(posts.rows) ==> r.None? && posts.rows == old(posts.rows)
      ensures id in old(posts.rows) ==>
                r == Some(Row(id, old(posts.rows)[id].(status := status))) &&
                posts.rows == old(posts.rows)[id := r.value.value]
      ensures comments.rows == old(comments.rows)
    {
      var found := posts.FindById(id);
      if found.None? {
        return None;
      }
      var updated := found.value.(status := status);
      var savedId := posts.Save(Some(id), updated);
      r := Some(Row(savedId, updated));
    }

    /** `delete(id)`: the post row is removed; the comment table is left as it is. */
    method Delete(id: nat)
      requires Valid()
      modifies posts
      ensures Valid()
      ensures posts.rows == old(posts.rows) - {id}
      ensures comments.rows == old(comments.rows)
    {
      posts.DeleteById(id);
    }
  }

  /** A sub-sequence of a sequence with ascending ids has ascending ids. */
  lemma {:induction false} SubseqKeepsAscending<T>(r: seq<Row<T>>, s: seq<Row<T>>)
    requires IsSubseq(r, s)
    requires forall i, j | 0 <= i < j < |s| :: s[i].id < s[j].id
    ensures forall x | x in r :: x in s
    ensures forall i, j | 0 <= i < j < |r| :: r[i].id < r[j].id
  {
    if r != [] {
      if r[0] == s[0] {
        SubseqKeepsAscending(r[1..], s[1..]);
        forall j | 0 < j < |r| ensures r[0].id < r[j].id {
          assert r[j] == r[1..][j - 1] && r[1..][j - 1] in r[1..];
          var k :| 0 <= k < |s[1..]| && s[1..][k] == r[j];
          assert s[k + 1] == r[j];
        }
        forall x | x in r ensures x in s {
          if x != r[0] {
            assert x in r[1..];
          }
        }
      } else {
        SubseqKeepsAscending(r, s[1..]);
      }
    }
  }

  /** A newly inserted post has no comments yet: every stored comment names
      an id handed out before it. */
  lemma NewPostHasNoComments(svc: PostService, id: nat)
    requires svc.Valid() && id >= svc.posts.nextId
    ensures svc.CommentsFor(id) == []
  {
  }
}

=== FILE: profile_edit.dfy ===
/** `EditProfilePage` (`app/profile/edit/page.tsx`): the profile form filled
    from the signed-in user, the optional avatar upload, the profile update
    handed back to the auth context, and the password change with its
    client-side checks. The upload and both requests are inputs. */
module ProfileEdit {
  import opened Common
  import opened Types
  import opened Storage
  import Auth
  import AuthContext

  const PASSWORD_MIN := 6
  const PASSWORD_MISMATCH := "Password Mismatch"
  const WEAK_PASSWORD := "Weak Password"
  const PROFILE_UPDATE_FAILED := "Failed to update profile"
  const PASSWORD_CHANGE_FAILED := "Failed to change password"
  const BEARER := "Bearer "

  datatype ProfileForm = ProfileForm(fullName: string, photoUrl: string)
  datatype PasswordForm = PasswordForm(currentPassword: string, newPassword: string, confirmPassword: string)

  /** The form as the user effect fills it: missing or empty values become "". */
  function InitialProfileForm(u: User): (r: ProfileForm)
    ensures Truthy(u.displayName) ==> r.fullName == u.displayName.value
    ensures !Truthy(u.displayName) ==> r.fullName == ""
    ensures Truthy(u.photoURL) ==> r.photoUrl == u.photoURL.value
    ensures !Truthy(u.photoURL) ==> r.photoUrl == ""
  {
    ProfileForm(OrElse(u.displayName, ""), OrElse(u.photoURL, ""))
  }

  /** The checks before a password change, as the title of the toast they
      raise: matching passwords first, then length. */
  function PasswordChangeProblem(f: PasswordForm): (r: Option<string>)
    ensures f.newPassword != f.confirmPassword ==> r == Some(PASSWORD_MISMATCH)
    ensures f.newPassword == f.confirmPassword && |f.newPassword| < PASSWORD_MIN ==> r == Some(WEAK_PASSWORD)
    ensures r.None? <==> f.newPassword == f.confirmPassword && |f.newPassword| >= PASSWORD_MIN
  {
    if f.newPassword != f.confirmPassword then Some(PASSWORD_MISMATCH)
    else if |f.newPassword| < PASSWORD_MIN then Some(WEAK_PASSWORD)
    else None
  }

  /** A server answer: success with a value, or failure with the optional
      `error` field of its JSON body. */
  datatype Reply<T> = Succeeded(value: T) | FailedWith(error: Option<string>)

  /** `PUT /user/{id}/profile`; the id is whatever the user object holds. */
  datatype ProfileRequest = ProfileRequest(userId: Option<int>, authorization: string, fullName: string, photoUrl: string)

  /** `PUT /user/{id}/password`. */
  datatype PasswordRequest = PasswordRequest(userId: Option<int>, authorization: string, currentPassword: string, newPassword: string)

  /** `Bearer ${localStorage.getItem('auth_token')}`: a missing token reads "null". */
  function Authorization(store: LocalStorage): (r: string)
    reads store
    ensures Auth.TOKEN_KEY in store.items ==> r == BEARER + store.items[Auth.TOKEN_KEY]
    ensures Auth.TOKEN_KEY !in store.items ==> r == BEARER + "null"
  {
    BEARER + store.GetItem(Auth.TOKEN_KEY).GetOr("null")
  }

  class ProfileEditState {
    var isLoading: bool
    var profile: ProfileForm
    var passwords: PasswordForm
    var imageFile: Option<File>
    var imagePreview: string

    constructor ()
      ensures !isLoading && profile == ProfileForm("", "") && passwords == PasswordForm("", "", "")
      ensures imageFile.None? && imagePreview == ""
    {
      isLoading := false;
      profile := ProfileForm("", "");
      passwords := PasswordForm("", "", "");
      imageFile := None;
      imagePreview := "";
    }

    /** The effect on `user`: a present user refills the form and the preview. */
    method OnUserChange(user: Option<User>)
      modifies this
      ensures user.Some? ==> profile == InitialProfileForm(user.value) && imagePreview == OrElse(user.value.photoURL, "")
      ensures user.None? ==> profile == old(profile) && imagePreview == old(imagePreview)
      ensures isLoading == old(isLoading) && passwords == old(passwords) && imageFile == old(imageFile)
    {
      if user.Some? {
        profile := InitialProfileForm(user.value);
        imagePreview := OrElse(user.value.photoURL, "");
      }
    }

    method OnFormsChange(profile: ProfileForm, passwords: PasswordForm)
      modifies this
      ensures this.profile == profile && this.passwords == passwords
      ensures isLoading == old(isLoading) && imageFile == old(imageFile) && imagePreview == old(imagePreview)
    {
      this.profile, this.passwords := profile, passwords;
    }

    /** `handleImageChange`: a chosen file is kept for upload and previewed
        (`dataUrl` is what the file reader yields). */
    method HandleImageChange(file: Option<File>, dataUrl: string)
      modifies this
      ensures file.Some? ==> imageFile == file && imagePreview == dataUrl
      ensures file.None? ==> imageFile == old(imageFile) && imagePreview == old(imagePreview)
      ensures isLoading == old(isLoading) && profile == old(profile) && passwords == old(passwords)
    {
      if file.Some? {
        imageFile := file;
        imagePreview := dataUrl;
      }
    }

    /** `handleProfileUpdate`: nothing without a user. With a chosen image the
        upload must yield a non-empty URL (`uploaded`), or the update stops
        before any request. The request carries the form's name and the
        photo URL (the uploaded one, else the form's); on success the answer
        replaces the user in the auth context and the page moves on, on
        failure the error is shown (`failure`). */
    method HandleProfileUpdate(ctx: AuthContext.AuthProvider, uploaded: Option<string>, reply: Reply<User>)
      returns (request: Option<ProfileRequest>, failure: Option<string>, movedOn: bool)
      requires RoundTrips(ctx.codec)
      modifies this, ctx, ctx.store
      ensures old(ctx.user).None? || (imageFile.Some? && !Truthy(uploaded)) ==>
                request.None? && failure.None? && !movedOn &&
                ctx.user == old(ctx.user) && ctx.store.items == old(ctx.store.items)
      ensures old(ctx.user).Some? && (imageFile.None? || Truthy(uploaded)) ==>
                request == Some(ProfileRequest(
                  old(ctx.user).value.id, old(Authorization(ctx.store)), profile.fullName,
                  if imageFile.Some? then uploaded.value else profile.photoUrl))
      ensures request.Some? && reply.Succeeded? ==> ctx.user == Some(reply.value) && movedOn && failure.None?
      ensures request.Some? && reply.FailedWith? ==>
                ctx.user == old(ctx.user) && !movedOn && failure == Some(OrElse(reply.error, PROFILE_UPDATE_FAILED))
      ensures request.Some? && reply.FailedWith? ==> ctx.store.items == old(ctx.store.items)
      ensures request.Some? && reply.Succeeded? && ctx.store.hasWindow ==>
                ctx.store.items == old(ctx.store.items)[Auth.TOKEN_KEY := old(ctx.token).GetOr("null")]
                                                       [Auth.USER_KEY := ctx.codec.encode(reply.value)]
      ensures request.Some? && reply.Succeeded? && !ctx.store.hasWindow ==> ctx.store.items == old(ctx.store.items)
      ensures ctx.token == old(ctx.token) && ctx.isLoading == old(ctx.isLoading)
      ensures old(ctx.user).Some? ==> !isLoading
      ensures profile == old(profile) && passwords == old(passwords)
      ensures imageFile == old(imageFile) && imagePreview == old(imagePreview)
    {
      request, failure, movedOn := None, None, false;
      if ctx.user.None? {
        return;
      }
      var user := ctx.user.value;
      isLoading := true;
      var photoUrl := profile.photoUrl;
      if imageFile.Some? {
        if Truthy(uploaded) {
          photoUrl := uploaded.value;
        } else {
          isLoading := false;
          return;
        }
      }
      request := Some(ProfileRequest(user.id, Authorization(ctx.store), profile.fullName, photoUrl));
      match reply {
        case Succeeded(updated) =>
          ctx.UpdateUser(updated);
          movedOn := true;
        case FailedWith(error) =>
          failure := Some(OrElse(error, PROFILE_UPDATE_FAILED));
      }
      isLoading := false;
    }

    /** `handlePasswordChange`: nothing without a user; a failed check raises
        its toast (`problem`) and sends nothing; otherwise the request is
        sent, and on success the three fields are cleared. */
    method HandlePasswordChange(ctx: AuthContext.AuthProvider, reply: Reply<()>)
      returns (request: Option<PasswordRequest>, problem: Option<string>, failure: Option<string>)
      ensures ctx.user.None? ==> request.None? && problem.None? && passwords == old(passwords)
      ensures ctx.user.Some? ==> problem == PasswordChangeProblem(old(passwords))
      ensures ctx.user.Some? && problem.Some? ==> request.None? && passwords == old(passwords)
      ensures request.Some? <==> ctx.user.Some? && PasswordChangeProblem(old(passwords)).None?
      ensures request.Some? ==> request.value == PasswordRequest(
                ctx.user.value.id, Authorization(ctx.store), old(passwords).currentPassword, old(passwords).newPassword)
      ensures request.Some? && reply.Succeeded? ==> passwords == PasswordForm("", "", "") && failure.None?
      ensures request.Some? && reply.FailedWith? ==>
                passwords == old(passwords) && failure == Some(OrElse(reply.error, PASSWORD_CHANGE_FAILED))
      ensures request.None? ==> failure.None?
      ensures request.Some? ==> !isLoading
      ensures request.None? ==> isLoading == old(isLoading)
      ensures profile == old(profile) && imageFile == old(imageFile) && imagePreview == old(imagePreview)
      modifies this
    {
      request, problem, failure := None, None, None;
      if ctx.user.None? {
        return;
      }
      problem := PasswordChangeProblem(passwords);
      if problem.Some? {
        return;
      }
      isLoading := true;
      request := Some(PasswordRequest(ctx.user.value.id, Authorization(ctx.store), passwords.currentPassword, passwords.newPassword));
      match reply {
        case Succeeded(_) =>
          passwords := PasswordForm("", "", "");
        case FailedWith(error) =>
          failure := Some(OrElse(error, PASSWORD_CHANGE_FAILED));
      }
      isLoading := false;
    }
  }
}

=== FILE: register_page.dfy ===
/** `RegisterPage` (`app/register/page.tsx`): the client-side checks of the
    sign-up form, the call to `register` from `lib/auth.ts`, signing the new
    account in through the auth context, and the error shown on failure. */
module RegisterPage {
  import opened Common
  import opened Types
  import opened Storage
  import Auth
  import AuthContext

  const PASSWORD_MIN := 6
  const MISMATCH := "Passwords do not match"
  const TOO_SHORT := "Password must be at least 6 characters"
  const ACCOUNT_EXISTS := "An account with this email already exists"
  const REGISTRATION_FALLBACK := "Registration failed. Please try again."

  /** The checks run before any request: matching passwords first, then length. */
  function RegisterValidation(password: string, confirmPassword: string): (r: Option<string>)
    ensures password != confirmPassword ==> r == Some(MISMATCH)
    ensures password == confirmPassword && |password| < PASSWORD_MIN ==> r == Some(TOO_SHORT)
    ensures r.None? <==> password == confirmPassword && |password| >= PASSWORD_MIN
  {
    if password != confirmPassword then Some(MISMATCH)
    else if |password| < PASSWORD_MIN then Some(TOO_SHORT)
    else None
  }

  /** The message shown for a failed registration: a message that mentions
      "already exists" or "409" becomes the friendly duplicate message; an
      empty one becomes the fallback; any other is shown as it is. */
  function RegisterErrorMessage(message: string): (r: string)
    ensures Contains(message, "already exists") || Contains(message, "409") ==> r == ACCOUNT_EXISTS
    ensures !(Contains(message, "already exists") || Contains(message, "409")) ==>
              r == (if message == "" then REGISTRATION_FALLBACK else message)
    ensures r != ""
  {
    if Contains(message, "already exists") || Contains(message, "409") then ACCOUNT_EXISTS
    else if message == "" then REGISTRATION_FALLBACK
    else message
  }

  /** The backend's text for a taken e-mail has no 'x', so it does not
      contain "already exists". */
  lemma TakenEmailTextNotExists()
    ensures !Contains("Email already registered", "already exists")
  {
    assert "already exists"[9] == 'x';
    MissingCharNotContained("Email already registered", "already exists", 9);
  }

  /** That text has no '4', so it does not contain "409". */
  lemma TakenEmailTextNo409()
    ensures !Contains("Email already registered", "409")
  {
    assert "409"[0] == '4';
    MissingCharNotContained("Email already registered", "409", 0);
  }

  /** The backend's answer to a taken e-mail ("Email already registered" as
      the JSON `error`, status 400) mentions neither "already exists" nor
      "409", so the page shows it as it is, not the friendly message. */
  lemma DuplicateEmailShownVerbatim()
    ensures var message := Auth.Register(Auth.Refused(Auth.Json(Some("Email already registered"), None))).message;
            message == "Email already registered" && RegisterErrorMessage(message) == "Email already registered"
  {
    TakenEmailTextNotExists();
    TakenEmailTextNo409();
  }

  class RegisterPageState {
    var fullName: string
    var email: string
    var password: string
    var confirmPassword: string
    var isLoading: bool
    var error: string

    constructor ()
      ensures fullName == "" && email == "" && password == "" && confirmPassword == ""
      ensures !isLoading && error == ""
    {
      fullName, email, password, confirmPassword := "", "", "", "";
      isLoading, error := false, "";
    }

    method OnFieldsChange(fullName: string, email: string, password: string, confirmPassword: string)
      modifies this
      ensures this.fullName == fullName && this.email == email
      ensures this.password == password && this.confirmPassword == confirmPassword
      ensures isLoading == old(isLoading) && error == old(error)
    {
      this.fullName, this.email, this.password, this.confirmPassword := fullName, email, password, confirmPassword;
    }

    /** `handleSubmit`: a failed check shows its message and sends nothing;
        otherwise `register` is called (`reply` is the server's answer). On
        success the session is handed to `login(undefined, token, user)` and
        the page goes home; on failure the message is shown. `sent` tells
        whether the request went out, `navigatedHome` whether the page left. */
    method HandleSubmit(ctx: AuthContext.AuthProvider, reply: Auth.AuthReply) returns (sent: bool, navigatedHome: bool)
      requires RoundTrips(ctx.codec)
      modifies this, ctx, ctx.store
      ensures sent <==> RegisterValidation(password, confirmPassword).None?
      ensures !sent ==> error == RegisterValidation(password, confirmPassword).value && !navigatedHome
      ensures !sent ==> ctx.token == old(ctx.token) && ctx.user == old(ctx.user)
      ensures sent && reply.Accepted? ==> navigatedHome && error == ""
      ensures sent && reply.Accepted? && reply.response.token != "" ==>
                ctx.token == Some(reply.response.token) && ctx.user == Some(reply.response.user)
      ensures sent && reply.Refused? ==>
                !navigatedHome && error == RegisterErrorMessage(Auth.Register(reply).message)
      ensures sent && reply.Refused? ==> ctx.token == old(ctx.token) && ctx.user == old(ctx.user)
      ensures !(sent && reply.Accepted? && reply.response.token != "") ==>
                ctx.token == old(ctx.token) && ctx.user == old(ctx.user) && ctx.store.items == old(ctx.store.items)
      ensures sent && reply.Accepted? && reply.response.token != "" && ctx.store.hasWindow ==>
                ctx.store.items == old(ctx.store.items)[Auth.TOKEN_KEY := reply.response.token]
                                                       [Auth.USER_KEY := ctx.codec.encode(reply.response.user)]
      ensures sent && reply.Accepted? && reply.response.token != "" && !ctx.store.hasWindow ==>
                ctx.store.items == old(ctx.store.items)
      ensures ctx.isLoading == old(ctx.isLoading)
      ensures sent ==> !isLoading
      ensures !sent ==> isLoading == old(isLoading)
      ensures fullName == old(fullName) && email == old(email)
      ensures password == old(password) && confirmPassword == old(confirmPassword)
    {
      error := "";
      navigatedHome := false;
      var invalid := RegisterValidation(password, confirmPassword);
      if invalid.Some? {
        error := invalid.value;
        sent := false;
        return;
      }
      sent := true;
      isLoading := true;
      var result := Auth.Register(reply);
      if result.Ok? {
        ctx.Login(Some(result.value.token), Some(result.value.user));
        navigatedHome := true;
      } else {
        error := RegisterErrorMessage(result.message);
      }
      isLoading := false;
    }
  }
}

=== FILE: repository.dfy ===
/** The Spring Data repositories the backend services use, as tables whose
    rows are keyed by ids the database generates (`GenerationType.IDENTITY`):
    ids start at 1, grow by one per insert and are never reused. */
module Repository {
  import opened Common

  /** A stored row: its generated id and the entity's other columns. */
  datatype Row<T> = Row(id: nat, value: T)

  /** The rows of `m` with the given ids, in that order. */
  function RowsAt<T>(m: map<nat, T>, ids: seq<nat>): (r: seq<Row<T>>)
    requires forall k | k in ids :: k in m
    ensures |r| == |ids|
    ensures forall i | 0 <= i < |r| :: r[i] == Row(ids[i], m[ids[i]])
  {
    if ids == [] then [] else RowsAt(m, ids[..|ids| - 1]) + [Row(ids[|ids| - 1], m[ids[|ids| - 1]])]
  }

  /** A row is listed exactly when its id is one of `ids` and it holds the
      stored value. */
  lemma RowsAtMembers<T>(m: map<nat, T>, ids: seq<nat>)
    requires forall k | k in ids :: k in m
    ensures forall row :: row in RowsAt(m, ids) <==> row.id in ids && row.id in m && m[row.id] == row.value
  {
    var r := RowsAt(m, ids);
    forall row | row in r ensures row.id in ids {
      var i :| 0 <= i < |r| && r[i] == row;
      assert ids[i] == row.id;
    }
    forall id | id in ids ensures Row(id, m[id]) in r {
      var i :| 0 <= i < |ids| && ids[i] == id;
      assert r[i] == Row(id, m[id]);
    }
  }

  class Table<T(!new)> {
    var rows: map<nat, T>
    var nextId: nat

    /** Every stored id was handed out before `nextId`. */
    predicate Valid()
      reads this
    {
      1 <= nextId && forall id | id in rows :: 1 <= id < nextId
    }

    constructor ()
      ensures rows == map[] && nextId == 1 && Valid()
    {
      rows := map[];
      nextId := 1;
    }

    /** `findById`. */
    function FindById(id: nat): (r: Option<T>)
      reads this
      ensures r.Some? <==> id in rows
      ensures r.Some? ==> r.value == rows[id]
    {
      if id in rows then Some(rows[id]) else None
    }

    /** `findAll`: every row once, in ascending id order. */
    function FindAll(): (r: seq<Row<T>>)
      requires Valid()
      reads this
      ensures forall row :: row in r <==> row.id in rows && rows[row.id] == row.value
      ensures forall i, j | 0 <= i < j < |r| :: r[i].id < r[j].id
    {
      var ids := KeysBelow(rows, nextId);
      RowsAtMembers(rows, ids);
      RowsAt(rows, ids)
    }

    /** `save`: an entity whose id is stored is overwritten in place; any
        other entity is inserted under the next generated id. */
    method Save(id: Option<nat>, value: T) returns (savedId: nat)
      requires Valid()
      modifies this
      ensures Valid()
      ensures id.Some? && id.value in old(rows) ==> savedId == id.value && nextId == old(nextId)
      ensures !(id.Some? && id.value in old(rows)) ==> savedId == old(nextId) && nextId == old(nextId) + 1
      ensures savedId !in old(rows) <==> !(id.Some? && id.value in old(rows))
      ensures rows == old(rows)[savedId := value]
    {
      if id.Some? && id.value in rows {
        savedId := id.value;
      } else {
        savedId := nextId;
        nextId := nextId + 1;
      }
      rows := rows[savedId := value];
    }

    /** `deleteById`: a missing id is ignored. */
    method DeleteById(id: nat)
      requires Valid()
      modifies this
      ensures Valid()
      ensures rows == old(rows) - {id} && nextId == old(nextId)
    {
      rows := rows - {id};
    }
  }
}

=== FILE: saved_posts.dfy ===
/** `useSavedPosts` (`hooks/use-saved-posts.ts`): the ids of the posts the
    visitor bookmarked, loaded from and written back to `localStorage` under
    one key as a JSON array. Toasts are left out. */
module SavedPosts {
  import opened Common
  import opened Storage

  const SAVED_KEY := "savedPostIds"

  /** The initial state: the stored array, or `[]` when there is no window,
      nothing (or the empty string) is stored, or the stored text does not parse. */
  function LoadSavedIds(store: LocalStorage, codec: Codec<seq<string>>): (r: seq<string>)
    reads store
    ensures !store.hasWindow || SAVED_KEY !in store.items || store.items[SAVED_KEY] == "" ==> r == []
    ensures store.hasWindow && SAVED_KEY in store.items && store.items[SAVED_KEY] != "" ==>
              r == codec.decode(store.items[SAVED_KEY]).GetOr([])
  {
    var raw := if store.hasWindow then store.GetItem(SAVED_KEY) else None;
    if raw.Some? && raw.value != "" then codec.decode(raw.value).GetOr([]) else []
  }

  /** The list after toggling `postId`: removed (every copy) when present,
      appended when absent. */
  function Toggled(ids: seq<string>, postId: string): (r: seq<string>)
    ensures postId in r <==> postId !in ids
    ensures forall x :: x != postId ==> (x in r <==> x in ids)
    ensures forall x :: x != postId ==> Count(r, x) == Count(ids, x)
    ensures postId !in ids ==> r == ids + [postId]
    ensures postId in ids ==> IsSubseq(r, ids) && |r| < |ids|
  {
    if postId in ids then
      var kept := Filter(ids, id => id != postId);
      FilterIsSubseq(ids, id => id != postId);
      FilterShorter(ids, postId);
      kept
    else
      CountSnocOthers(ids, postId);
      ids + [postId]
  }

  /** Appending `e` leaves the count of every other element as it was. */
  lemma CountSnocOthers(ids: seq<string>, e: string)
    ensures forall x :: x != e ==> Count(ids + [e], x) == Count(ids, x)
  {
    forall x | x != e ensures Count(ids + [e], x) == Count(ids, x) {
      CountSnoc(ids, e, x);
    }
  }

  /** Removing a present element makes the list strictly shorter. */
  lemma {:induction false} FilterShorter(ids: seq<string>, postId: string)
    requires postId in ids
    ensures |Filter(ids, id => id != postId)| < |ids|
  {
    if ids[0] != postId {
      FilterShorter(ids[1..], postId);
    }
  }

  /** Toggling keeps the list free of repeats. */
  lemma ToggledKeepsDistinct(ids: seq<string>, postId: string)
    requires NoDuplicates(ids)
    ensures NoDuplicates(Toggled(ids, postId))
  {
    if postId in ids {
      FilterNoDuplicates(ids, id => id != postId);
    }
  }

  /** Saving and then unsaving a post that was not saved restores the list. */
  lemma {:induction false} ToggleTwiceRestores(ids: seq<string>, postId: string)
    requires postId !in ids
    ensures Toggled(Toggled(ids, postId), postId) == ids
  {
    var keep := (id: string) => id != postId;
    FilterAppend(ids, [postId], keep);
    FilterAll(ids, keep);
    assert Filter([postId], keep) == [];
  }

  /** Unsaving and then saving a saved post moves it to the end. */
  lemma {:induction false} ToggleTwiceMovesToEnd(ids: seq<string>, postId: string)
    requires postId in ids
    ensures Toggled(Toggled(ids, postId), postId) == Filter(ids, id => id != postId) + [postId]
  {
  }

  /** The hook's state: the ids, and the storage it mirrors them in. */
  class SavedPostsHook {
    const store: LocalStorage
    const codec: Codec<seq<string>>
    var savedPostIds: seq<string>

    /** The lazy initialiser of the `useState` call. */
    constructor (store: LocalStorage, codec: Codec<seq<string>>)
      ensures this.store == store && this.codec == codec
      ensures savedPostIds == LoadSavedIds(store, codec)
    {
      this.store := store;
      this.codec := codec;
      savedPostIds := LoadSavedIds(store, codec);
    }

    /** `persist(ids)`: writes the array when there is a window; a write that
        throws (`writeFails`, e.g. a full quota) is ignored. */
    method Persist(ids: seq<string>, writeFails: bool)
      modifies store
      ensures store.hasWindow && !writeFails ==> store.items == old(store.items)[SAVED_KEY := codec.encode(ids)]
      ensures !store.hasWindow || writeFails ==> store.items == old(store.items)
    {
      if store.hasWindow && !writeFails {
        store.SetItem(SAVED_KEY, codec.encode(ids));
      }
    }

    /** `toggleSavedPost(postId)`: the new list is persisted and becomes the
        state; `wasSaved` chooses the toast. */
    method ToggleSavedPost(postId: string, writeFails: bool) returns (wasSaved: bool)
      modifies this, store
      ensures wasSaved <==> postId in old(savedPostIds)
      ensures savedPostIds == Toggled(old(savedPostIds), postId)
      ensures store.hasWindow && !writeFails ==>
                store.items == old(store.items)[SAVED_KEY := codec.encode(savedPostIds)]
      ensures !store.hasWindow || writeFails ==> store.items == old(store.items)
    {
      var prev := savedPostIds;
      wasSaved := postId in prev;
      var next := Toggled(prev, postId);
      Persist(next, writeFails);
      savedPostIds := next;
    }
  }

  /** What a successful persist writes is what the next load reads. */
  lemma LoadAfterPersist(store: LocalStorage, codec: Codec<seq<string>>, ids: seq<string>)
    requires RoundTrips(codec) && store.hasWindow
    requires SAVED_KEY in store.items && store.items[SAVED_KEY] == codec.encode(ids)
    ensures LoadSavedIds(store, codec) == ids
  {
  }
}

=== FILE: storage.dfy ===
/** The browser's `localStorage`: a string-to-string map that exists only when
    the code runs with a `window`. JSON is kept abstract as a codec: `encode` is
    `JSON.stringify`, `decode` is `JSON.parse` (`None` when it throws). */
module Storage {
  import opened Common

  datatype Codec<!T> = Codec(encode: T -> string, decode: string -> Option<T>)

  /** What is written can be read back, and what is written is never the
      empty string (so it is truthy when read). */
  ghost predicate RoundTrips<T(!new)>(c: Codec<T>) {
    forall v: T :: c.encode(v) != "" && c.decode(c.encode(v)) == Some(v)
  }

  class LocalStorage {
    /** `typeof window !== 'undefined'`. */
    const hasWindow: bool
    var items: map<string, string>

    constructor (hasWindow: bool, items: map<string, string>)
      ensures this.hasWindow == hasWindow && this.items == items
    {
      this.hasWindow := hasWindow;
      this.items := items;
    }

    /** `localStorage.getItem(key)`. */
    function GetItem(key: string): (r: Option<string>)
      reads this
      ensures r.Some? <==> key in items
      ensures r.Some? ==> r.value == items[key]
    {
      if key in items then Some(items[key]) else None
    }

    /** `localStorage.setItem(key, value)`. */
    method SetItem(key: string, value: string)
      modifies this
      ensures items == old(items)[key := value]
    {
      items := items[key := value];
    }

    /** `localStorage.removeItem(key)`. */
    method RemoveItem(key: string)
      modifies this
      ensures items == old(items) - {key}
    {
      items := items - {key};
    }
  }
}

=== FILE: types.dfy ===
/** The client's view models (`lib/types.ts`) and the admin policy that both
    `auth.ts` and the auth context apply to a user. */
module Types {
  import opened Common

  datatype Role = AdminRole | UserRole

  /** `User`: every field but the role may be null in the JSON the client holds. */
  datatype User = User(
    id: Option<int>,
    email: Option<string>,
    displayName: Option<string>,
    photoURL: Option<string>,
    role: Option<Role>)

  /** The denormalised author snapshot carried by posts and comments. The
      e-mail is `null` in what the backend sends for a post created without
      an author, whatever the declared type says. */
  datatype Author = Author(name: string, avatarUrl: string, email: Option<string>)

  datatype Comment = Comment(id: string, author: Author, content: string, createdAt: string)

  datatype Post = Post(
    id: string,
    author: Author,
    topic: string,
    title: string,
    imageUrl: string,
    content: string,
    createdAt: string,
    status: string,
    likes: int,
    dislikes: int,
    comments: seq<Comment>)

  /** The login and register responses. */
  datatype AuthResponse = AuthResponse(token: string, user: User)

  /** A user-chosen file: what the pages look at is its MIME type. */
  datatype File = File(name: string, mimeType: string)

  /** The approved and the pending posts, which the admin views fetch together. */
  datatype PostLists = PostLists(approved: seq<Post>, pending: seq<Post>)

  const ADMIN_EMAIL := "admin@example.com"

  /** JavaScript truthiness of a nullable string: present and not empty. */
  predicate Truthy(s: Option<string>) {
    s.Some? && s.value != ""
  }

  /** `x || d` for a nullable string. */
  function OrElse(s: Option<string>, d: string): (r: string)
    ensures Truthy(s) ==> r == s.value
    ensures !Truthy(s) ==> r == d
  {
    if s.Some? && s.value != "" then s.value else d
  }

  /** `user?.email === 'admin@example.com' || user?.role === 'admin'`. */
  predicate IsAdminUser(u: Option<User>) {
    u.Some? && (u.value.email == Some(ADMIN_EMAIL) || u.value.role == Some(AdminRole))
  }

  /** The admin flag holds for the well-known address whatever the role, for
      the admin role whatever the address, and never without a user. */
  lemma AdminPolicy(u: Option<User>)
    ensures u.None? ==> !IsAdminUser(u)
    ensures u.Some? && u.value.email == Some(ADMIN_EMAIL) ==> IsAdminUser(u)
    ensures u.Some? && u.value.role == Some(AdminRole) ==> IsAdminUser(u)
    ensures u.Some? && u.value.email != Some(ADMIN_EMAIL) && u.value.role != Some(AdminRole) ==> !IsAdminUser(u)
  {
  }
}

=== FILE: user_service.dfy ===
/** `UserService` (`service/UserService.java`): editing the profile of a
    stored user and changing the password. The user entity, and the password
    encoder both backend services use, are defined here. BCrypt is an
    abstract pair `encode` / `matches` with `matches(p, encode(p))`. Each
    `IllegalArgumentException` thrown is an `Err` with its message. */
module UserService {
  import opened Common
  import opened Repository
  import ProfileEdit

  /** The `users` table's columns other than the id; `roles` holds the names
      of the user's roles. */
  datatype UserEntity = UserEntity(
    email: string,
    passwordHash: string,
    fullName: Option<string>,
    photoUrl: Option<string>,
    roles: set<string>)

  datatype PasswordEncoder = PasswordEncoder(encode: string -> string, matches: (string, string) -> bool)

  /** A password matches its own hash. */
  ghost predicate Sound(pe: PasswordEncoder) {
    forall raw :: pe.matches(raw, pe.encode(raw))
  }

  /** Only the password a hash was made from matches it. */
  ghost predicate Exact(pe: PasswordEncoder) {
    forall raw, other :: pe.matches(other, pe.encode(raw)) ==> other == raw
  }

  const USER_NOT_FOUND := "User not found"
  const WRONG_CURRENT_PASSWORD := "Current password is incorrect"
  const NEW_PASSWORD_TOO_SHORT := "New password must be at least 6 characters"
  const NEW_PASSWORD_MIN := 6

  /** The user after `updateProfile(fullName, photoUrl)`: the name changes
      only to a non-null value that is not blank after `trim()`, the photo to
      any non-null value (the empty string included); nothing else changes. */
  function ProfileUpdated(u: UserEntity, fullName: Option<string>, photoUrl: Option<string>): (r: UserEntity)
    ensures fullName.Some? && !IsJavaBlank(fullName.value) ==> r.fullName == fullName
    ensures fullName.None? || IsJavaBlank(fullName.value) ==> r.fullName == u.fullName
    ensures photoUrl.Some? ==> r.photoUrl == photoUrl
    ensures photoUrl.None? ==> r.photoUrl == u.photoUrl
    ensures r.email == u.email && r.passwordHash == u.passwordHash && r.roles == u.roles
  {
    var u := if fullName.Some? && !IsJavaBlank(fullName.value) then u.(fullName := fullName) else u;
    if photoUrl.Some? then u.(photoUrl := photoUrl) else u
  }

  /** Sending the same update twice is sending it once. */
  lemma ProfileUpdateIdempotent(u: UserEntity, fullName: Option<string>, photoUrl: Option<string>)
    ensures ProfileUpdated(ProfileUpdated(u, fullName, photoUrl), fullName, photoUrl) == ProfileUpdated(u, fullName, photoUrl)
  {
  }

  /** The profile page always sends both fields as strings: the photo is
      always replaced, even by an empty URL, while a name made only of spaces
      leaves the stored name as it was. */
  lemma ProfilePageRequestEffect(u: UserEntity, req: ProfileEdit.ProfileRequest)
    ensures ProfileUpdated(u, Some(req.fullName), Some(req.photoUrl)).photoUrl == Some(req.photoUrl)
    ensures IsJavaBlank(req.fullName) ==> ProfileUpdated(u, Some(req.fullName), Some(req.photoUrl)).fullName == u.fullName
    ensures !IsJavaBlank(req.fullName) ==> ProfileUpdated(u, Some(req.fullName), Some(req.photoUrl)).fullName == Some(req.fullName)
  {
  }

  /** `newPassword == null || newPassword.length() < 6`. */
  predicate TooShort(newPassword: Option<string>) {
    newPassword.None? || |newPassword.value| < NEW_PASSWORD_MIN
  }

  /** A new password the profile page lets through is long enough for the server. */
  lemma PageCheckImpliesServerCheck(f: ProfileEdit.PasswordForm)
    requires ProfileEdit.PasswordChangeProblem(f).None?
    ensures !TooShort(Some(f.newPassword))
  {
  }

  class UserService {
    const users: Table<UserEntity>
    const encoder: PasswordEncoder

    constructor (users: Table<UserEntity>, encoder: PasswordEncoder)
      ensures this.users == users && this.encoder == encoder
    {
      this.users := users;
      this.encoder := encoder;
    }

    /** `getUserById(id)`. */
    function GetUserById(userId: nat): (r: Result<UserEntity>)
      reads users
      ensures userId !in users.rows <==> r == Err(USER_NOT_FOUND)
      ensures userId in users.rows ==> r == Ok(users.rows[userId])
    {
      if userId in users.rows then Ok(users.rows[userId]) else Err(USER_NOT_FOUND)
    }

    /** `updateProfile(id, request)`: "User not found" for an unknown id;
        otherwise the user becomes `ProfileUpdated(…)`, is saved and returned. */
    method UpdateProfile(userId: nat, fullName: Option<string>, photoUrl: Option<string>) returns (r: Result<UserEntity>)
      requires users.Valid()
      modifies users
      ensures users.Valid()
      ensures userId !in old(users.rows) ==> r == Err(USER_NOT_FOUND) && users.rows == old(users.rows)
      ensures userId in old(users.rows) ==>
                var updated := ProfileUpdated(old(users.rows)[userId], fullName, photoUrl);
                r == Ok(updated) && users.rows == old(users.rows)[userId := updated]
    {
      var found := GetUserById(userId);
      if found.Err? {
        return found;
      }
      var updated := ProfileUpdated(found.value, fullName, photoUrl);
      var _ := users.Save(Some(userId), updated);
      r := Ok(updated);
    }

    /** `changePassword(id, request)`: after "User not found", the current
        password is checked before the new one; on success the stored hash
        becomes `encode(newPassword)`, and on any error nothing changes. */
    method ChangePassword(userId: nat, currentPassword: string, newPassword: Option<string>) returns (r: Result<()>)
      requires users.Valid()
      modifies users
      ensures users.Valid()
      ensures userId !in old(users.rows) ==> r == Err(USER_NOT_FOUND)
      ensures userId in old(users.rows) && !encoder.matches(currentPassword, old(users.rows)[userId].passwordHash) ==>
                r == Err(WRONG_CURRENT_PASSWORD)
      ensures userId in old(users.rows) && encoder.matches(currentPassword, old(users.rows)[userId].passwordHash) ==>
                (TooShort(newPassword) ==> r == Err(NEW_PASSWORD_TOO_SHORT))
      ensures r.Err? ==> users.rows == old(users.rows)
      ensures r.Ok? <==> userId in old(users.rows) &&
                         encoder.matches(currentPassword, old(users.rows)[userId].passwordHash) && !TooShort(newPassword)
      ensures r.Ok? ==> users.rows == old(users.rows)[userId := old(users.rows)[userId].(passwordHash := encoder.encode(newPassword.value))]
    {
      var found := GetUserById(userId);
      if found.Err? {
        return Err(found.message);
      }
      var user := found.value;
      if !encoder.matches(currentPassword, user.passwordHash) {
        return Err(WRONG_CURRENT_PASSWORD);
      }
      if newPassword.None? || |newPassword.value| < NEW_PASSWORD_MIN {
        return Err(NEW_PASSWORD_TOO_SHORT);
      }
      var _ := users.Save(Some(userId), user.(passwordHash := encoder.encode(newPassword.value)));
      r := Ok(());
    }
  }

  /** After a successful change the new password matches the stored hash,
      and with an exact encoder the old one no longer does. */
  lemma NewPasswordMatches(pe: PasswordEncoder, u: UserEntity, oldPassword: string, newPassword: string)
    requires Sound(pe) && Exact(pe) && oldPassword != newPassword
    ensures pe.matches(newPassword, u.(passwordHash := pe.encode(newPassword)).passwordHash)
    ensures !pe.matches(oldPassword, u.(passwordHash := pe.encode(newPassword)).passwordHash)
  {
  }
}
